=== FILE: README.md ===
# SolHyCool results pipeline, modelled in Dafny

This project models the result-aggregation and diagram-parametrisation
pipeline of the SolHyCool optimisation tools, together with the small pure
computations the dashboard and the visualisation package build on it.

- **Results watcher** (`generate_results.py`):
  - the debounce/cooldown gate of `MyHandler.on_modified`;
  - `generate_results_file`, which files every `ptop_<cond>_R1<...>.json` of
    the results folder into the two-level index `results.json`;
  - `generate_diagram`, which parametrises the facility diagram (SVG) of one
    operation point: line widths, sized icons, text boxes, cost icons and the
    dark theme;
  - `generate_diagrams`, the loop that draws every new point.
- **Visualisation package** (`solhycool_visualizations/diagrams.py`): the
  later copy of the diagram helpers, `change_text`, and the variant of
  `generate_diagram`. The variant picks a solution by a 1-based index, splits
  the flow by R1 first and writes three extra labels.
- **Dashboard** (`pages/optimization.py`):
  - `flatten_dict`;
  - the condition and point ids;
  - the `Tv > Tamb` guard;
  - the ordering of the Pareto front;
  - the choice of diagram file with its dark-to-light fallback;
  - the five approaches of the comparison bar plot.
- **Cost plots** (`solhycool_visualizations/costs.py`): the shares of the
  electricity and cooling pie charts, and the model lines drawn over the
  stacked measured consumptions.
- **Actuator power** (`solhycool_visualizations/calculations.py`): the
  coefficient table and the polynomial power model.

The SVG document is a tree of elements (`Svg.Node`). Each element has a tag
in lxml's `{namespace}local` form, an attribute map, text, and children.

- A cell lookup selects the first element in document order that
  `//svg:g[@id="cell-<id>"]` selects. It fails with `IndexError` when there
  is none.
- In-place mutation of lxml elements becomes a pure edit of the tree at that
  element's path.
- Text is a sequence of pieces. A number stays a number in the text, with
  the format the source prints it in. Floating-point formatting is
  therefore not modelled.
- Files are a map from path to bytes; JSON files are `Json.Value`s; a
  directory listing is a sequence of names.
- Errors the source raises are values of `Failures.Error`.
- The clock, the file system and `generate_diagram` itself (in the
  orchestration loop) are parameters.

The modules follow the program:

| module | models |
|---|---|
| `Gate` | `MyHandler.on_modified` |
| `Aggregator` | `generate_results_file` |
| `Json` | JSON values, `o[k]`, `flatten_dict` |
| `ValueMapper` | `get_y`, `get_level`, `round_to_nonzero_decimal` |
| `Widths` | the stroke widths of the flow network, in both split orders |
| `Svg` | the document tree, cell lookup, tag tests |
| `Render` | the element-level helpers: `adjust_icon`, `generate_boundary_circle`, `update_image`, `change_text`, `change_color_text` |
| `Steps` | those helpers applied to a cell of the document |
| `Diagram` | the parts both versions of `generate_diagram` share |
| `DiagramV1`, `DiagramV2` | the two versions of `generate_diagram` |
| `Theme` | the dark-theme pass |
| `Orchestrator` | `generate_diagrams` as written, and corrected |
| `Dashboard` | the optimisation page's ids, guard, diagram choice and approaches |
| `Costs`, `Calculations` | the cost plots' arithmetic and the actuator power model |

Where the code and its documentation disagree, the model follows the code:

- `round_to_nonzero_decimal` truncates a number with `|n| >= 1` to one
  decimal place (`123` gives `123.0`), not to its first significant digit.
- An event that passes the change-delay gate records its time even when the
  cooldown then blocks the run.

## Model

| member | source | states |
|---|---|---|
| Gate.OnModified | generate_results.py:50-70 | The pipeline starts exactly when the event is not a directory event, at least CHANGE_DELAY has passed since the last counted change, and at least COOLDOWN_PERIOD has passed since the last completed run. A counted change records its time even when the cooldown blocks. The run time is recorded only when the pipeline returns. |
| Gate.IgnoredEventsChangeNothing | generate_results.py:56-59 | A directory event, or an event within CHANGE_DELAY of the last counted change, leaves both timestamps alone and starts nothing. |
| Gate.NothingCountsWithinDelay | generate_results.py:59-60 | After a change at or after t0 has been counted, events before t0 + CHANGE_DELAY start nothing and leave the state unchanged. |
| Gate.BurstRunsAtMostOnce | generate_results.py:59-68 | A burst of events that all fall within one CHANGE_DELAY window starts the pipeline at most once. |
| Gate.NothingRunsWithinCooldown | generate_results.py:62-68 | Within COOLDOWN_PERIOD of a completed run, no event starts the pipeline. |
| Gate.CooldownWindowRunsAtMostOnce | generate_results.py:59-68 | When every run returns, events inside one COOLDOWN_PERIOD window start at most one run. |
| Gate.RaisedRunDoesNotArmCooldown | generate_results.py:65-68 | A run that raises does not record its time, so the next counted change, only CHANGE_DELAY later, starts the pipeline again. |
| Aggregator.PtopFiles | generate_results.py:87 | Exactly the regular files whose names start with `ptop_` and end with `.json` are read. So `results.json` is never read back in. |
| Aggregator.PtopFilesSingle | generate_results.py:87 | A one-entry listing keeps its entry exactly when it is a ptop file. |
| Aggregator.PtopFilesAppend | generate_results.py:87 | Filtering a concatenated listing concatenates the filtered parts. With PtopFilesSingle, this pins the result down: the ptop files in listing order, each as often as it is listed. |
| Aggregator.LazyMatch | generate_results.py:98 | The match `re.search` reports for `open(.*?)close`: the leftmost `open` with a newline-free stretch up to a `close`, paired with the first such `close`. None exactly when no `open` at or after the start reaches a `close` that way. |
| Aggregator.ConditionOf | generate_results.py:98 | The condition is the text between the `ptop_` and the `_R1` of the lazy match. Without a match, `.group` on None is the error. |
| Aggregator.PointOf | generate_results.py:109 | The point is `R1` followed by the text between the `_R1` and the first `.json` of the lazy match. Without a match, `.group` on None is the error. |
| Aggregator.DoubledExtensionFiledAsSingle | generate_results.py:98-109 | `ptop_A_R1x.json.json` gives condition `A` and point `R1x`: the point stops at the first `.json`. |
| Aggregator.WriteOf | generate_results.py:93-116 | A ptop file files its JSON record, and does so exactly when both its condition and its point parse. |
| Aggregator.Writes | generate_results.py:90-116 | The whole pass fails when any one file's name fails to parse. Otherwise every file gives one filing. |
| Aggregator.Insert | generate_results.py:100-116 | A filing adds its condition, if it is new, and keeps every other condition. |
| Aggregator.ApplySpec | generate_results.py:77-116 | After the filings, a condition is present iff it was before or some file names it. Each `(cond, point)` holds the record of the last file for it, or its old value when no file names it. Records are replaced whole. |
| Aggregator.ApplyIdempotent | generate_results.py:90-116 | Filing the same files a second time changes nothing. |
| Aggregator.ApplyConcat | generate_results.py:90-116 | Filing a listing in two parts is the same as filing it at once, so the pass is incremental. |
| Aggregator.GenerateIdempotent | generate_results.py:77-127 | Running the pass on the index it just wrote, with the same folder, gives the same index. |
| Aggregator.GenerateKeepsOldEntries | generate_results.py:77-116 | No condition or point already in `results.json` is lost. |
| Aggregator.GenerateFailsOnMalformedName | generate_results.py:87-109 | The pass fails exactly when some ptop file's name has no condition part or no point part (`re.search` gives None). |
| Aggregator.ConditionRoundTrip | generate_results.py:98 | For `ptop_<c>_<p>.json` with `p` starting with `R1`, where `_R1` does not occur in `_<c>` and neither holds a line break, the condition extracted is exactly `c`. |
| Aggregator.PointRoundTrip | generate_results.py:109 | For such a name, where `p` after its `R1` holds no `.json`, the point extracted is exactly `p`. |
| Aggregator.FileIsFiledUnderItsIds | generate_results.py:98-116 | A well-formed file is filed under its own condition and point. |
| Json.Field | generate_results.py:347 | `o[k]` succeeds exactly on an object that holds `k`. |
| Json.Number | generate_results.py:142-147 | Ints, floats and bools are arithmetic operands; they denote their numeric value, with True as 1 and False as 0. |
| Json.FlattenLeavesOnly | pages/optimization.py:115-123 | No value `flatten_dict` collects is a dict. |
| Json.FlattenKeysPrefixed | pages/optimization.py:118 | Under a parent key, every collected key is `<parent>_<...>`. |
| Json.FlattenKeepsTopLevelLeaf | pages/optimization.py:117-122 | A top-level leaf is collected under its own key. |
| Json.EmptyDictContributesNothing | pages/optimization.py:119-120 | An empty sub-dict contributes no entry. |
| Json.ToMapLastWins | pages/optimization.py:123 | In `dict(items)`, a key takes the value of its last pair, so the later path wins on a collision. |
| Json.ToMapKeys | pages/optimization.py:123 | The keys of `dict(items)` are exactly the keys of the pairs. |
| Json.ToMapEntriesFromPairs | pages/optimization.py:123 | Every entry of `dict(items)` is one of the pairs. |
| Json.FlattenDictHasNoDicts | pages/optimization.py:115-123 | No value of the flattened dict is a dict. |
| ValueMapper.GetY | solhycool_visualizations/diagrams.py:55-56 | `get_y` fails with ZeroDivisionError exactly when `xmax == xmin`. |
| ValueMapper.GetYOf | solhycool_visualizations/diagrams.py:55-56 | On looked-up JSON values: a non-numeric bound is a TypeError, then equal bounds are a ZeroDivisionError, then a non-numeric value is a TypeError. Otherwise the result is `get_y` of their numeric values. |
| ValueMapper.GetYOnLine | solhycool_visualizations/diagrams.py:55-56 | The result lies on the line through `(xmin, ymin)` and `(xmax, ymax)`. |
| ValueMapper.GetYEndpoints | solhycool_visualizations/diagrams.py:55-56 | `get_y(xmin) = ymin` and `get_y(xmax) = ymax`. |
| ValueMapper.GetYLinear | solhycool_visualizations/diagrams.py:55-56 | Differences of results are proportional to differences of inputs. |
| ValueMapper.GetYMonotone | solhycool_visualizations/diagrams.py:55-56 | With `xmax > xmin` and `ymax >= ymin` the map is non-decreasing. |
| ValueMapper.GetYInRange | solhycool_visualizations/diagrams.py:55-56 | An input inside the domain lands inside the range. |
| ValueMapper.GetLevel | solhycool_visualizations/diagrams.py:111-119 | The level is always 1, 2 or 3. |
| ValueMapper.GetLevelOf | solhycool_visualizations/diagrams.py:111-119 | On looked-up JSON values, the level exists exactly when all three are numbers (otherwise TypeError), and it is then `get_level` of their numeric values, between 1 and 3. |
| ValueMapper.GetLevelMonotone | solhycool_visualizations/diagrams.py:111-119 | The level never decreases as the value grows. |
| ValueMapper.GetLevelThirds | solhycool_visualizations/diagrams.py:111-119 | The levels split `[lo, hi]` into thirds. A value exactly on `lo + span/3` is level 2, because the comparisons are strict. |
| ValueMapper.GetLevelDegenerate | solhycool_visualizations/diagrams.py:111-119 | With `min == max`, a value below the bound is level 1 and every other value is level 3; level 2 is never reached. |
| ValueMapper.Scale | solhycool_visualizations/diagrams.py:23-31 | The scale of a non-zero number is at least 1. |
| ValueMapper.RoundZero | solhycool_visualizations/diagrams.py:24-25 | `f(0) = 0`. |
| ValueMapper.RoundOdd | solhycool_visualizations/diagrams.py:26-31 | `f(-n) = -f(n)`. |
| ValueMapper.RoundShrinks | solhycool_visualizations/diagrams.py:26-31 | The result keeps the sign of `n` and never exceeds it in magnitude. |
| ValueMapper.RoundLarge | solhycool_visualizations/diagrams.py:27-31 | For `abs(n) >= 1` the scale is 1: `n` is truncated toward zero to one decimal, so 123 gives 123.0. |
| ValueMapper.RoundSmall | solhycool_visualizations/diagrams.py:27-31 | For `0 < abs(n) < 1`, the scale is the first decimal position of a non-zero digit, and the result is that one digit `d` in 1..9 at that position. |
| ValueMapper.RoundExample | solhycool_visualizations/diagrams.py:23-31 | 0.0734 becomes 0.07. |
| Widths.MainWidth | generate_results.py:281-282 | The main width takes the looked-up `qc`, `qc_min` and `qc_max`. It fails with ZeroDivisionError on a degenerate numeric range, succeeds only when all three are numbers, and for a flow inside its range lies between 10 and 15. |
| Widths.SplitV1Conserves | generate_results.py:283-319 | With the R2-first split, `line_r2 + line_dc = main`, `r1_out1 + r1_out2 = line_dc` and `wct = line_r2 + r1_out2`. |
| Widths.SplitV2Conserves | solhycool_visualizations/diagrams.py:199-241 | With the R1-first split, `line_r1 + line_dc = main`, `r2_out1 + r2_out2 = line_dc` and `wct = line_r1 + r2_out2`. |
| Widths.SplitV1Bounded | generate_results.py:290-319 | With R1 and R2 in [0, 1], every width lies in [0, main]. |
| Widths.SplitV2Bounded | solhycool_visualizations/diagrams.py:212-241 | With R1 and R2 in [0, 1], every width lies in [0, main]. |
| Widths.SplitsAgreeUnderRelabelling | solhycool_visualizations/diagrams.py:212-241 | The two versions draw the same network: the variant's R1 is one minus the original's R2, and its R2 is the original's R1. |
| Widths.SplitV1Extremes | generate_results.py:290-319 | With both valves at 0 all the flow goes through `line_r2` straight to the tower. With R2 = 1 and R1 = 0 all of it goes through the dry cooler and out of its first outlet. |
| Widths.ModeLabelsMatchSecondVariant | pages/optimization.py:429-435 | The dashboard's "just DC" point (R1 = R2 = 0) sends all the flow through the dry cooler in the second variant's split, and its "just WCT" point (R1 = 1) sends all of it to the tower. The first variant's split draws the "just DC" point with the dry cooler dry. |
| Svg.Set | generate_results.py:163-173 | `child.set(k, v)` gives `k` the value `v`, keeps every other attribute, and adds only `k` to the keys. |
| Svg.Find | generate_results.py:274 | The path found names the first cell with the id in document order: no ancestor and nothing in an earlier sibling's subtree is that cell. Nothing is found exactly when no element of the tree is that cell. |
| Svg.FirstInOrderUnique | generate_results.py:274 | Only one path leads to the first cell with an id, so `[0]` of the XPath result is well defined. |
| Svg.Cell | generate_results.py:214-216 | `xpath(...)[0]` gives the first cell with that id in document order, or IndexError exactly when the document has none. |
| Svg.EditCell | generate_results.py:241-243 | An in-place edit of `obj[0]` puts the edited cell at the cell's path. A missing cell gives IndexError, and a failing edit gives its own error. |
| Svg.EditedCell | generate_results.py:237-243 | After an edit that keeps the element a cell with that id, a fresh lookup returns the edited cell. |
| Svg.EditKeepsShape | generate_results.py:241-243 | An in-place edit that keeps the cell's own structure (tag, id and children) keeps the structure of the whole document. |
| Svg.EditElsewhere | generate_results.py:241-243 | Such an edit leaves every cell outside the edited one, and not containing it, exactly as it was. |
| Svg.SameShapeFind | generate_results.py:214-216 | Documents of the same structure have the same cells at the same paths. |
| Svg.Resolve | generate_results.py:272-277 | The required cells are looked up in order. The lookup succeeds exactly when every cell exists; otherwise it names a missing cell as the ValueError. |
| Svg.MapChildren | generate_results.py:216-224 | A loop over a cell's children edits exactly the selected children, in place, and keeps their number. |
| Svg.TagHasIsContains | generate_results.py:158 | The tag test is Python's substring `in`. |
| Svg.EverySvgTagContainsG | generate_results.py:451 | Every namespaced SVG tag contains `g` (in `.../svg}`), so the legend's `'g' in child.tag` test selects every SVG child except rectangles. |
| Render.DisplayUnit | solhycool_visualizations/diagrams.py:60 | Unit `degree_celsius` becomes `⁰C`; every other unit passes through. |
| Render.RoundedPiece | generate_results.py:131-139 | Zero prints as the int 0. A non-zero value prints as a float no larger in magnitude. |
| Render.RoundedText | generate_results.py:374 | A text box reads `<rounded value> <unit>`. It fails exactly when the value is not a number. |
| Render.ConvertToFloat | generate_results.py:142-147 | Numbers and bools become floats with the same value, and strings are kept. Anything else raises, because `float()` of a list or dict raises TypeError, which the `except ValueError` does not catch. |
| Render.IconTextSpec | solhycool_visualizations/diagrams.py:83-91 | The icon text is `<value> <unit>`. Strings and ints print as they are. Other numbers go through `round_to_nonzero_decimal`. |
| Render.SetGroupText | generate_results.py:176-184 | Every text element of a child group gets the icon text, and nothing else changes. The text is needed, and its failure raised, only when the group has a text element. |
| Render.SetTexts | generate_results.py:176-184 | The text edit keeps the number of children. It rewrites the groups, and it cannot fail when the text can be made. |
| Render.FirstTextOnly | solhycool_visualizations/diagrams.py:42-52 | In a group, only the first child whose tag ends in `text` gets the text. Children before it and non-text children are kept. |
| Render.ChangeText | solhycool_visualizations/diagrams.py:42-52 | `change_text` rewrites only the first text element of each child group. |
| Render.ChangeTextKeepsShape | solhycool_visualizations/diagrams.py:42-52 | `change_text` changes only texts: the cell keeps its structure. |
| Render.SetTextsKeepShape | generate_results.py:368-374 | The text box loop changes only texts: every child keeps its structure. |
| Render.ColorGroup | generate_results.py:218-224 | A child group gets `fill`, and so does each text element in it. |
| Render.ChangeColorText | generate_results.py:213-226 | Each child group becomes ColorGroup of itself: `fill` on the group and on its text elements. Other children are kept. |
| Render.SetStrokeWidth | generate_results.py:283-288 | Every child of a line cell (the line and its arrow) gets the stroke width. |
| Render.ImageMime | generate_results.py:233-235 | The data URL's MIME type is always `image/...`. |
| Render.ImageMimeOf | generate_results.py:233-235 | The subtype is the path's last `.`-segment, with `svg` mapped to `svg+xml`. |
| Render.UpdateImage | generate_results.py:241-243 | Only the `xlink:href` of image children changes, to the data URL of the file. Every other child and attribute is kept. |
| Render.UpdateImageKeepsShape | generate_results.py:241-243 | Swapping the image only rewrites an attribute, so the cell keeps its structure. |
| Render.NumAttr | generate_results.py:159-160 | `float(child.get(k))` succeeds exactly when the attribute is present and numeric. A missing attribute is `float(None)`, a TypeError; a present one that is not a number is a ValueError. |
| Render.ResizeImage | generate_results.py:158-173 | A resized image is `size` square and tagged `icon-<id>`, and its centre is unchanged. It fails exactly when x, y or width is missing or not numeric. |
| Render.ResizeKeepsOtherAttrs | generate_results.py:158-173 | Resizing keeps every attribute other than x, y, width, height and template-id. |
| Render.AdjustChildren | generate_results.py:156-184 | The child loop succeeds exactly when every child can be adjusted, and keeps the number of children. |
| Render.LastImage | generate_results.py:159-167 | `(pos_x, pos_y)` come from the last image child, and only when the cell has one. |
| Render.BoundaryCircle | generate_results.py:191-201 | The boundary circle is `boundary-<id>`, centred on the icon's centre, with radius `max_size/2`. |
| Render.PlaceIcon | generate_results.py:186-189 | Placement keeps the cell's tag and attributes. It puts the adjusted children after the optional circle and returns the resized last image's corner, so it needs an image child. |
| Render.AdjustIcon | generate_results.py:152-189 | `adjust_icon` keeps the cell's tag and attributes. A cell without an image child fails, because `pos_x` is unbound. |
| Render.AdjustIconResizes | generate_results.py:158-173 | Every image child becomes `size` square about its old centre. Children move one place later when a boundary is added. |
| Render.AdjustIconKeepsImageAttr | generate_results.py:158-173 | Attributes of an image other than its geometry and template id are kept. |
| Render.AdjustIconPosition | generate_results.py:166-167 | The returned `(pos_x, pos_y)` is the new corner of the last image, centred where it was. |
| Render.AdjustIconBoundary | generate_results.py:186-188 | With a boundary, the circle is inserted before the first child, centred on the last image's centre. |
| Render.AdjustIconWithoutBoundary | generate_results.py:156-189 | Without a boundary, the cell keeps its number of children, and non-image children keep their attributes. |
| Render.AdjustIconKeepsShape | generate_results.py:152-189 | Without a boundary circle, `adjust_icon` keeps the cell's structure: only attributes of its images change. |
| Render.AdjustIconImageInPlace | generate_results.py:156-173 | Without a boundary, an image child stays at its index, `size` wide, and keeps its other attributes. |
| Steps.JoinPath | generate_results.py:397 | The joined path ends in the file name, and an absolute name replaces the folder. |
| Steps.JoinPathLastComponent | generate_results.py:397 | The last `/`-segment of a joined path is the file name. |
| Steps.UpdateImageDoc | generate_results.py:228-245 | `update_image` reads the file first: a missing file is FileNotFoundError, then a missing cell is IndexError. It succeeds exactly when both exist. |
| Steps.UpdateImageDocShows | generate_results.py:241-243 | After `update_image`, every image child of the cell links to the file's data URL. |
| Steps.ImageStepKeeps | generate_results.py:228-245 | `update_image` keeps the document's structure and leaves every cell apart from the edited one as it was. |
| Steps.StrokeCell | generate_results.py:283-288 | A stroke edit succeeds exactly when the line cell exists. |
| Steps.StrokeCellSets | generate_results.py:283-288 | After a stroke edit, every child of the line cell has the width. |
| Steps.StrokeAll | generate_results.py:283-288 | Widths are set cell by cell. The run succeeds exactly when every listed cell exists, and otherwise names the first missing one as IndexError. On success the structure is kept, each listed cell's children carry the width of its last listing with their other attributes kept, and the children of every unlisted cell are unchanged. |
| Steps.IconStep | generate_results.py:344-355 | A missing icon cell is IndexError. Otherwise the step is `adjust_icon` on that cell. |
| Steps.IconStepCell | generate_results.py:344-355 | After an icon step, looking the cell up again gives the adjusted icon. |
| Steps.TextBox | generate_results.py:362-374 | A missing text box cell is IndexError. A text box whose text can be made succeeds. A present box fails only with its own text's error. |
| Steps.TextBoxKeeps | generate_results.py:367-374 | Filling one box keeps the document's structure, rewrites its own cell as the text edit of the old one, and leaves every cell apart from it as it was. |
| Steps.ChangeTextKeeps | solhycool_visualizations/diagrams.py:42-52 | `change_text` keeps the document's structure, rewrites its own cell in place, and leaves every cell apart from it as it was. |
| Steps.ChangeTextDoc | solhycool_visualizations/diagrams.py:42-52 | `change_text` succeeds exactly when the cell exists. |
| Steps.ChangeColorDoc | generate_results.py:213-226 | `change_color_text` succeeds exactly when the cell exists. |
| Steps.ColorStepKeeps | generate_results.py:213-226 | `change_color_text` keeps the document's structure, recolours its own cell, and leaves every cell apart from it as it was. |
| Steps.CostAsset | generate_results.py:397 | A cost asset is an `.svg` file. |
| Steps.CostIcon | generate_results.py:395-400 | The cost icon fails, before anything is drawn, exactly as `get_level` of the value and the two looked-up bounds fails: when any of them is not a number. |
| Steps.CostIconParts | generate_results.py:395-400 | A cost icon is `update_image` with the asset `<stem>_x<get_level(v, lo, hi)>.svg`, followed by `adjust_icon` at size 70 without a boundary. |
| Steps.CostIconCell | generate_results.py:395-400 | The cost icon's cell is the old cell with the level's asset in its images, then adjusted to 70. |
| Steps.CostIconImages | generate_results.py:392-416 | Every image of a cost icon links to `<stem>_x<level>.svg` and is 70 wide, at its old index. No boundary circle is inserted. |
| Steps.CostIconKeeps | generate_results.py:395-400 | A successful cost icon found its cell, keeps the document's structure, and leaves every cell apart from its own as it was. |
| Diagram.ApplySplit | generate_results.py:281-319 | A missing main line fails first, with IndexError. The widths succeed exactly when all ten line cells exist. Then each line cell's children carry the width the split gives that line, with their other attributes kept, and the children of every other cell are unchanged. |
| Diagram.LineWidths | generate_results.py:283-319 | Ten line cells are set, starting with `line_pump_in` at the main width. |
| Diagram.IconSpecs | generate_results.py:332-336 | The eight sized icons pair each icon cell with its variable, unit and boundary flag, in the source's order. |
| Diagram.IconSize | generate_results.py:348-349 | An icon's size fails with ZeroDivisionError on a degenerate numeric range and succeeds only on three numbers. For a value inside the range it lies between 30 and 70. |
| Diagram.SizedIcon | generate_results.py:346-355 | The icon's errors come in the source's order: a missing group, then a missing variable, then a missing `<var>_min`, then a missing `<var>_max`. Only then is any of them used as a number. |
| Diagram.SizedIcons | generate_results.py:344-355 | The icon loop stops at the first failing icon with that icon's error. |
| Diagram.SizedIconCell | generate_results.py:346-355 | A sized icon's cell is `adjust_icon` at size `get_y(x, <var>_min, <var>_max, 30, 70)`, with the value made a float and `max_value = <var>_max`. |
| Diagram.TextBoxes | generate_results.py:362-374 | The text boxes are filled in order, failing at the first missing cell. |
| Diagram.TextBoxesMissing | generate_results.py:362-374 | The boxes are filled in order: when every earlier box exists and has its text, the first missing box is the IndexError. |
| Diagram.TextBoxesSucceed | generate_results.py:362-374 | When every box exists and has its text, all boxes are filled. |
| Diagram.TextBoxesKeep | generate_results.py:362-374 | Filling the boxes changes only texts, so the document keeps its shape. |
| Diagram.TextBoxesPresent | generate_results.py:362-374 | When the boxes are filled, every box cell was there. |
| Diagram.TextBoxesFail | generate_results.py:362-374 | The loop fails only at a missing box (IndexError) or with a box's own text error. |
| Diagram.TextBoxesElsewhere | generate_results.py:362-374 | A cell apart from every box is left as it was. |
| Diagram.TextBoxesCells | generate_results.py:362-374 | When the boxes are apart, each box cell ends up as its old cell with its text written into every text element of its child groups. |
| Diagram.BoxText | generate_results.py:374 | A text box's value is looked up first, and its failure is reported as is. |
| Diagram.CoolingText | generate_results.py:387 | The cooling label shows Pth with no decimals, Mv with two, and Tv with none. |
| Diagram.FixedOperand | generate_results.py:387 | A `:.Nf` field formats exactly the numbers. A string is a ValueError; any other value is a TypeError. |
| Diagram.Cooling | generate_results.py:378-389 | The errors come in the source's order: a missing `Pth`, `Pth_min` or `Pth_max` (in that order), then the size, then a string `Mv` as a ValueError. A drawn icon had numeric `Mv` and `Tv`. |
| Diagram.Costs | generate_results.py:392-416 | A missing `Ce_min`, then a missing `Ce_max`, then a missing first cost fails before any cost icon is drawn. |
| Diagram.CostsKeeps | generate_results.py:392-416 | The cost icons keep the document's structure and leave every cell apart from the three cost cells as it was. |
| Diagram.CostsCells | generate_results.py:392-416 | When the three cost cells are apart, each ends up as a single cost icon on the original document leaves it. Electricity costs are levelled between `Ce_min` and `Ce_max`, water costs between 0 and `Cw_max`. |
| DiagramV1.IconObjects | generate_results.py:334 | Icon `i` reads its value from `ptop[groups[i]]`. |
| DiagramV1.Light | generate_results.py:247-416 | A missing `operating_range`, then a missing `decision_variables`, is the error. A drawn diagram had every required cell. |
| DiagramV1.Generate | generate_results.py:247-462 | The light theme is the light diagram, and a failure of the light part is the error in both themes. The dark theme succeeds exactly when the light diagram does, the three dark assets exist and the light diagram has the five fixed dark cells. It then keeps the light diagram's structure. |
| DiagramV1.MissingCellFirst | generate_results.py:268-277 | A missing required cell is reported by name, as ValueError, before any point value is used. The first missing cell in lookup order is the one reported. |
| DiagramV1.DrawnHadEveryCell | generate_results.py:272-277 | A drawn diagram had every required cell. |
| DiagramV2.IndexValue | solhycool_visualizations/diagrams.py:167 | A list index must be an int or a bool. |
| DiagramV2.PyIndex | solhycool_visualizations/diagrams.py:167 | Indexing follows Python, including negative indices, and raises IndexError outside `[-n, n)`. |
| DiagramV2.PickSolution | solhycool_visualizations/diagrams.py:167 | A missing `solutions` is the error, and a picked solution is one of the solutions. |
| DiagramV2.PickSolutionCountsFromOne | solhycool_visualizations/diagrams.py:167 | `selected_solution_idx = i` picks the i-th solution, counting from 1. An index past either end fails. |
| DiagramV2.PickSolutionZeroIsLast | solhycool_visualizations/diagrams.py:167 | Index 0 silently picks the last solution instead of failing. |
| DiagramV2.IconObjects | solhycool_visualizations/diagrams.py:255-258 | Tamb and HR come from the environment read when the list is built; every other icon reads the solution. |
| DiagramV2.Light | solhycool_visualizations/diagrams.py:157-350 | The solution, then `limits`, then `cooling_requirements` are read first, and the first failure among them is the error. A drawn diagram had every required cell. |
| DiagramV2.Generate | solhycool_visualizations/diagrams.py:157-395 | As for the first version: the dark theme adds errors only after the light part succeeds, succeeds exactly when its assets and fixed cells exist, and keeps the light diagram's structure. |
| DiagramV2.ExtraTexts | solhycool_visualizations/diagrams.py:345-350 | `Twct_in`, `q_wct` and `q_dc` are all looked up first, and the first missing key is the KeyError. Then `Twct_in` is formatted and its cell is looked up, in that order. |
| DiagramV2.ExtraTextsKeeps | solhycool_visualizations/diagrams.py:345-350 | The three labels are written exactly when the three values are numbers and the cells `Twct_in`, `qwct` and `qdc` exist. Writing them keeps the document's shape. |
| DiagramV2.ExtraTextsCells | solhycool_visualizations/diagrams.py:345-350 | When the three cells are apart, each one is its old cell after `change_text` with its value rounded to the first nonzero decimal and followed by its unit (°C for `Twct_in`, m³/h for the flows). |
| DiagramV2.MissingCellFirst | solhycool_visualizations/diagrams.py:167-196 | Once the solution, limits and cooling requirements are read, the first missing required cell is the ValueError reported. |
| DiagramV2.ExtraLabelsNotRequired | solhycool_visualizations/diagrams.py:190-196 | The extra labels are not among the required cells, so a template without one fails only at the end. |
| Theme.LegendChild | generate_results.py:440-454 | A legend cell's only child, when it is a rectangle, gets the dark fill and light stroke. The text of non-rectangle children becomes light. |
| Theme.LegendCell | generate_results.py:440-454 | Every child of a legend cell is recoloured in place; the number of children is kept. |
| Theme.LegendLightensEverySvgChild | generate_results.py:451-454 | Every text inside a namespaced SVG child other than a rectangle becomes light. |
| Theme.LegendEdit | generate_results.py:433-454 | Looking up a recoloured legend cell again gives its recoloured version. |
| Theme.LegendPass | generate_results.py:432-436 | The legend loop runs over cells 28 to 56. It skips a missing cell, so it cannot fail, and it keeps the document's structure. |
| Theme.LegendIdInjective | generate_results.py:433 | Different indices name different legend cells. |
| Theme.LegendPassElsewhere | generate_results.py:432-454 | Among cells apart from one another, the legend loop leaves every cell that is not a legend cell as it was. |
| Theme.LegendPassCell | generate_results.py:432-454 | Among cells apart from one another, every legend cell the document has is recoloured exactly once. |
| Theme.DarkPass | generate_results.py:419-460 | The dark pass reads the dark background first and fails if it is missing; a missing background cell comes next. A successful pass found every dark asset. |
| Theme.DarkPassKeeps | generate_results.py:419-460 | The dark pass succeeds exactly when the three dark assets and the five fixed cells (the images and the titles) exist; legend cells may be missing. It keeps the document's structure. |
| Theme.DarkPassCells | generate_results.py:422-460 | When the cells it edits are apart, the background and the two logos show the dark assets, and the title and subtitle are recoloured `#ECECEC`. |
| Theme.DarkPassLegend | generate_results.py:432-454 | When the cells it edits are apart, every legend cell the document has is recoloured. |
| Theme.DarkPassElsewhere | generate_results.py:419-460 | Every other cell apart from those the pass edits is left as it was. |
| Theme.DarkChain | generate_results.py:419-460 | Among cells apart from one another, the dark pass leaves each non-legend cell as its own step made it: new image, light titles, or unchanged. |
| Orchestrator.Points | generate_results.py:477-479 | Every point of every condition is visited, under the id `<cond>_<point>`. |
| Orchestrator.RunAsWritten | generate_results.py:477-509 | As written, an escaped exception is always an unbound diagram variable, and it leaves exactly the last file created empty. Every other file is filled, and at most two files are written per point. |
| Orchestrator.GenerateDiagramsAsWritten | generate_results.py:464-474 | A missing output folder fails before anything is drawn. |
| Orchestrator.AsWrittenRedrawsExisting | generate_results.py:479-481 | As written, a point whose `<id>.svg` is already listed is drawn and written again. |
| Orchestrator.IdIsNotItsFileName | generate_results.py:481 | An id never equals its own file name, so the skip test never matches a file this loop wrote. |
| Orchestrator.AsWrittenWritesStaleDiagram | generate_results.py:487-501 | As written, a failure on the second point writes the first point's diagram under the second point's name. |
| Orchestrator.AsWrittenFirstFailureEscapes | generate_results.py:487-501 | As written, a failure on the first point drawn leaves `diagram_light` unbound. The point's `.svg` is created empty and the run ends there. |
| Orchestrator.AsWrittenFirstDarkFailureEscapes | generate_results.py:487-509 | In the dark variant, a failed dark drawing of the first point writes its light file. The dark file is created empty and the run ends there. |
| Orchestrator.GenerateDiagrams | generate_results.py:464-509 | The corrected loop never lets an exception escape once the folder is listed. |
| Orchestrator.RunCorrected | generate_results.py:477-509 | The corrected loop writes at most two files per point, and in the light variant none whose name is already listed. |
| Orchestrator.CorrectedWritesOwnDiagrams | generate_results.py:477-509 | Every file the corrected loop writes holds the diagram drawn for its own point. No point whose `.svg` is listed is written. |
| Orchestrator.CorrectedDrawsEveryNewPoint | generate_results.py:477-501 | Every unlisted point whose drawing succeeds gets its `.svg`. |
| Orchestrator.CorrectedSkipsExisting | generate_results.py:481 | The corrected loop skips a point whose `.svg` is listed. |
| Dashboard.ConditionId | pages/optimization.py:276 | A condition id starts with `Tamb` and is the four values joined by their fixed labels. |
| Dashboard.PointId | pages/optimization.py:382 | A point id starts with `R1`, as the aggregator's point keys do. |
| Dashboard.ConditionIdParsable | pages/optimization.py:276 | A condition id built from printed numbers has no `_R1`, so the aggregator can recover it. |
| Dashboard.PointIdParsable | pages/optimization.py:382 | A point id built from printed numbers holds no `.json` and no line break after its `R1`. |
| Dashboard.ClickedPointIsFiledUnderItsIds | pages/optimization.py:372-387 | The ids of a clicked point are exactly the keys under which the aggregator files that point's `ptop_` file. |
| Dashboard.DiagramName | pages/optimization.py:389-397 | The light theme shows `<cond>_<pt>.svg`, and any other theme shows `<cond>_<pt>_dark.svg`. Only a listed file is shown. With a missing dark file, only the theme named `dark` falls back. |
| Dashboard.DarkFallsBackToLight | pages/optimization.py:393-394 | Removing every `_dark` from a missing dark name gives the light diagram of the same point. |
| Dashboard.ClickedDarkFallsBackToLight | pages/optimization.py:372-397 | For a clicked point, the dark fallback finds exactly the light diagram. |
| Dashboard.Column | pages/optimization.py:423-424 | A missing column is KeyError; a present one is read as a number. |
| Dashboard.RowOf | pages/optimization.py:286 | A Pareto row is the flattened point. |
| Dashboard.Rows | pages/optimization.py:285-286 | One row per point, in the results' order. The step fails exactly when some point cannot be flattened into a row. |
| Dashboard.InsertByCw | pages/optimization.py:290 | Inserting into a front ordered by water cost keeps it ordered and adds exactly that row. |
| Dashboard.SortByCw | pages/optimization.py:290 | The front is the same rows, as a multiset, ordered by ascending `costs_Cw`. |
| Dashboard.UpdatePareto | pages/optimization.py:260-290 | Before a click, the panel asks for one. `Tv <= Tamb` is rejected before any results lookup. An unknown condition shows "not available". For a known condition, an unreadable table is FileNotFound and a point that does not flatten to a row raises; otherwise the front is always shown, and it is the condition's rows ordered by water cost. |
| Dashboard.RawTable | pages/optimization.py:283 | The evaluated points are read as they are, or the read fails. |
| Dashboard.FirstMinUnique | pages/optimization.py:426-435 | At most one index is the first minimum. |
| Dashboard.FirstMin | pages/optimization.py:426-435 | `idxmin` gives the first index of a least kept entry. With no kept entry it raises. |
| Dashboard.JustDc | pages/optimization.py:429 | The just-DC rows are exactly those with `R1 == 0` and `R2 == 0`. |
| Dashboard.JustWct | pages/optimization.py:433 | The just-WCT rows are exactly those with `R1 == 1`. |
| Dashboard.SelectApproaches | pages/optimization.py:423-449 | The five approaches, in the bar plot's order, are: the cheapest-electricity just-DC row, the front's least-Ce row, the selected point, the front's least-Cw row, and the least-water just-WCT row. The selection fails exactly when the front or one of the modes is empty. |
| Dashboard.SortedMinCwIsFirstRow | pages/optimization.py:418-426 | On a front ordered by water cost, the least-Cw row is the first. |
| Dashboard.UpdateResults | pages/optimization.py:358-449 | Nothing changes without a click, with `Tv <= Tamb`, or when the condition or point has no results. For a present point, an unreadable table is FileNotFound and an unreadable row raises. Otherwise the panel is shown exactly when the table has a just-DC and a just-WCT point, and `idxmin` raises when it has not. A shown panel has the chosen diagram and the approaches around the clicked point. |
| Costs.ElectricityTotal | solhycool_visualizations/costs.py:13 | The total is at least each consumption's size, and is zero only when all three are. |
| Costs.ElectricityShares | solhycool_visualizations/costs.py:19-20 | The shares are not numbers exactly when the total is zero. |
| Costs.ElectricitySharesArePercentages | solhycool_visualizations/costs.py:13-20 | With a positive total, each share lies in [0, 100] and the three make 100. |
| Costs.CoolingPower | solhycool_visualizations/costs.py:50-51 | A cooler removes power exactly when its outlet is warmer than its inlet, given a positive flow. |
| Costs.CoolingPowers | solhycool_visualizations/costs.py:50-52 | The total cooling power is the sum of the two coolers'. |
| Costs.CoolingShares | solhycool_visualizations/costs.py:56 | Each share is its cooler's part of the total, in percent. The shares are undefined when the total is zero: NaN when both powers are zero, ±inf otherwise. |
| Costs.CoolingSharesMakeHundred | solhycool_visualizations/costs.py:52-56 | The two cooling shares make 100. |
| Costs.CoolingShareCanBeNegative | solhycool_visualizations/costs.py:56 | With no `abs`, a cooler that warms its water has a negative share, and the other one a share above 100. |
| Costs.Stacked | solhycool_visualizations/costs.py:122-160 | A stack group draws each series at the running sum of the series so far. |
| Costs.StackedNonDecreasing | solhycool_visualizations/costs.py:122-160 | With no negative series, the stack never goes down. |
| Costs.ModelLines | solhycool_visualizations/costs.py:130-166 | The model lines are where the stack would put the model values: dc, dc + wct, dc + wct + c. |
| Costs.ModelLinesOrdered | solhycool_visualizations/costs.py:130-166 | With non-negative consumptions, the model lines are ordered like the stack. |
| Calculations.Coefficients | solhycool_visualizations/calculations.py:4-12 | Exactly `fan_wct`, `fan_dc` and `pump_c` have (non-empty) coefficients. |
| Calculations.HornerCompletesPowerSum | solhycool_visualizations/calculations.py:39-42 | Horner's value from coefficient i on, times `x^i`, completes the first i terms to the whole power sum. |
| Calculations.HornerIsPowerSum | solhycool_visualizations/calculations.py:39-42 | Horner's scheme equals the explicit `sum(c_i * x^i)`. |
| Calculations.Polyval | solhycool_visualizations/calculations.py:42 | `polyval(x, cs)` is `sum(c_i * x^i)`, with the coefficients in increasing-power order. |
| Calculations.PowerConsumption | solhycool_visualizations/calculations.py:34-42 | The power is `sum(c_i * x^i) / 1000` kW. An actuator outside the table raises ValueError. |
| Calculations.PowerAtZero | solhycool_visualizations/calculations.py:42 | At input 0 an actuator draws `c_0 / 1000` kW. |
| Calculations.TableAtZero | solhycool_visualizations/calculations.py:9-11 | At rest, the fans and the pump draw 0.1894, -0.2956 and 0.2278 kW. |
| Strings.FindFromSpec | generate_results.py:98 | The search returns the first occurrence at or after its start, or none when there is none. |
| Strings.ReplaceAllAppend | pages/optimization.py:394 | `str.replace` distributes over a concatenation when no occurrence starts in the first part. |
| Strings.LastSegmentSpec | generate_results.py:233 | `split('.')[-1]` is a suffix without a separator, preceded by a separator unless it is the whole string. |
| Strings.LastSegmentOfExtension | generate_results.py:233 | The last segment of `<stem>.<ext>` is `ext`. |
| Strings.NatStrDigits | pages/optimization.py:382 | `str()` of a natural number is a non-empty string of digits. |
| Strings.NatStrInjective | generate_results.py:433 | `str()` is injective on natural numbers. |

## Left out

- File and network I/O. Files, folders and listings are parameters: maps from path to contents, or sequences of names. `json.load`, `json.dump`, `os.listdir`, `os.path.isfile` and `open` are not modelled as operations. The key order of the written `results.json` is not modelled.
- The SVG template is parsed by lxml in the source. Here it is a tree datatype. XPath, `etree.fromstring`, `etree.tostring` and `deepcopy` are not modelled. The boundary circle is built as a tree directly, not parsed from its text. `os.path.dirname` of the template path is the parameter `folder`.
- `base64.b64encode` (section 4 of RFC 4648) is left opaque: the data URL holds the MIME type and the raw bytes.
- Floating-point formatting and parsing. Numbers are `real`. `str()`, `:.0f` and `:.2f` stay symbolic pieces of a text. IEEE rounding, `math.log10` and the float behaviour of `10**scale` are not modelled. `round_to_nonzero_decimal` uses the exact smallest scale `k` with `|n|·10^k >= 1` instead of `-floor(log10|n|)`.
- Gate.OnModified: CHANGE_DELAY and COOLDOWN_PERIOD are the numeric defaults 20 and 60. When they are set in the environment, `os.getenv` returns strings, and the comparisons would raise. The watchdog observer, the sleep loop, threads, argparse and logging are left out. The clock is the event's `now`.
- The Dash, Mantine and Plotly figures, the tooltips, the flask cache, `generate_tooltip_data` and the captions are left out. So are the layout functions of `pages/optimization.py` and `costs.py`. Only the arithmetic and the selections they display are modelled.
- Dashboard.UpdatePareto and Dashboard.UpdateResults: `float()` of the four segmented-control strings is given as the reals `tamb` and `tv`. A string that does not parse is not modelled. Python's `round()` of the click's customdata is given as the rounded click.
- Dashboard.SortByCw: pandas' sort is not stable by default; the model fixes one order of tied rows. Ties are left unconstrained by the contract, apart from the multiset.
- Dashboard.Rows: a row whose flattened point lacks `costs_Ce` or `costs_Cw` is a KeyError here. pandas would fill the column with NaN instead.
- Dashboard.SelectApproaches: the raw table's pandas index labels are taken to be positions 0..n-1, as `read_csv` makes them. NaN entries are not modelled.
- Costs: the cost plots work on pandas columns. The model takes one sample (one row) at a time. `costs_evolution_plot`'s measured series are only modelled through the stacking they are drawn with.
- Render.ConvertToFloat: a string that `float()` can parse ("1.5") is kept as a string, where the source converts it to a float. String parsing is not modelled.
- Calculations.PowerConsumption: numpy array inputs are not modelled; one scalar input at a time.
- DiagramV2: `generate_facility_diagram` and `save_diagram` (template reading and file writing) are left out. A `solutions` value that is a dict rather than a list is reported as a type error, where Python would look up the key.
- DiagramV1 and DiagramV2: the theme is light or dark. Any other theme string is drawn as light, as both sources do.
- Orchestrator: `generate_diagram` is the parameter `draw`, because the loop's behaviour does not depend on how a diagram is drawn. Logging is left out. Which exception class the failed drawing raised is not modelled; the loop catches them all.
- Diagram.CostsCells, Diagram.TextBoxesCells, DiagramV2.ExtraTextsCells, Theme.DarkPassCells, Theme.DarkPassLegend and Theme.DarkPassElsewhere: what a cell ends up holding is stated when the cells edited are apart, that is, none lies inside another. In the template they are sibling groups. A template with nested edited cells is not covered.
- Diagram.ApplySplit: the per-line widths are stated when the version's line names differ from one another and from the shared ones, as both versions' names do.
- DiagramV1.Light: the contract states the order of the first reads and that every required cell existed. What each cell ends up holding is stated step by step (ApplySplit, SizedIconCell, CostsCells), not composed over the whole diagram, because a sized icon with a boundary circle changes its cell's structure.
- DiagramV2.Light: as for DiagramV1.Light. The three extra labels are stated step by step by ExtraTexts, ExtraTextsKeeps and ExtraTextsCells.
- Gate.RaisedRunDoesNotArmCooldown: assumes the observer keeps delivering events after a handler raised. What watchdog does with an exception in a handler is not modelled.
- When several errors apply to one call, the model reports the one the source reaches first: values are looked up in the source's order and used as numbers only where the source computes with them. The exact exception messages are not modelled.

## Findings

| source | as written | input that shows it | evidently intended | confidence | as-written member | corrected member |
|---|---|---|---|---|---|---|
| generate_results.py:479-481, generate_results.py:500 | The skip test looks for the bare id `<cond>_<point>` in the listing of the output folder. The loop writes `<cond>_<point>.svg`, so the test never matches a diagram the loop wrote. | A folder listing `[X.svg]` and a point with id `X`: the point is drawn and `X.svg` is written again. | Skip a point whose `<id>.svg` exists. | high; not executed | Orchestrator.AsWrittenRedrawsExisting | Orchestrator.CorrectedSkipsExisting |
| generate_results.py:487-501 | After an exception in the `try`, the loop still writes `diagram_light`. That variable holds the previous point's diagram, or is unbound for the first drawn point. | Two new points where drawing the second raises: the second point's file holds the first point's diagram. | A point whose drawing fails writes nothing, and the loop continues. | high; not executed | Orchestrator.AsWrittenWritesStaleDiagram | Orchestrator.CorrectedWritesOwnDiagrams |

=== FILE: aggregator.dfy ===
/** `generate_results_file` (generate_results.py:72-127): every `ptop_*.json`
    file of the results folder is filed into the index
    `{condition id: {operation point id: ptop}}`, on top of the index already
    on disk. */
module Aggregator {
  import opened Wrappers
  import opened Failures
  import opened Strings
  import Json

  /** One entry of the results folder: its name, whether it is a regular file,
      and the JSON it holds. */
  datatype Entry = Entry(name: string, isFile: bool, content: Json.Value)

  /** Condition id to operation point id to the point's JSON. */
  type Index = map<string, map<string, Json.Value>>

  /** One filing: `data[cond][point] = value`. */
  datatype Write = Write(cond: string, point: string, value: Json.Value)

  /** The folder listing filter: regular files named `ptop_*.json`. */
  predicate IsPtopFile(e: Entry) {
    e.isFile && StartsWith(e.name, "ptop_") && EndsWith(e.name, ".json")
  }

  /** The ptop files of a listing, in listing order. */
  function PtopFiles(dir: seq<Entry>): (r: seq<Entry>)
    ensures forall e :: e in r <==> e in dir && IsPtopFile(e)
    ensures |r| <= |dir|
  {
    if |dir| == 0 then []
    else (if IsPtopFile(dir[0]) then [dir[0]] else []) + PtopFiles(dir[1..])
  }

  /** A one-entry listing keeps its entry exactly when it is a ptop file. */
  lemma PtopFilesSingle(e: Entry)
    ensures PtopFiles([e]) == if IsPtopFile(e) then [e] else []
  {
    assert [e][1..] == [];
  }

  /** The filter keeps the listing's order and multiplicities: filtering a
      concatenation concatenates the filtered parts. */
  lemma {:induction false} PtopFilesAppend(a: seq<Entry>, b: seq<Entry>)
    ensures PtopFiles(a + b) == PtopFiles(a) + PtopFiles(b)
    decreases |a|
  {
    if |a| == 0 {
      assert a + b == b;
    } else {
      assert (a + b)[0] == a[0];
      assert (a + b)[1..] == a[1..] + b;
      PtopFilesAppend(a[1..], b);
    }
  }

  /** `open(.*?)close` matches with `open` at `i` and `close` at `k`: the
      text between them holds no newline, which `.` does not match. */
  predicate MatchAt(s: string, open: string, close: string, i: nat, k: nat) {
    i + |open| <= k && OccursAt(s, open, i) && OccursAt(s, close, k) && '\n' !in s[i + |open|..k]
  }

  /** The match of the regular expression `open(.*?)close` that `re.search`
      reports: the leftmost `open` from which a `close` can be reached without
      crossing a newline, paired with the first such `close`. Returns the
      positions of `open` and of `close`, or None when nothing matches. */
  function LazyMatch(s: string, open: string, close: string, from: nat): (r: Option<(nat, nat)>)
    requires |open| > 0
    ensures r.Some? ==> from <= r.value.0 && MatchAt(s, open, close, r.value.0, r.value.1)
    ensures r.Some? ==> forall i: nat, k: nat :: from <= i && MatchAt(s, open, close, i, k) ==>
                          r.value.0 < i || (r.value.0 == i && r.value.1 <= k)
    ensures r.None? ==> forall i: nat, k: nat :: from <= i ==> !MatchAt(s, open, close, i, k)
    decreases |s| - from
  {
    match FindFrom(s, open, from)
    case None =>
      NoOpenNoMatch(s, open, close, from);
      None
    case Some(i) =>
      FindFromSpec(s, open, from);
      match FindFrom(s, close, i + |open|)
      case Some(k) =>
        FindFromSpec(s, close, i + |open|);
        if '\n' !in s[i + |open|..k] then
          FirstMatch(s, open, close, from, i, k);
          Some((i, k))
        else
          NewlineBlocks(s, open, close, i, k);
          var r := LazyMatch(s, open, close, i + 1);
          NoMatchAtOpen(s, open, close, from, i, r);
          r
      case None =>
        NoCloseBlocks(s, open, close, i);
        var r := LazyMatch(s, open, close, i + 1);
        NoMatchAtOpen(s, open, close, from, i, r);
        r
  }

  lemma NoOpenNoMatch(s: string, open: string, close: string, from: nat)
    requires FindFrom(s, open, from).None?
    ensures forall i: nat, k: nat :: from <= i ==> !MatchAt(s, open, close, i, k)
  {
    FindFromSpec(s, open, from);
  }

  /** The first `open` with a newline-free way to the first `close` after it
      is the leftmost match, with the shortest body. */
  lemma FirstMatch(s: string, open: string, close: string, from: nat, i: nat, k: nat)
    requires FindFrom(s, open, from) == Some(i) && FindFrom(s, close, i + |open|) == Some(k)
    requires i + |open| <= k <= |s| && '\n' !in s[i + |open|..k]
    ensures from <= i && MatchAt(s, open, close, i, k)
    ensures forall i': nat, k': nat :: from <= i' && MatchAt(s, open, close, i', k') ==> i < i' || (i == i' && k <= k')
  {
    FindFromSpec(s, open, from);
    FindFromSpec(s, close, i + |open|);
  }

  /** No `close` after `open` at `i`: no match starts at `i`. */
  lemma NoCloseBlocks(s: string, open: string, close: string, i: nat)
    requires FindFrom(s, close, i + |open|).None?
    ensures forall k': nat :: !MatchAt(s, open, close, i, k')
  {
    FindFromSpec(s, close, i + |open|);
  }

  /** A newline before the first `close` after `open` at `i` rules out every
      match starting at `i`: a later `close` has the newline in between too. */
  lemma NewlineBlocks(s: string, open: string, close: string, i: nat, k: nat)
    requires FindFrom(s, close, i + |open|) == Some(k) && i + |open| <= k <= |s|
    requires '\n' in s[i + |open|..k]
    ensures forall k': nat :: !MatchAt(s, open, close, i, k')
  {
    FindFromSpec(s, close, i + |open|);
    var m :| i + |open| <= m < k && s[m] == '\n';
    forall k': nat | i + |open| <= k' <= |s| && OccursAt(s, close, k')
      ensures '\n' in s[i + |open|..k']
    {
      assert k <= k';
      assert s[i + |open|..k'][m - i - |open|] == '\n';
    }
  }

  /** When the first `open` at or after `from` starts no match, the search
      from `from` is the search from the next position. */
  lemma NoMatchAtOpen(s: string, open: string, close: string, from: nat, i: nat, r: Option<(nat, nat)>)
    requires FindFrom(s, open, from) == Some(i) && |open| > 0
    requires forall k': nat :: !MatchAt(s, open, close, i, k')
    requires r.Some? ==> i + 1 <= r.value.0 && MatchAt(s, open, close, r.value.0, r.value.1)
    requires r.Some? ==> forall i': nat, k: nat :: i + 1 <= i' && MatchAt(s, open, close, i', k) ==>
                           r.value.0 < i' || (r.value.0 == i' && r.value.1 <= k)
    requires r.None? ==> forall i': nat, k: nat :: i + 1 <= i' ==> !MatchAt(s, open, close, i', k)
    ensures r.Some? ==> from <= r.value.0 && MatchAt(s, open, close, r.value.0, r.value.1)
    ensures r.Some? ==> forall i': nat, k: nat :: from <= i' && MatchAt(s, open, close, i', k) ==>
                          r.value.0 < i' || (r.value.0 == i' && r.value.1 <= k)
    ensures r.None? ==> forall i': nat, k: nat :: from <= i' ==> !MatchAt(s, open, close, i', k)
  {
    FindFromSpec(s, open, from);
  }

  /** `re.search(r'ptop_(.*?)_R1', name).group(1)`; a name without a match
      makes `.group` fail on None. */
  function ConditionOf(name: string): (r: Result<string, Error>)
    ensures r.Ok? <==> LazyMatch(name, "ptop_", "_R1", 0).Some?
    ensures r.Ok? ==> var m := LazyMatch(name, "ptop_", "_R1", 0).value; r.value == name[m.0 + 5..m.1]
    ensures r.Err? ==> r.error == MalformedName(name)
    ensures r.Ok? ==> |r.value| + 8 <= |name|
  {
    match LazyMatch(name, "ptop_", "_R1", 0)
    case Some((i, k)) => Ok(name[i + 5..k])
    case None => Err(MalformedName(name))
  }

  /** `'R1' + re.search(r'_R1(.*?)\.json', name).group(1)`. */
  function PointOf(name: string): (r: Result<string, Error>)
    ensures r.Ok? <==> LazyMatch(name, "_R1", ".json", 0).Some?
    ensures r.Ok? ==> var m := LazyMatch(name, "_R1", ".json", 0).value; r.value == "R1" + name[m.0 + 3..m.1]
    ensures r.Err? ==> r.error == MalformedName(name)
    ensures r.Ok? ==> StartsWith(r.value, "R1")
  {
    match LazyMatch(name, "_R1", ".json", 0)
    case Some((i, k)) => Ok("R1" + name[i + 3..k])
    case None => Err(MalformedName(name))
  }

  /** The filing one ptop file asks for. */
  function WriteOf(e: Entry): (r: Result<Write, Error>)
    ensures r.Ok? ==> r.value.value == e.content
    ensures r.Ok? <==> ConditionOf(e.name).Ok? && PointOf(e.name).Ok?
  {
    var c :- ConditionOf(e.name);
    var p :- PointOf(e.name);
    Ok(Write(c, p, e.content))
  }

  /** The filings of a sequence of files, or the first file whose name does not parse. */
  function Writes(files: seq<Entry>): (r: Result<seq<Write>, Error>)
    ensures r.Ok? <==> forall i :: 0 <= i < |files| ==> WriteOf(files[i]).Ok?
    ensures r.Ok? ==> |r.value| == |files|
                      && forall i :: 0 <= i < |files| ==> r.value[i] == WriteOf(files[i]).value
  {
    if |files| == 0 then Ok([])
    else
      var w :- WriteOf(files[0]);
      var ws :- Writes(files[1..]);
      Ok([w] + ws)
  }

  /** `data.setdefault(cond, {})[point] = value`. */
  function Insert(data: Index, w: Write): (r: Index)
    ensures r.Keys == data.Keys + {w.cond}
  {
    data[w.cond := (if w.cond in data then data[w.cond] else map[])[w.point := w.value]]
  }

  /** The filings applied one after the other, in listing order. */
  function Apply(data: Index, ws: seq<Write>): Index
    decreases |ws|
  {
    if |ws| == 0 then data else Apply(Insert(data, ws[0]), ws[1..])
  }

  /** `generate_results_file`: the index on disk (None when `results.json` is
      missing, which starts from `{}`) updated with every ptop file of the
      listing. The result is also what is written back to `results.json`. */
  function GenerateResultsFile(onDisk: Option<Index>, dir: seq<Entry>): (r: Result<Index, Error>)
  {
    var ws :- Writes(PtopFiles(dir));
    Ok(Apply(if onDisk.Some? then onDisk.value else map[], ws))
  }

  // ---------------------------------------------------------------------------
  // What a filing leaves behind

  /** `data[cond][point]` if both keys are present. */
  function At(data: Index, c: string, p: string): Option<Json.Value> {
    if c in data && p in data[c] then Some(data[c][p]) else None
  }

  /** The value of the last filing for `(c, p)` in `ws`. */
  function LastWrite(ws: seq<Write>, c: string, p: string): Option<Json.Value>
    decreases |ws|
  {
    if |ws| == 0 then None
    else
      var later := LastWrite(ws[1..], c, p);
      if later.Some? then later
      else if ws[0].cond == c && ws[0].point == p then Some(ws[0].value)
      else None
  }

  predicate CondWritten(ws: seq<Write>, c: string) {
    exists i :: 0 <= i < |ws| && ws[i].cond == c
  }

  function Override(top: Option<Json.Value>, below: Option<Json.Value>): Option<Json.Value> {
    if top.Some? then top else below
  }

  /** After the filings, a condition is present iff it was before or was filed
      into, and each `(cond, point)` holds the last value filed for it, or its
      old value when nothing was filed for it. */
  lemma {:induction false} ApplySpec(data: Index, ws: seq<Write>)
    ensures forall c :: c in Apply(data, ws) <==> c in data || CondWritten(ws, c)
    ensures forall c, p :: At(Apply(data, ws), c, p) == Override(LastWrite(ws, c, p), At(data, c, p))
    decreases |ws|
  {
    if |ws| > 0 {
      var d1 := Insert(data, ws[0]);
      ApplySpec(d1, ws[1..]);
      forall c
        ensures c in Apply(data, ws) <==> c in data || CondWritten(ws, c)
      {
        if CondWritten(ws[1..], c) {
          var i :| 0 <= i < |ws[1..]| && ws[1..][i].cond == c;
          assert ws[i + 1].cond == c;
        }
        if CondWritten(ws, c) && ws[0].cond != c {
          var i :| 0 <= i < |ws| && ws[i].cond == c;
          assert ws[1..][i - 1].cond == c;
        }
      }
    }
  }

  /** Two indexes with the same conditions and the same entries are equal. */
  lemma IndexExt(a: Index, b: Index)
    requires forall c :: c in a <==> c in b
    requires forall c, p :: At(a, c, p) == At(b, c, p)
    ensures a == b
  {
    forall c | c in a
      ensures a[c] == b[c]
    {
      assert forall p :: p in a[c] <==> At(a, c, p).Some?;
      assert forall p :: p in b[c] <==> At(b, c, p).Some?;
      assert a[c].Keys == b[c].Keys;
    }
  }

  /** Re-filing the same files changes nothing: running the aggregation twice
      over an unchanged folder leaves `results.json` as the first run wrote it. */
  lemma ApplyIdempotent(data: Index, ws: seq<Write>)
    ensures Apply(Apply(data, ws), ws) == Apply(data, ws)
  {
    var once := Apply(data, ws);
    ApplySpec(data, ws);
    ApplySpec(once, ws);
    IndexExt(Apply(once, ws), once);
  }

  /** Filing a listing in two parts is filing it at once. */
  lemma {:induction false} ApplyConcat(data: Index, ws1: seq<Write>, ws2: seq<Write>)
    ensures Apply(data, ws1 + ws2) == Apply(Apply(data, ws1), ws2)
    decreases |ws1|
  {
    if |ws1| == 0 {
      assert ws1 + ws2 == ws2;
    } else {
      assert (ws1 + ws2)[1..] == ws1[1..] + ws2;
      ApplyConcat(Insert(data, ws1[0]), ws1[1..], ws2);
    }
  }

  /** Running the pass again on the index it produced, over the same folder,
      gives the same index. */
  lemma GenerateIdempotent(onDisk: Option<Index>, dir: seq<Entry>)
    requires GenerateResultsFile(onDisk, dir).Ok?
    ensures GenerateResultsFile(Some(GenerateResultsFile(onDisk, dir).value), dir)
            == GenerateResultsFile(onDisk, dir)
  {
    var ws := Writes(PtopFiles(dir)).value;
    ApplyIdempotent(if onDisk.Some? then onDisk.value else map[], ws);
  }

  /** Nothing already on disk is lost: every old condition stays, and every
      old entry is either kept or replaced by a file's content. */
  lemma GenerateKeepsOldEntries(onDisk: Index, dir: seq<Entry>, c: string, p: string)
    requires GenerateResultsFile(Some(onDisk), dir).Ok?
    ensures c in onDisk ==> c in GenerateResultsFile(Some(onDisk), dir).value
    ensures At(onDisk, c, p).Some? ==> At(GenerateResultsFile(Some(onDisk), dir).value, c, p).Some?
  {
    ApplySpec(onDisk, Writes(PtopFiles(dir)).value);
  }

  /** The pass fails exactly when some ptop file's name has no condition or
      no point part. */
  lemma GenerateFailsOnMalformedName(onDisk: Option<Index>, dir: seq<Entry>)
    ensures GenerateResultsFile(onDisk, dir).Err? <==>
      exists e :: e in dir && IsPtopFile(e) && (ConditionOf(e.name).Err? || PointOf(e.name).Err?)
  {
    var files := PtopFiles(dir);
    if Writes(files).Err? {
      var i :| 0 <= i < |files| && WriteOf(files[i]).Err?;
      assert files[i] in files;
    }
  }

  // ---------------------------------------------------------------------------
  // File naming round trip

  /** The file name the optimiser writes for a point of a condition:
      `ptop_<cond>_<point>.json` with `point` starting with `R1`. */
  function FileName(cond: string, point: string): string {
    "ptop_" + cond + "_" + point + ".json"
  }

  /** A condition id the name parser can recover: no `_R1` after an
      underscore, and no newline. */
  predicate ParsableCond(c: string) {
    !Contains("_" + c, "_R1") && '\n' !in c
  }

  /** The part of a point id after `R1` must not hold `.json` or a newline. */
  predicate ParsablePoint(p: string) {
    StartsWith(p, "R1") && !Contains(p[2..], ".json") && '\n' !in p
  }

  lemma OccursInPrefix(a: string, b: string, pat: string, j: nat)
    requires j + |pat| <= |a|
    ensures OccursAt(a + b, pat, j) <==> OccursAt(a, pat, j)
  {
    assert (a + b)[j..j + |pat|] == a[j..j + |pat|];
  }

  lemma OccursInSuffix(a: string, b: string, pat: string, j: nat)
    ensures OccursAt(a + b, pat, |a| + j) <==> OccursAt(b, pat, j)
  {
    if |a| + j + |pat| <= |a + b| {
      assert (a + b)[|a| + j..|a| + j + |pat|] == b[j..j + |pat|];
    }
  }

  /** One differing character rules out an occurrence. */
  lemma MismatchAt(s: string, pat: string, j: nat, k: nat)
    requires k < |pat| && j + k < |s| && s[j + k] != pat[k]
    ensures !OccursAt(s, pat, j)
  {
    if j + |pat| <= |s| {
      assert s[j..j + |pat|][k] == s[j + k];
    }
  }

  lemma NotContains(s: string, pat: string, j: nat)
    requires !Contains(s, pat)
    ensures !OccursAt(s, pat, j)
  {
  }

  /** No `_R1` starts inside `ptop_<cond>` of a file name whose rest starts
      with an underscore. */
  lemma NoSeparatorInCond(c: string, b: string, j: nat)
    requires ParsableCond(c) && |b| > 0 && b[0] == '_'
    requires j < 5 + |c|
    ensures !OccursAt("ptop" + ("_" + c) + b, "_R1", j)
  {
    var a := "ptop" + ("_" + c);
    var s := a + b;
    if j < 4 {
      assert s[j] == a[j] == "ptop"[j];
      MismatchAt(s, "_R1", j, 0);
    } else if j + 3 <= |a| {
      OccursInPrefix(a, b, "_R1", j);
      OccursInSuffix("ptop", "_" + c, "_R1", j - 4);
      NotContains("_" + c, "_R1", j - 4);
    } else if j == |a| - 1 {
      assert s[j + 1] == b[0];
      MismatchAt(s, "_R1", j, 1);
    } else {
      assert s[j + 2] == b[0];
      MismatchAt(s, "_R1", j, 2);
    }
  }

  /** The match `re.search` reports when both ends are the first ones found. */
  lemma LazyMatchAt(s: string, open: string, close: string, from: nat, i: nat, k: nat)
    requires |open| > 0
    requires FindFrom(s, open, from) == Some(i) && FindFrom(s, close, i + |open|) == Some(k)
    requires i + |open| <= k <= |s| && '\n' !in s[i + |open|..k]
    ensures LazyMatch(s, open, close, from) == Some((i, k))
  {
  }

  /** A file name starts with its `ptop_`. */
  lemma NameOpens(c: string, p: string)
    ensures FindFrom(FileName(c, p), "ptop_", 0) == Some(0)
  {
    var s := FileName(c, p);
    assert s[..5] == "ptop_";
    FindFromIs(s, "ptop_", 0, 0);
  }

  /** The first `_R1` of a well-formed file name is the one after the condition. */
  lemma NameSeparator(c: string, p: string, from: nat)
    requires ParsableCond(c) && ParsablePoint(p) && from <= 5 + |c|
    ensures FindFrom(FileName(c, p), "_R1", from) == Some(5 + |c|)
  {
    var s := FileName(c, p);
    var a := "ptop" + ("_" + c);
    var b := "_" + p + ".json";
    assert s == a + b;
    assert b[..3] == "_R1";
    OccursInSuffix(a, b, "_R1", 0);
    forall j: nat | from <= j < |a|
      ensures !OccursAt(s, "_R1", j)
    {
      NoSeparatorInCond(c, b, j);
    }
    FindFromIs(s, "_R1", from, |a|);
  }

  /** No `.json` starts inside `tail` when `tail` holds none. */
  lemma NoExtensionInTail(x: string, tail: string, j: nat)
    requires !Contains(tail, ".json") && |x| <= j < |x| + |tail|
    ensures !OccursAt(x + tail + ".json", ".json", j)
  {
    var s := x + tail + ".json";
    var q := |x|;
    var e := |x| + |tail|;
    if j + 5 <= e {
      assert s[j..j + 5] == tail[j - q..j - q + 5];
      NotContains(tail, ".json", j - q);
    } else {
      assert s[e] == '.';
      MismatchAt(s, ".json", j, e - j);
    }
  }

  /** The first `.json` from the start of `tail` is the one after it. */
  lemma ExtensionFound(x: string, tail: string)
    requires !Contains(tail, ".json")
    ensures FindFrom(x + tail + ".json", ".json", |x|) == Some(|x| + |tail|)
  {
    var s := x + tail + ".json";
    var e := |x| + |tail|;
    assert s[e..] == ".json";
    forall j: nat | |x| <= j < e
      ensures !OccursAt(s, ".json", j)
    {
      NoExtensionInTail(x, tail, j);
    }
    FindFromIs(s, ".json", |x|, e);
  }

  /** The condition part of a well-formed file name is recovered exactly. */
  lemma ConditionRoundTrip(c: string, p: string)
    requires ParsableCond(c) && ParsablePoint(p)
    ensures ConditionOf(FileName(c, p)) == Ok(c)
  {
    var s := FileName(c, p);
    NameOpens(c, p);
    NameSeparator(c, p, 5);
    assert s[5..5 + |c|] == c;
    LazyMatchAt(s, "ptop_", "_R1", 0, 0, 5 + |c|);
  }

  /** The point part of a well-formed file name is recovered exactly. */
  lemma PointRoundTrip(c: string, p: string)
    requires ParsableCond(c) && ParsablePoint(p)
    ensures PointOf(FileName(c, p)) == Ok(p)
  {
    PointMatch(c, p);
    PointInName(c, p);
    assert p == "R1" + p[2..];
  }

  lemma PointInName(c: string, p: string)
    requires |p| >= 2
    ensures FileName(c, p)[8 + |c|..6 + |c| + |p|] == p[2..]
  {
    var s := FileName(c, p);
    assert s == "ptop_" + c + "_" + p + ".json";
    forall i | 0 <= i < |p| - 2 ensures s[8 + |c|..6 + |c| + |p|][i] == p[2..][i] {
      assert s[6 + |c| + (2 + i)] == p[2 + i];
    }
  }

  /** The lazy match of a well-formed name starts at the separator and ends
      at the extension. */
  lemma PointMatch(c: string, p: string)
    requires ParsableCond(c) && ParsablePoint(p)
    ensures LazyMatch(FileName(c, p), "_R1", ".json", 0) == Some((5 + |c|, 6 + |c| + |p|))
  {
    var s := FileName(c, p);
    var a := "ptop" + ("_" + c);
    var tail := p[2..];
    assert p == "R1" + tail;
    assert s == (a + "_R1") + tail + ".json";
    NameSeparator(c, p, 0);
    ExtensionFound(a + "_R1", tail);
    assert s[|a| + 3..|a| + 3 + |tail|] == tail;
    NewlineFreeSuffix(p, 2);
    LazyMatchAt(s, "_R1", ".json", 0, 5 + |c|, 6 + |c| + |p|);
  }

  lemma NewlineFreeSuffix(p: string, n: nat)
    requires '\n' !in p && n <= |p|
    ensures '\n' !in p[n..]
  {
    assert forall i :: 0 <= i < |p[n..]| ==> p[n..][i] == p[i + n];
  }

  const DoubledName: string := "ptop_A_R1x.json.json"

  /** A name with a doubled extension: the point stops at the first
      `.json`, so `ptop_A_R1x.json.json` is filed under (A, R1x), as
      `ptop_A_R1x.json` is. */
  lemma DoubledExtensionFiledAsSingle()
    ensures ConditionOf(DoubledName) == Ok("A")
    ensures PointOf(DoubledName) == Ok("R1x")
  {
    DoubledNameSeparator();
    DoubledNameCondition();
    DoubledNamePoint();
  }

  lemma DoubledNameSeparator()
    ensures FindFrom(DoubledName, "_R1", 0) == Some(6) && FindFrom(DoubledName, "_R1", 5) == Some(6)
  {
    var s := DoubledName;
    assert s[6..9] == "_R1";
    forall j: nat | j < 6 ensures !OccursAt(s, "_R1", j) {
      if j == 4 { MismatchAt(s, "_R1", j, 1); } else { MismatchAt(s, "_R1", j, 0); }
    }
    FindFromIs(s, "_R1", 0, 6);
    FindFromIs(s, "_R1", 5, 6);
  }

  lemma DoubledNameCondition()
    requires FindFrom(DoubledName, "_R1", 5) == Some(6)
    ensures ConditionOf(DoubledName) == Ok("A")
  {
    var s := DoubledName;
    assert s[..5] == "ptop_";
    FindFromIs(s, "ptop_", 0, 0);
    var a := s[5..6];
    assert a == "A";
    LazyMatchAt(s, "ptop_", "_R1", 0, 0, 6);
  }

  lemma DoubledNamePoint()
    requires FindFrom(DoubledName, "_R1", 0) == Some(6)
    ensures PointOf(DoubledName) == Ok("R1x")
  {
    var s := DoubledName;
    assert s[10..15] == ".json";
    MismatchAt(s, ".json", 9, 0);
    FindFromIs(s, ".json", 9, 10);
    var x := s[9..10];
    assert x == "x";
    LazyMatchAt(s, "_R1", ".json", 0, 6, 10);
    assert "R1" + x == "R1x";
  }

  /** A folder holding one well-formed file per point files each point's
      content under its condition and point ids. */
  lemma FileIsFiledUnderItsIds(c: string, p: string, content: Json.Value)
    requires ParsableCond(c) && ParsablePoint(p)
    ensures WriteOf(Entry(FileName(c, p), true, content)) == Ok(Write(c, p, content))
  {
    ConditionRoundTrip(c, p);
    PointRoundTrip(c, p);
  }
}

=== FILE: calculations.dfy ===
/** The actuators' electrical power (solhycool_visualizations/calculations.py):
    a polynomial in the actuator's input, in watts, divided by 1000. */
module Calculations {
  import opened Wrappers
  import opened Failures

  /** The coefficients of each actuator, lowest power first. */
  const FanWct: seq<real> := [189.4, -11.54, 0.4118]
  const FanDc: seq<real> := [-295.6, 48.63, -2.2, 0.04761, -0.0002431]
  const PumpC: seq<real> := [227.8, -38.32, 5.763, 0.1461]

  /** `actuator_coefficients.get(actuator)`. */
  function Coefficients(actuator: string): (r: Option<seq<real>>)
    ensures r.Some? <==> actuator in {"fan_wct", "fan_dc", "pump_c"}
    ensures r.Some? ==> |r.value| > 0
  {
    if actuator == "fan_wct" then Some(FanWct)
    else if actuator == "fan_dc" then Some(FanDc)
    else if actuator == "pump_c" then Some(PumpC)
    else None
  }

  function Pow(x: real, n: nat): real
    decreases n
  {
    if n == 0 then 1.0 else x * Pow(x, n - 1)
  }

  /** The sum of the first `n` terms `cs[i] * x^i`: the expression the source
      spells out before switching to `polyval`. */
  function PowerSum(cs: seq<real>, x: real, n: nat): real
    requires n <= |cs|
    decreases n
  {
    if n == 0 then 0.0 else PowerSum(cs, x, n - 1) + cs[n - 1] * Pow(x, n - 1)
  }

  /** Horner's scheme from coefficient `i` on: `cs[i] + x * (cs[i+1] + ...)`. */
  function HornerFrom(cs: seq<real>, x: real, i: nat): real
    requires i <= |cs|
    decreases |cs| - i
  {
    if i == |cs| then 0.0 else cs[i] + x * HornerFrom(cs, x, i + 1)
  }

  /** Horner's value from `i` on, scaled by `x^i`, completes the first `i`
      terms of the power sum to the whole sum. */
  lemma {:induction false} HornerCompletesPowerSum(cs: seq<real>, x: real, i: nat)
    requires i <= |cs|
    ensures PowerSum(cs, x, i) + HornerFrom(cs, x, i) * Pow(x, i) == PowerSum(cs, x, |cs|)
    decreases |cs| - i
  {
    if i < |cs| {
      HornerCompletesPowerSum(cs, x, i + 1);
      var h := HornerFrom(cs, x, i + 1);
      var p := Pow(x, i);
      assert Pow(x, i + 1) == x * p;
      calc {
        HornerFrom(cs, x, i) * p;
        (cs[i] + x * h) * p;
        cs[i] * p + h * (x * p);
      }
    }
  }

  /** Horner's scheme computes the power sum. */
  lemma HornerIsPowerSum(cs: seq<real>, x: real)
    ensures HornerFrom(cs, x, 0) == PowerSum(cs, x, |cs|)
  {
    HornerCompletesPowerSum(cs, x, 0);
  }

  /** `np.polynomial.polynomial.polyval(x, cs)`: Horner's scheme from the
      highest coefficient down. */
  method Polyval(x: real, cs: seq<real>) returns (v: real)
    ensures v == PowerSum(cs, x, |cs|)
  {
    v := 0.0;
    var i := |cs|;
    while i > 0
      invariant 0 <= i <= |cs|
      invariant v == HornerFrom(cs, x, i)
    {
      i := i - 1;
      v := cs[i] + x * v;
    }
    HornerIsPowerSum(cs, x);
  }

  /** `power_consumption(input, actuator)` in kW; an actuator without
      coefficients raises ValueError. */
  function PowerConsumption(x: real, actuator: string): (r: Result<real, Error>)
    ensures r.Err? <==> Coefficients(actuator).None?
    ensures r.Err? ==> r.error == UnknownActuator(actuator)
    ensures r.Ok? ==> var cs := Coefficients(actuator).value; r.value == PowerSum(cs, x, |cs|) / 1000.0
  {
    match Coefficients(actuator)
    case None => Err(UnknownActuator(actuator))
    case Some(cs) =>
      HornerIsPowerSum(cs, x);
      Ok(HornerFrom(cs, x, 0) / 1000.0)
  }

  /** With no input, an actuator draws its constant coefficient, in kW. */
  lemma {:induction false} PowerSumAtZero(cs: seq<real>, n: nat)
    requires 0 < n <= |cs|
    ensures PowerSum(cs, 0.0, n) == cs[0]
    decreases n
  {
    if n > 1 {
      PowerSumAtZero(cs, n - 1);
      assert Pow(0.0, n - 1) == 0.0;
    }
  }

  lemma PowerAtZero(actuator: string)
    requires Coefficients(actuator).Some?
    ensures PowerConsumption(0.0, actuator) == Ok(Coefficients(actuator).value[0] / 1000.0)
  {
    var cs := Coefficients(actuator).value;
    PowerSumAtZero(cs, |cs|);
  }

  /** The three actuators at rest: 189.4 W, -295.6 W and 227.8 W. */
  lemma TableAtZero()
    ensures PowerConsumption(0.0, "fan_wct") == Ok(0.1894)
    ensures PowerConsumption(0.0, "fan_dc") == Ok(-0.2956)
    ensures PowerConsumption(0.0, "pump_c") == Ok(0.2278)
  {
    PowerAtZero("fan_wct");
    PowerAtZero("fan_dc");
    PowerAtZero("pump_c");
  }
}

=== FILE: costs.dfy ===
/** The arithmetic of the cost plots (solhycool_visualizations/costs.py):
    the shares of the two pie charts of a selected point, and the model
    lines drawn over the stacked measured consumptions. */
module Costs {
  import opened Wrappers

  function Abs(x: real): (r: real)
    ensures r >= 0.0 && (r == x || r == -x)
  {
    if x < 0.0 then -x else x
  }

  // ---------------------------------------------------------------------------
  // Electricity pie

  /** The total electrical power: the three consumptions counted by size. */
  function ElectricityTotal(dc: real, wct: real, c: real): (t: real)
    ensures t >= 0.0
    ensures t >= Abs(dc) && t >= Abs(wct) && t >= Abs(c)
    ensures t == 0.0 <==> dc == 0.0 && wct == 0.0 && c == 0.0
  {
    Abs(dc) + Abs(wct) + Abs(c)
  }

  /** The shares of the dry cooler, the wet cooling tower and the pump, in
      percent of the total. With every consumption zero numpy divides zero
      by zero and the shares are not numbers: `None`. The source takes the
      size of the first consumption before dividing and of the other two
      shares after. */
  function ElectricityShares(dc: real, wct: real, c: real): (r: Option<(real, real, real)>)
    ensures r.None? <==> ElectricityTotal(dc, wct, c) == 0.0
  {
    var t := ElectricityTotal(dc, wct, c);
    if t == 0.0 then None
    else Some((Percent(Abs(dc), t), Abs(Percent(wct, t)), Abs(Percent(c, t))))
  }

  /** `x / t * 100`. */
  function Percent(x: real, t: real): (p: real)
    requires t > 0.0
    ensures x >= 0.0 ==> p >= 0.0
  {
    x / t * 100.0
  }

  /** A part of a positive whole is between 0 and 100 percent of it. */
  lemma ScaledShare(a: real, t: real)
    requires t > 0.0 && 0.0 <= a <= t
    ensures 0.0 <= Percent(a, t) <= 100.0
  {
  }

  /** Taking the size after scaling by a positive whole is taking it before. */
  lemma AbsScaled(x: real, t: real)
    requires t > 0.0
    ensures Abs(Percent(x, t)) == Percent(Abs(x), t)
  {
    var q := x / t;
    assert q * t == x;
    if x < 0.0 {
      assert (-q) * t == -x;
      assert (-x) / t == -q;
      assert q < 0.0;
      assert Percent(x, t) == q * 100.0;
      assert Percent(-x, t) == -(q * 100.0);
    } else {
      ScaledShare(x, x + t);
    }
  }

  /** Three parts making a positive whole make 100 percent of it. */
  lemma SharesSum(a: real, b: real, c: real, t: real)
    requires t > 0.0 && a + b + c == t
    ensures Percent(a, t) + Percent(b, t) + Percent(c, t) == 100.0
  {
    assert a / t + b / t + c / t == (a + b + c) / t;
  }

  /** Each electricity share lies between 0 and 100 and the three make 100. */
  lemma ElectricitySharesArePercentages(dc: real, wct: real, c: real)
    requires ElectricityTotal(dc, wct, c) > 0.0
    ensures var s := ElectricityShares(dc, wct, c).value;
            0.0 <= s.0 <= 100.0 && 0.0 <= s.1 <= 100.0 && 0.0 <= s.2 <= 100.0 && s.0 + s.1 + s.2 == 100.0
  {
    var t := ElectricityTotal(dc, wct, c);
    AbsScaled(wct, t);
    AbsScaled(c, t);
    ScaledShare(Abs(dc), t);
    ScaledShare(Abs(wct), t);
    ScaledShare(Abs(c), t);
    SharesSum(Abs(dc), Abs(wct), Abs(c), t);
  }

  // ---------------------------------------------------------------------------
  // Cooling pie

  /** The thermal power a cooler removes: outlet minus inlet temperature
      times its flow. */
  function CoolingPower(tOut: real, tIn: real, m: real): (p: real)
    ensures m == 0.0 || tOut == tIn ==> p == 0.0
    ensures m > 0.0 ==> (p > 0.0 <==> tOut > tIn)
  {
    (tOut - tIn) * m
  }

  /** The powers of the dry cooler and the wet cooling tower and their sum. */
  datatype Cooling = Cooling(dc: real, wct: real, total: real)

  function CoolingPowers(tdcOut: real, tdcIn: real, mdc: real, twctOut: real, twctIn: real, mwct: real): (r: Cooling)
    ensures r.total == r.dc + r.wct
    ensures r.dc == CoolingPower(tdcOut, tdcIn, mdc) && r.wct == CoolingPower(twctOut, twctIn, mwct)
  {
    var dc := CoolingPower(tdcOut, tdcIn, mdc);
    var wct := CoolingPower(twctOut, twctIn, mwct);
    Cooling(dc, wct, dc + wct)
  }

  /** The two cooling shares in percent of the total, taken with their
      signs; undefined (NaN or ±inf in floating point) when the total is zero. */
  function CoolingShares(p: Cooling): (r: Option<(real, real)>)
    ensures r.None? <==> p.total == 0.0
    ensures r.Some? ==> r.value.0 * p.total == p.dc * 100.0 && r.value.1 * p.total == p.wct * 100.0
  {
    if p.total == 0.0 then None else Some((p.dc / p.total * 100.0, p.wct / p.total * 100.0))
  }

  /** The two cooling shares always make 100. */
  lemma CoolingSharesMakeHundred(p: Cooling)
    requires p.total == p.dc + p.wct && p.total != 0.0
    ensures CoolingShares(p).value.0 + CoolingShares(p).value.1 == 100.0
  {
    var s := CoolingShares(p).value;
    assert s.0 + s.1 == (p.dc + p.wct) / p.total * 100.0;
  }

  /** Without sizes taken, a cooler that warms its water has a negative
      share and the other one a share above 100. */
  lemma CoolingShareCanBeNegative()
    ensures var p := CoolingPowers(30.0, 35.0, 1.0, 40.0, 30.0, 1.0);
            CoolingShares(p) == Some((-100.0, 200.0))
  {
    var p := CoolingPowers(30.0, 35.0, 1.0, 40.0, 30.0, 1.0);
    assert p == Cooling(-5.0, 10.0, 5.0);
  }

  // ---------------------------------------------------------------------------
  // Model lines over the stacked consumptions

  /** The heights at which a stack group draws its series: running sums. */
  function Stacked(xs: seq<real>): (r: seq<real>)
    ensures |r| == |xs|
    ensures |xs| > 0 ==> r[0] == xs[0]
    ensures forall i :: 0 < i < |xs| ==> r[i] == r[i - 1] + xs[i]
    decreases |xs|
  {
    if |xs| == 0 then []
    else
      var init := Stacked(xs[..|xs| - 1]);
      assert forall i :: 0 <= i < |xs| - 1 ==> xs[..|xs| - 1][i] == xs[i];
      init + [if |init| == 0 then xs[|xs| - 1] else init[|init| - 1] + xs[|xs| - 1]]
  }

  /** With no negative series the stack never goes down. */
  lemma {:induction false} StackedNonDecreasing(xs: seq<real>, i: nat, j: nat)
    requires forall k :: 0 <= k < |xs| ==> xs[k] >= 0.0
    requires i <= j < |xs|
    ensures Stacked(xs)[i] <= Stacked(xs)[j]
    decreases j - i
  {
    if i < j {
      StackedNonDecreasing(xs, i, j - 1);
    }
  }

  /** The model lines of one sample, in stack order: the dry cooler, then
      with the wet cooling tower, then with the condenser pump. */
  function ModelLines(dcOpt: real, wctOpt: real, cOpt: real): (r: seq<real>)
    ensures r == Stacked([dcOpt, wctOpt, cOpt])
  {
    [dcOpt, dcOpt + wctOpt, dcOpt + wctOpt + cOpt]
  }

  /** Each model line sits where the stack would put the measured series
      if they had the model's values, so with non-negative consumptions the
      lines are ordered like the stack. */
  lemma ModelLinesOrdered(dcOpt: real, wctOpt: real, cOpt: real)
    requires dcOpt >= 0.0 && wctOpt >= 0.0 && cOpt >= 0.0
    ensures var r := ModelLines(dcOpt, wctOpt, cOpt);
            0.0 <= r[0] <= r[1] <= r[2]
  {
    var xs := [dcOpt, wctOpt, cOpt];
    StackedNonDecreasing(xs, 0, 1);
    StackedNonDecreasing(xs, 1, 2);
  }
}

=== FILE: dashboard.dfy ===
/** The optimisation page of the dashboard (pages/optimization.py): the ids
    built from the user's choice, the guard on the vapour temperature, the
    Pareto front ordered by water cost, the diagram shown for a clicked
    point (with its dark-to-light fallback) and the five approaches
    compared in the bar plot. Figures and layout are not modelled. */
module Dashboard {
  import opened Wrappers
  import opened Failures
  import opened Strings
  import Json
  import Aggregator
  import Orchestrator

  // ---------------------------------------------------------------------------
  // Ids

  /** `f'Tamb{Tamb_str}_HR{HR_str}_Tv{Tv_str}_Pth{Pth_str}'`, from the four
      strings the user picked. */
  function ConditionId(tamb: string, hr: string, tv: string, pth: string): (id: string)
    ensures StartsWith(id, "Tamb")
    ensures |id| == |tamb| + |hr| + |tv| + |pth| + 14
  {
    "Tamb" + tamb + "_HR" + hr + "_Tv" + tv + "_Pth" + pth
  }

  /** `f'R1{R1}_R2{R2}_mc{qc}_Tdc{Tdc_out}_Twct{Twct_out}'` of a clicked
      point: the two ratios as whole percentages, the flow and the outlet
      temperatures as their printed one-decimal values. */
  function PointId(r1: int, r2: int, qc: string, tdc: string, twct: string): (id: string)
    ensures StartsWith(id, "R1")
  {
    "R1" + IntStr(r1) + "_R2" + IntStr(r2) + "_mc" + qc + "_Tdc" + tdc + "_Twct" + twct
  }

  /** The characters of a printed number. */
  predicate Numeral(s: string) {
    forall i :: 0 <= i < |s| ==> IsDigit(s[i]) || s[i] == '.' || s[i] == '-'
  }

  lemma IntStrIsNumeral(i: int)
    ensures Numeral(IntStr(i))
  {
    if i < 0 {
      NatStrDigits(-i);
      assert forall k :: 1 <= k < |IntStr(i)| ==> IntStr(i)[k] == NatStr(-i)[k - 1];
    } else {
      NatStrDigits(i);
    }
  }

  /** No underscore in `s` is followed by `R`. */
  predicate NoUnderscoreR(s: string) {
    forall j :: 0 <= j < |s| - 1 && s[j] == '_' ==> s[j + 1] != 'R'
  }

  lemma NoUnderscoreRAppend(a: string, b: string)
    requires NoUnderscoreR(a) && NoUnderscoreR(b)
    requires |b| > 0 ==> b[0] != 'R'
    ensures NoUnderscoreR(a + b)
  {
    var s := a + b;
    forall j | 0 <= j < |s| - 1 && s[j] == '_'
      ensures s[j + 1] != 'R'
    {
      if j + 1 < |a| {
        assert s[j] == a[j] && s[j + 1] == a[j + 1];
      } else if j + 1 == |a| {
        assert s[j + 1] == b[0];
      } else {
        assert s[j] == b[j - |a|] && s[j + 1] == b[j + 1 - |a|];
      }
    }
  }

  lemma NumeralNoUnderscoreR(s: string)
    requires Numeral(s)
    ensures NoUnderscoreR(s) && (|s| > 0 ==> s[0] != 'R')
  {
  }

  /** Appending a printed number keeps every underscore away from an `R`. */
  lemma AppendNumeral(a: string, n: string)
    requires NoUnderscoreR(a) && Numeral(n)
    ensures NoUnderscoreR(a + n)
  {
    NumeralNoUnderscoreR(n);
    NoUnderscoreRAppend(a, n);
  }

  /** Appending a label `_X...` whose second character is not `R`. */
  lemma AppendLabel(a: string, t: string)
    requires NoUnderscoreR(a)
    requires |t| >= 2 && t[0] == '_' && t[1] != 'R' && '_' !in t[1..]
    ensures NoUnderscoreR(a + t)
  {
    forall j | 0 < j < |t|
      ensures t[j] != '_'
    {
      assert t[j] == t[1..][j - 1];
    }
    NoUnderscoreRAppend(a, t);
  }

  lemma NoUnderscoreRHasNoR1(s: string)
    requires NoUnderscoreR(s)
    ensures !Contains(s, "_R1")
  {
    forall j: nat | j <= |s|
      ensures !OccursAt(s, "_R1", j)
    {
      if j + 3 <= |s| {
        var w := s[j..j + 3];
        assert w[0] == s[j] && w[1] == s[j + 1];
        assert "_R1"[0] == '_' && "_R1"[1] == 'R';
      }
    }
  }

  lemma NoJHasNoJson(s: string)
    requires 'j' !in s
    ensures !Contains(s, ".json")
  {
    forall j: nat | j <= |s|
      ensures !OccursAt(s, ".json", j)
    {
      if j + 5 <= |s| {
        var w := s[j..j + 5];
        assert w[1] == s[j + 1];
        assert ".json"[1] == 'j';
      }
    }
  }

  /** A condition id built from printed numbers is one the results
      aggregator recovers from a file name. */
  lemma ConditionIdParsable(tamb: string, hr: string, tv: string, pth: string)
    requires Numeral(tamb) && Numeral(hr) && Numeral(tv) && Numeral(pth)
    ensures Aggregator.ParsableCond(ConditionId(tamb, hr, tv, pth))
  {
    var s0 := "Tamb";
    assert NoUnderscoreR(s0) by { assert '_' !in s0; }
    AppendNumeral(s0, tamb);
    AppendLabel(s0 + tamb, "_HR");
    AppendNumeral(s0 + tamb + "_HR", hr);
    AppendLabel(s0 + tamb + "_HR" + hr, "_Tv");
    AppendNumeral(s0 + tamb + "_HR" + hr + "_Tv", tv);
    AppendLabel(s0 + tamb + "_HR" + hr + "_Tv" + tv, "_Pth");
    AppendNumeral(s0 + tamb + "_HR" + hr + "_Tv" + tv + "_Pth", pth);
    var id := ConditionId(tamb, hr, tv, pth);
    assert NoUnderscoreR(id);
    assert NoUnderscoreR("_");
    assert id[0] == 'T';
    NoUnderscoreRAppend("_", id);
    NoUnderscoreRHasNoR1("_" + id);
    NumeralHasNoNewline(tamb);
    NumeralHasNoNewline(hr);
    NumeralHasNoNewline(tv);
    NumeralHasNoNewline(pth);
  }

  lemma NumeralHasNoNewline(s: string)
    requires Numeral(s)
    ensures '\n' !in s
  {
  }

  /** A point id built from printed numbers is one the results aggregator
      recovers from a file name. */
  lemma PointIdParsable(r1: int, r2: int, qc: string, tdc: string, twct: string)
    requires Numeral(qc) && Numeral(tdc) && Numeral(twct)
    ensures Aggregator.ParsablePoint(PointId(r1, r2, qc, tdc, twct))
  {
    IntStrIsNumeral(r1);
    IntStrIsNumeral(r2);
    var a := "R1" + IntStr(r1) + "_R2" + IntStr(r2);
    Plainly("R1", IntStr(r1), "_R2", IntStr(r2));
    Plainly(a, "_mc", qc, "_Tdc");
    Plainly(a + "_mc" + qc + "_Tdc", tdc, "_Twct", twct);
    var p := PointId(r1, r2, qc, tdc, twct);
    assert p == a + "_mc" + qc + "_Tdc" + tdc + "_Twct" + twct;
    NoJAfterPrefix(p, 2);
    NoJHasNoJson(p[2..]);
  }

  /** Neither a `j` nor a line break. */
  predicate Plain(s: string) {
    forall i :: 0 <= i < |s| ==> s[i] != 'j' && s[i] != '\n'
  }

  /** Printed numbers and the labels of an id are plain, and so is what
      they make together. */
  lemma Plainly(a: string, b: string, c: string, d: string)
    requires Plain(a) || Numeral(a) || a in {"R1", "_R2", "_mc", "_Tdc", "_Twct"}
    requires Plain(b) || Numeral(b) || b in {"R1", "_R2", "_mc", "_Tdc", "_Twct"}
    requires Plain(c) || Numeral(c) || c in {"R1", "_R2", "_mc", "_Tdc", "_Twct"}
    requires Plain(d) || Numeral(d) || d in {"R1", "_R2", "_mc", "_Tdc", "_Twct"}
    ensures Plain(a + b + c + d)
  {
    var s := a + b + c + d;
    forall i | 0 <= i < |s| ensures s[i] != 'j' && s[i] != '\n' {
      if i < |a| { assert s[i] == a[i]; }
      else if i < |a| + |b| { assert s[i] == b[i - |a|]; }
      else if i < |a| + |b| + |c| { assert s[i] == c[i - |a| - |b|]; }
      else { assert s[i] == d[i - |a| - |b| - |c|]; }
    }
  }

  lemma NoJAfterPrefix(p: string, n: nat)
    requires Plain(p) && n <= |p|
    ensures 'j' !in p[n..] && '\n' !in p
  {
    forall i | 0 <= i < |p[n..]| ensures p[n..][i] != 'j' {
      assert p[n..][i] == p[n + i];
    }
  }

  /** The ids of a clicked point are exactly the keys under which the
      results aggregator files that point's `ptop_<cond>_<point>.json`. */
  lemma ClickedPointIsFiledUnderItsIds(tamb: string, hr: string, tv: string, pth: string,
                                       r1: int, r2: int, qc: string, tdc: string, twct: string,
                                       content: Json.Value)
    requires Numeral(tamb) && Numeral(hr) && Numeral(tv) && Numeral(pth)
    requires Numeral(qc) && Numeral(tdc) && Numeral(twct)
    ensures var c := ConditionId(tamb, hr, tv, pth);
            var p := PointId(r1, r2, qc, tdc, twct);
            Aggregator.WriteOf(Aggregator.Entry(Aggregator.FileName(c, p), true, content))
              == Ok(Aggregator.Write(c, p, content))
  {
    ConditionIdParsable(tamb, hr, tv, pth);
    PointIdParsable(r1, r2, qc, tdc, twct);
    Aggregator.FileIsFiledUnderItsIds(ConditionId(tamb, hr, tv, pth), PointId(r1, r2, qc, tdc, twct), content);
  }

  // ---------------------------------------------------------------------------
  // The diagram of a clicked point

  /** The file shown for a point: the light diagram for the light theme,
      otherwise the dark one; when the dark theme's file is missing, every
      `_dark` is removed from the name; when that is missing too, nothing is
      shown. */
  function DiagramName(cond: string, point: string, theme: string, listing: seq<string>): (r: Option<string>)
    ensures r.Some? ==> r.value in listing
    ensures theme == "light" ==>
              r == (if Orchestrator.SvgName(Orchestrator.PointId(cond, point)) in listing
                    then Some(Orchestrator.SvgName(Orchestrator.PointId(cond, point))) else None)
    ensures theme != "light" && Orchestrator.DarkName(Orchestrator.PointId(cond, point)) in listing ==>
              r == Some(Orchestrator.DarkName(Orchestrator.PointId(cond, point)))
    ensures theme != "light" && theme != "dark" && Orchestrator.DarkName(Orchestrator.PointId(cond, point)) !in listing ==>
              r.None?
  {
    var light := cond + "_" + point + ".svg";
    var dark := cond + "_" + point + "_dark.svg";
    var name := if theme == "light" then light else dark;
    var name := if theme == "dark" && name !in listing then ReplaceAll(name, "_dark", "") else name;
    if name in listing then Some(name) else None
  }

  lemma ReplaceDarkSuffix()
    ensures ReplaceAll("_dark.svg", "_dark", "") == ".svg"
  {
    assert "_dark.svg"[..5] == "_dark";
    assert "_dark.svg"[5..] == ".svg";
    assert ReplaceAll(".svg", "_dark", "") == ".svg";
  }

  /** Removing `_dark` from a dark diagram's name gives the light diagram's
      name when the id itself holds no `k`. */
  lemma DarkNameLosesSuffix(id: string)
    requires 'k' !in id
    ensures ReplaceAll(Orchestrator.DarkName(id), "_dark", "") == Orchestrator.SvgName(id)
  {
    var suffix := "_dark.svg";
    var s := id + suffix;
    forall i: nat | i < |id|
      ensures !OccursAt(s, "_dark", i)
    {
      if i + 5 <= |s| {
        var w := s[i..i + 5];
        assert w[4] == s[i + 4];
        assert "_dark"[4] == 'k';
        if i + 4 < |id| {
          assert s[i + 4] == id[i + 4];
        } else {
          assert s[i + 4] == suffix[i + 4 - |id|];
        }
      }
    }
    ReplaceAllAppend(id, suffix, "_dark", "");
    ReplaceDarkSuffix();
  }

  /** With the dark theme and no dark file, the light diagram of the same
      point is shown if it exists. */
  lemma DarkFallsBackToLight(cond: string, point: string, listing: seq<string>)
    requires 'k' !in cond && 'k' !in point
    requires Orchestrator.DarkName(Orchestrator.PointId(cond, point)) !in listing
    ensures var light := Orchestrator.SvgName(Orchestrator.PointId(cond, point));
            DiagramName(cond, point, "dark", listing) == (if light in listing then Some(light) else None)
  {
    DarkNameLosesSuffix(Orchestrator.PointId(cond, point));
  }

  /** A clicked point's ids are free of `k`, so the dark fallback finds
      the light diagram of that very point. */
  lemma ClickedDarkFallsBackToLight(tamb: string, hr: string, tv: string, pth: string,
                                    r1: int, r2: int, qc: string, tdc: string, twct: string, listing: seq<string>)
    requires Numeral(tamb) && Numeral(hr) && Numeral(tv) && Numeral(pth)
    requires Numeral(qc) && Numeral(tdc) && Numeral(twct)
    requires Orchestrator.DarkName(Orchestrator.PointId(ConditionId(tamb, hr, tv, pth),
                                                        PointId(r1, r2, qc, tdc, twct))) !in listing
    ensures var c := ConditionId(tamb, hr, tv, pth);
            var p := PointId(r1, r2, qc, tdc, twct);
            var light := Orchestrator.SvgName(Orchestrator.PointId(c, p));
            DiagramName(c, p, "dark", listing) == (if light in listing then Some(light) else None)
  {
    IntStrIsNumeral(r1);
    IntStrIsNumeral(r2);
    DarkFallsBackToLight(ConditionId(tamb, hr, tv, pth), PointId(r1, r2, qc, tdc, twct), listing);
  }

  // ---------------------------------------------------------------------------
  // The Pareto front

  /** A row of the Pareto front: the flattened point with its electricity
      and water costs. */
  datatype ParetoRow = ParetoRow(ce: real, cw: real, fields: map<string, Json.Value>)

  /** A flattened column read as a number. */
  function Column(row: map<string, Json.Value>, k: string): (r: Result<real, Error>)
    ensures k !in row ==> r == Err(KeyError(k))
    ensures k in row ==> r == Json.Number(row[k])
  {
    if k in row then Json.Number(row[k]) else Err(KeyError(k))
  }

  /** `flatten_dict(results[opcond_id][ptop])` with its two cost columns. */
  function RowOf(point: Json.Value): (r: Result<ParetoRow, Error>)
    ensures !point.Obj? ==> r.Err?
    ensures r.Ok? ==> point.Obj? && r.value.fields == Json.FlattenDict(point.fields)
                      && Column(r.value.fields, "costs_Ce") == Ok(r.value.ce)
                      && Column(r.value.fields, "costs_Cw") == Ok(r.value.cw)
  {
    match point
    case Obj(fs) =>
      var flat := Json.FlattenDict(fs);
      var ce :- Column(flat, "costs_Ce");
      var cw :- Column(flat, "costs_Cw");
      Ok(ParetoRow(ce, cw, flat))
    case _ => Err(TypeError("flatten_dict of a non-dict"))
  }

  /** One row per point of the condition, in the results' order. */
  function Rows(points: seq<(string, Json.Value)>): (r: Result<seq<ParetoRow>, Error>)
    ensures r.Ok? <==> forall i :: 0 <= i < |points| ==> RowOf(points[i].1).Ok?
    ensures r.Ok? ==> |r.value| == |points| && forall i :: 0 <= i < |points| ==> Ok(r.value[i]) == RowOf(points[i].1)
    decreases |points|
  {
    if |points| == 0 then Ok([])
    else
      var head := RowOf(points[0].1);
      var rest := Rows(points[1..]);
      assert forall i :: 1 <= i < |points| ==> points[1..][i - 1] == points[i];
      if head.Err? then Err(head.error)
      else if rest.Err? then Err(rest.error)
      else Ok([head.value] + rest.value)
  }

  predicate SortedByCw(rows: seq<ParetoRow>) {
    forall i, j :: 0 <= i < j < |rows| ==> rows[i].cw <= rows[j].cw
  }

  /** `row` put in place in a front already ordered by water cost. */
  function InsertByCw(row: ParetoRow, rows: seq<ParetoRow>): (r: seq<ParetoRow>)
    requires SortedByCw(rows)
    ensures SortedByCw(r)
    ensures multiset(r) == multiset(rows) + multiset{row}
    ensures |r| == |rows| + 1 && (r[0] == row || (|rows| > 0 && r[0] == rows[0]))
    decreases |rows|
  {
    if |rows| == 0 then [row]
    else if row.cw <= rows[0].cw then [row] + rows
    else
      assert rows == [rows[0]] + rows[1..];
      [rows[0]] + InsertByCw(row, rows[1..])
  }

  /** `sort_values(by=['costs_Cw'])`: the same rows, ordered by water cost. */
  function SortByCw(rows: seq<ParetoRow>): (r: seq<ParetoRow>)
    ensures SortedByCw(r)
    ensures multiset(r) == multiset(rows)
    decreases |rows|
  {
    if |rows| == 0 then []
    else
      assert rows == [rows[0]] + rows[1..];
      InsertByCw(rows[0], SortByCw(rows[1..]))
  }

  /** What the Pareto panel shows. */
  datatype Pareto =
    | PressEvaluate
    | TvNotAboveTamb
    | NotAvailable
    | Front(rows: seq<ParetoRow>)

  /** `update_pareto`: nothing before the first click; the vapour
      temperature must exceed the ambient one before any results are looked
      up; then the condition's points, flattened and ordered by water cost.
      `tamb` and `tv` are the floats the two strings parse to, and `raw`
      is the condition's table of evaluated points when it can be read. */
  function UpdatePareto(clicked: bool, results: map<string, seq<(string, Json.Value)>>,
                        tambStr: string, hrStr: string, tvStr: string, pthStr: string, tamb: real, tv: real,
                        raw: Option<seq<RawRow>>): (r: Result<Pareto, Error>)
    ensures !clicked ==> r == Ok(PressEvaluate)
    ensures clicked && tv <= tamb ==> r == Ok(TvNotAboveTamb)
    ensures clicked && tv > tamb && ConditionId(tambStr, hrStr, tvStr, pthStr) !in results ==> r == Ok(NotAvailable)
    ensures clicked && tv > tamb && ConditionId(tambStr, hrStr, tvStr, pthStr) in results && raw.None?
            ==> r == Err(FileNotFound(ConditionId(tambStr, hrStr, tvStr, pthStr) + ".csv"))
    ensures clicked && tv > tamb && ConditionId(tambStr, hrStr, tvStr, pthStr) in results && raw.Some?
            ==> var rows := Rows(results[ConditionId(tambStr, hrStr, tvStr, pthStr)]);
                (rows.Err? ==> r == Err(rows.error)) && (rows.Ok? ==> r.Ok? && r.value.Front?)
    ensures r.Ok? && r.value.Front? ==>
              var points := results[ConditionId(tambStr, hrStr, tvStr, pthStr)];
              SortedByCw(r.value.rows) && Rows(points).Ok? && multiset(r.value.rows) == multiset(Rows(points).value)
  {
    if !clicked then Ok(PressEvaluate)
    else if tv <= tamb then Ok(TvNotAboveTamb)
    else
      var cond := ConditionId(tambStr, hrStr, tvStr, pthStr);
      if cond !in results then Ok(NotAvailable)
      else
        var _ :- RawTable(raw, cond);
        var rows :- Rows(results[cond]);
        Ok(Front(SortByCw(rows)))
  }

  // ---------------------------------------------------------------------------
  // The five approaches

  /** A row of the table of evaluated points: both ratios and both costs. */
  datatype RawRow = RawRow(r1: real, r2: real, ce: real, cw: real)

  /** `pd.read_csv(<raw data path>/<cond>.csv)`. */
  function RawTable(raw: Option<seq<RawRow>>, cond: string): (r: Result<seq<RawRow>, Error>)
    ensures raw.Some? <==> r.Ok?
    ensures raw.Some? ==> r.value == raw.value
  {
    match raw
    case Some(rs) => Ok(rs)
    case None => Err(FileNotFound(cond + ".csv"))
  }

  /** `k` is what `idxmin` returns over the kept entries of `xs`: a kept
      entry no larger than any kept entry, and the first such. */
  predicate IsFirstMin(xs: seq<real>, keep: seq<bool>, k: int)
    requires |keep| == |xs|
  {
    0 <= k < |xs| && keep[k]
    && (forall i :: 0 <= i < |xs| && keep[i] ==> xs[k] <= xs[i])
    && (forall i :: 0 <= i < k && keep[i] ==> xs[k] < xs[i])
  }

  /** At most one index is the first minimum. */
  lemma FirstMinUnique(xs: seq<real>, keep: seq<bool>, a: int, b: int)
    requires |keep| == |xs| && IsFirstMin(xs, keep, a) && IsFirstMin(xs, keep, b)
    ensures a == b
  {
  }

  /** `xs[keep].idxmin()`: the first index of a least kept entry, or pandas'
      ValueError when nothing is kept. */
  method FirstMin(xs: seq<real>, keep: seq<bool>) returns (r: Result<nat, Error>)
    requires |keep| == |xs|
    ensures r.Ok? ==> IsFirstMin(xs, keep, r.value)
    ensures r.Err? <==> forall i :: 0 <= i < |xs| ==> !keep[i]
    ensures r.Err? ==> r.error == EmptyArgMin
  {
    var best: int := -1;
    var i := 0;
    while i < |xs|
      invariant 0 <= i <= |xs|
      invariant best == -1 <==> forall j :: 0 <= j < i ==> !keep[j]
      invariant best != -1 ==> 0 <= best < i && keep[best]
      invariant best != -1 ==> forall j :: 0 <= j < i && keep[j] ==> xs[best] <= xs[j]
      invariant best != -1 ==> forall j :: 0 <= j < best && keep[j] ==> xs[best] < xs[j]
    {
      if keep[i] && (best == -1 || xs[i] < xs[best]) {
        best := i;
      }
      i := i + 1;
    }
    if best == -1 {
      r := Err(EmptyArgMin);
    } else {
      r := Ok(best);
    }
  }

  /** One cost column of a table, `df[<cost>]`, read row by row. */
  function CostColumn<R>(rows: seq<R>, cost: R -> real): (xs: seq<real>)
    ensures |xs| == |rows| && forall i :: 0 <= i < |rows| ==> xs[i] == cost(rows[i])
  {
    seq(|rows|, i requires 0 <= i < |rows| => cost(rows[i]))
  }

  /** The two cost columns, `costs_Ce` and `costs_Cw`, of the front and of
      the raw table. */
  function FrontCe(row: ParetoRow): real { row.ce }
  function FrontCw(row: ParetoRow): real { row.cw }
  function RawCe(row: RawRow): real { row.ce }
  function RawCw(row: RawRow): real { row.cw }

  function All(n: nat): (keep: seq<bool>)
    ensures |keep| == n && forall i :: 0 <= i < n ==> keep[i]
  {
    seq(n, i => true)
  }

  /** The rows using only the dry cooler: `R1 == 0` and `R2 == 0`. */
  function JustDc(raw: seq<RawRow>): (keep: seq<bool>)
    ensures |keep| == |raw| && forall i :: 0 <= i < |raw| ==> (keep[i] <==> raw[i].r1 == 0.0 && raw[i].r2 == 0.0)
  {
    seq(|raw|, i requires 0 <= i < |raw| => raw[i].r1 == 0.0 && raw[i].r2 == 0.0)
  }

  /** The rows using only the wet cooling tower: `R1 == 1`. */
  function JustWct(raw: seq<RawRow>): (keep: seq<bool>)
    ensures |keep| == |raw| && forall i :: 0 <= i < |raw| ==> (keep[i] <==> raw[i].r1 == 1.0)
  {
    seq(|raw|, i requires 0 <= i < |raw| => raw[i].r1 == 1.0)
  }

  /** The table holds an evaluated point using only the dry cooler. */
  predicate HasJustDc(raw: seq<RawRow>) {
    exists i :: 0 <= i < |raw| && raw[i].r1 == 0.0 && raw[i].r2 == 0.0
  }

  /** The table holds an evaluated point using only the wet cooling tower. */
  predicate HasJustWct(raw: seq<RawRow>) {
    exists i :: 0 <= i < |raw| && raw[i].r1 == 1.0
  }

  /** Electricity and water consumption of one approach. */
  datatype Consumption = Consumption(ce: real, cw: real)

  /** The bar plot's five approaches, in its order. */
  datatype Approaches = Approaches(justDc: Consumption, minCe: Consumption, selected: Consumption,
                                   minCw: Consumption, justWct: Consumption)

  /** The approaches as pandas picks them. Each non-selected approach is the
      row at the first minimum of its cost column among its rows. */
  predicate IsApproaches(front: seq<ParetoRow>, raw: seq<RawRow>, selected: Consumption, a: Approaches) {
    a.selected == selected
    && (exists k :: 0 <= k < |front| && IsFirstMin(CostColumn(front, FrontCe), All(|front|), k) && a.minCe == Consumption(front[k].ce, front[k].cw))
    && (exists k :: 0 <= k < |front| && IsFirstMin(CostColumn(front, FrontCw), All(|front|), k) && a.minCw == Consumption(front[k].ce, front[k].cw))
    && (exists k :: 0 <= k < |raw| && IsFirstMin(CostColumn(raw, RawCe), JustDc(raw), k) && a.justDc == Consumption(raw[k].ce, raw[k].cw))
    && (exists k :: 0 <= k < |raw| && IsFirstMin(CostColumn(raw, RawCw), JustWct(raw), k) && a.justWct == Consumption(raw[k].ce, raw[k].cw))
  }

  /** The five approaches: the least water cost and the least electricity
      cost of the front, the selected point, and the cheapest evaluated
      point of each single-cooler mode. An empty front or a mode with no
      evaluated point raises. */
  method SelectApproaches(front: seq<ParetoRow>, raw: seq<RawRow>, selected: Consumption)
    returns (r: Result<Approaches, Error>)
    ensures r.Ok? ==> IsApproaches(front, raw, selected, r.value)
    ensures r.Err? <==> |front| == 0
                        || (forall i :: 0 <= i < |raw| ==> !(raw[i].r1 == 0.0 && raw[i].r2 == 0.0))
                        || (forall i :: 0 <= i < |raw| ==> raw[i].r1 != 1.0)
    ensures r.Err? ==> r.error == EmptyArgMin
  {
    assert |front| > 0 ==> All(|front|)[0];
    var minCw := FirstMin(CostColumn(front, FrontCw), All(|front|));
    var minCe := FirstMin(CostColumn(front, FrontCe), All(|front|));
    if minCw.Err? || minCe.Err? {
      return Err(EmptyArgMin);
    }
    var dc := FirstMin(CostColumn(raw, RawCe), JustDc(raw));
    if dc.Err? {
      return Err(dc.error);
    }
    var wct := FirstMin(CostColumn(raw, RawCw), JustWct(raw));
    if wct.Err? {
      return Err(wct.error);
    }
    var a, b, c, d := minCe.value, minCw.value, dc.value, wct.value;
    r := Ok(Approaches(Consumption(raw[c].ce, raw[c].cw), Consumption(front[a].ce, front[a].cw), selected,
                       Consumption(front[b].ce, front[b].cw), Consumption(raw[d].ce, raw[d].cw)));
  }

  /** On a front ordered by water cost, the least water cost is its first row. */
  lemma SortedMinCwIsFirstRow(front: seq<ParetoRow>)
    requires SortedByCw(front) && |front| > 0
    ensures IsFirstMin(CostColumn(front, FrontCw), All(|front|), 0)
  {
  }

  /** When every point of the condition reads as a row, so does the clicked one. */
  lemma SelectedRowReads(points: seq<(string, Json.Value)>, pt: string)
    requires Rows(points).Ok? && Json.Get(points, pt).Some?
    ensures |points| > 0 && RowOf(Json.Get(points, pt).value).Ok?
  {
    Json.GetFromPair(points, pt);
  }

  /** A clicked point, as its customdata is rounded: both ratios in whole
      percent, the flow and the temperatures as printed. */
  datatype Click = Click(r1: int, r2: int, qc: string, tdc: string, twct: string)

  /** What the results panel shows. */
  datatype Panel =
    | NoUpdate
    | Shown(diagram: Option<string>, approaches: Approaches)

  /** `update_results`: a click on the front shows the point's diagram and
      the approaches compared with it. Nothing changes without a click,
      with `Tv <= Tamb`, or when the condition or the point has no results. */
  method UpdateResults(click: Option<Click>, results: map<string, seq<(string, Json.Value)>>,
                       tambStr: string, hrStr: string, tvStr: string, pthStr: string, tamb: real, tv: real,
                       theme: string, listing: seq<string>, raw: Option<seq<RawRow>>)
    returns (r: Result<Panel, Error>)
    ensures click.None? || tv <= tamb ==> r == Ok(NoUpdate)
    ensures click.Some? && tv > tamb && ConditionId(tambStr, hrStr, tvStr, pthStr) !in results ==> r == Ok(NoUpdate)
    ensures click.Some? && tv > tamb && ConditionId(tambStr, hrStr, tvStr, pthStr) in results
            && Json.Get(results[ConditionId(tambStr, hrStr, tvStr, pthStr)],
                        PointId(click.value.r1, click.value.r2, click.value.qc, click.value.tdc, click.value.twct)).None?
            ==> r == Ok(NoUpdate)
    ensures click.Some? && tv > tamb && ConditionId(tambStr, hrStr, tvStr, pthStr) in results
            && Json.Get(results[ConditionId(tambStr, hrStr, tvStr, pthStr)],
                        PointId(click.value.r1, click.value.r2, click.value.qc, click.value.tdc, click.value.twct)).Some?
            ==> var cond := ConditionId(tambStr, hrStr, tvStr, pthStr);
                var rows := Rows(results[cond]);
                (raw.None? ==> r == Err(FileNotFound(cond + ".csv")))
                && (raw.Some? && rows.Err? ==> r == Err(rows.error))
                && (raw.Some? && rows.Ok? ==> (r.Ok? <==> HasJustDc(raw.value) && HasJustWct(raw.value))
                                              && (r.Ok? ==> r.value.Shown?)
                                              && (r.Err? ==> r.error == EmptyArgMin))
    ensures r.Ok? && r.value.Shown? ==>
              var cond := ConditionId(tambStr, hrStr, tvStr, pthStr);
              var pt := PointId(click.value.r1, click.value.r2, click.value.qc, click.value.tdc, click.value.twct);
              cond in results && Json.Get(results[cond], pt).Some? && raw.Some?
              && r.value.diagram == DiagramName(cond, pt, theme, listing)
              && RowOf(Json.Get(results[cond], pt).value).Ok?
              && Rows(results[cond]).Ok?
              && IsApproaches(SortByCw(Rows(results[cond]).value), raw.value,
                              Consumption(RowOf(Json.Get(results[cond], pt).value).value.ce,
                                          RowOf(Json.Get(results[cond], pt).value).value.cw), r.value.approaches)
  {
    if click.None? || tv <= tamb {
      return Ok(NoUpdate);
    }
    var cd := click.value;
    var cond := ConditionId(tambStr, hrStr, tvStr, pthStr);
    var pt := PointId(cd.r1, cd.r2, cd.qc, cd.tdc, cd.twct);
    if cond !in results || Json.Get(results[cond], pt).None? {
      return Ok(NoUpdate);
    }
    var diagram := DiagramName(cond, pt, theme, listing);
    var table := RawTable(raw, cond);
    if table.Err? {
      return Err(table.error);
    }
    var rows := Rows(results[cond]);
    if rows.Err? {
      return Err(rows.error);
    }
    var front := SortByCw(rows.value);
    SelectedRowReads(results[cond], pt);
    var sel := RowOf(Json.Get(results[cond], pt).value);
    var approaches := SelectApproaches(front, table.value, Consumption(sel.value.ce, sel.value.cw));
    if approaches.Err? {
      return Err(approaches.error);
    }
    r := Ok(Shown(diagram, approaches.value));
  }
}

=== FILE: diagram.dfy ===
/** The parts `generate_diagram` is made of, shared by its two versions
    (generate_results.py:247-416 and solhycool_visualizations/diagrams.py:157-342):
    line widths, sized icons, text boxes, the cooling requirements icon and
    the cost icons. */
module Diagram {
  import opened Wrappers
  import opened Failures
  import opened Svg
  import opened Render
  import opened Steps
  import Json
  import ValueMapper
  import Widths

  // ---------------------------------------------------------------------------
  // Lines

  const MainLines: seq<string> := ["line_pump_in", "line_c_in", "line_c_out"]
  const DcLines: seq<string> := ["line_dc_in", "line_dc_out"]
  const WctLines: seq<string> := ["line_wct_in", "line_wct_out"]

  /** The version-specific line cells: the bypass of the first valve and the
      two outlets of the second. */
  datatype LineNames = LineNames(bypass: string, out1: string, out2: string)

  /** The ten line cells with their widths, in the order the source sets
      them. */
  function LineWidths(names: LineNames, s: Widths.Split): (ls: seq<(string, real)>)
    ensures |ls| == 10 && ls[0] == (MainLines[0], s.main)
  {
    [(MainLines[0], s.main), (MainLines[1], s.main), (MainLines[2], s.main),
     (names.bypass, s.bypass),
     (DcLines[0], s.dc), (DcLines[1], s.dc),
     (names.out1, s.out1), (names.out2, s.out2),
     (WctLines[0], s.wct), (WctLines[1], s.wct)]
  }

  /** The version's line names differ from each other and from the shared
      ones, so no line is set twice. */
  predicate DistinctLines(names: LineNames) {
    var ids := [MainLines[0], MainLines[1], MainLines[2], names.bypass, DcLines[0], DcLines[1],
                names.out1, names.out2, WctLines[0], WctLines[1]];
    forall i, j :: 0 <= i < j < 10 ==> ids[i] != ids[j]
  }

  /** The stroke widths. A missing line cell fails with IndexError before
      the widths of the lines after it are set; on success every line cell's
      children (line and arrow) carry the line's width, each child's other
      attributes and every other cell's children are as they were. */
  function ApplySplit(doc: Node, names: LineNames, s: Widths.Split): (r: Result<Node, Error>)
    ensures !HasCell(doc, MainLines[0]) ==> r == Err(IndexError(MainLines[0]))
    ensures r.Ok? <==> forall k :: 0 <= k < 10 ==> HasCell(doc, LineWidths(names, s)[k].0)
    ensures r.Ok? ==> StrokesApplied(doc, LineWidths(names, s), r.value)
    ensures r.Ok? && DistinctLines(names) ==>
              forall k :: 0 <= k < 10 ==>
                var (id, w) := LineWidths(names, s)[k];
                HasCell(r.value, id) && HasCell(doc, id)
                && ChildAttrs(Cell(r.value, id).value) == Stroked(ChildAttrs(Cell(doc, id).value), w)
  {
    DistinctLinesSetOnce(names, s);
    StrokeAll(doc, LineWidths(names, s))
  }

  lemma DistinctLinesSetOnce(names: LineNames, s: Widths.Split)
    ensures DistinctLines(names) ==> forall k :: 0 <= k < 10 ==> LastFor(LineWidths(names, s), k)
  {
    var ls := LineWidths(names, s);
    var ids := [MainLines[0], MainLines[1], MainLines[2], names.bypass, DcLines[0], DcLines[1],
                names.out1, names.out2, WctLines[0], WctLines[1]];
    assert forall i :: 0 <= i < 10 ==> ls[i].0 == ids[i];
  }

  // ---------------------------------------------------------------------------
  // Sized icons

  /** Icons are scaled between 30 and 70 over their variable's range. */
  const MinIconSize: real := 30.0
  const MaxIconSize: real := 70.0

  /** One sized icon: its cell, its variable, the unit of its text and
      whether it gets a boundary circle. */
  datatype IconSpec = IconSpec(cell: string, varId: string, unit: string, boundary: bool)

  const IconCells: seq<string> := ["fan_dc", "fan_wct", "valve_r1", "valve_r2", "temp_amb", "hr_amb", "temp_wct", "temp_dc"]
  const IconUnits: seq<string> := ["%", "%", "", "", "degree_celsius", "%", "degree_celsius", "degree_celsius"]
  const IconBoundaries: seq<bool> := [true, true, false, false, true, true, true, true]

  /** The eight sized icons for the version's variable names. */
  function IconSpecs(varIds: seq<string>): (specs: seq<IconSpec>)
    requires |varIds| == 8
    ensures |specs| == 8
    ensures forall i :: 0 <= i < 8 ==> specs[i] == IconSpec(IconCells[i], varIds[i], IconUnits[i], IconBoundaries[i])
  {
    seq(8, i requires 0 <= i < 8 => IconSpec(IconCells[i], varIds[i], IconUnits[i], IconBoundaries[i]))
  }

  /** An icon's size: `get_y(x, <var>_min, <var>_max, 30, 70)` on the
      looked-up values. */
  function IconSize(x: Json.Value, lo: Json.Value, hi: Json.Value): (r: Result<real, Error>)
    ensures Json.Number(lo).Ok? && Json.Number(hi).Ok? && Json.Number(lo).value == Json.Number(hi).value
            ==> r == Err(ZeroDivision)
    ensures r.Ok? ==> Json.Number(x).Ok? && Json.Number(lo).Ok? && Json.Number(hi).Ok?
    ensures r.Ok? && Json.Number(lo).value <= Json.Number(x).value <= Json.Number(hi).value
            ==> MinIconSize <= r.value <= MaxIconSize
  {
    var r := ValueMapper.GetYOf(x, lo, hi, MinIconSize, MaxIconSize);
    if r.Ok? then
      var xv, l, h := Json.Number(x).value, Json.Number(lo).value, Json.Number(hi).value;
      if l < h && l <= xv <= h then
        ValueMapper.GetYInRange(xv, l, h, MinIconSize, MaxIconSize);
        r
      else r
    else r
  }

  /** One sized icon: the raw value sets the size, the value made a float
      (where it can be) is the text, and the range's maximum labels the
      boundary circle. `obj` is the object holding the variable; its lookup
      fails only when this icon is reached. The variable and both bounds are
      looked up before any of them is used as a number. */
  function SizedIcon(doc: Node, spec: IconSpec, obj: Result<Json.Value, Error>, opR: Json.Value,
                     boolIsInt: bool): (r: Result<Node, Error>)
    ensures obj.Err? ==> r == Err(obj.error)
    ensures obj.Ok? && Json.Field(obj.value, spec.varId).Err? ==> r == Err(Json.Field(obj.value, spec.varId).error)
    ensures obj.Ok? && Json.Field(obj.value, spec.varId).Ok? && Json.Field(opR, spec.varId + "_min").Err?
            ==> r == Err(Json.Field(opR, spec.varId + "_min").error)
    ensures obj.Ok? && Json.Field(obj.value, spec.varId).Ok? && Json.Field(opR, spec.varId + "_min").Ok?
            && Json.Field(opR, spec.varId + "_max").Err?
            ==> r == Err(Json.Field(opR, spec.varId + "_max").error)
  {
    var o :- obj;
    var v :- Json.Field(o, spec.varId);
    var loV :- Json.Field(opR, spec.varId + "_min");
    var hiV :- Json.Field(opR, spec.varId + "_max");
    var size :- IconSize(v, loV, hiV);
    var shown := ConvertToFloat(v).value;
    var boundary := if spec.boundary then Some(Boundary(MaxIconSize, Json.Number(hiV).value)) else None;
    IconStep(doc, spec.cell, spec.varId, size, Value(shown), spec.unit, boundary, boolIsInt)
  }

  /** The icon loop. */
  function SizedIcons(doc: Node, specs: seq<IconSpec>, objs: seq<Result<Json.Value, Error>>, opR: Json.Value,
                      boolIsInt: bool): (r: Result<Node, Error>)
    requires |objs| == |specs|
    ensures |specs| == 0 ==> r == Ok(doc)
    ensures |specs| > 0 && SizedIcon(doc, specs[0], objs[0], opR, boolIsInt).Err? ==>
              r == Err(SizedIcon(doc, specs[0], objs[0], opR, boolIsInt).error)
    decreases |specs|
  {
    if |specs| == 0 then Ok(doc)
    else
      var d :- SizedIcon(doc, specs[0], objs[0], opR, boolIsInt);
      SizedIcons(d, specs[1..], objs[1..], opR, boolIsInt)
  }

  /** A sized icon's cell is the icon `adjust_icon` draws for the variable. */
  lemma SizedIconCell(doc: Node, spec: IconSpec, obj: Result<Json.Value, Error>, opR: Json.Value,
                      boolIsInt: bool)
    requires SizedIcon(doc, spec, obj, opR, boolIsInt).Ok?
    ensures obj.Ok? && Json.Field(obj.value, spec.varId).Ok?
            && Json.Field(opR, spec.varId + "_min").Ok? && Json.Field(opR, spec.varId + "_max").Ok?
    ensures var v := Json.Field(obj.value, spec.varId).value;
      var hi := Json.Field(opR, spec.varId + "_max").value;
      var size := IconSize(v, Json.Field(opR, spec.varId + "_min").value, hi);
      size.Ok? && Json.Number(hi).Ok? && ConvertToFloat(v).Ok?
      && Cell(SizedIcon(doc, spec, obj, opR, boolIsInt).value, spec.cell)
         == IconCell(Cell(doc, spec.cell).value, spec.varId, size.value, Value(ConvertToFloat(v).value), spec.unit,
                     if spec.boundary then Some(Boundary(MaxIconSize, Json.Number(hi).value)) else None, boolIsInt)
  {
    var v := Json.Field(obj.value, spec.varId).value;
    var lo := Json.Field(opR, spec.varId + "_min").value;
    var hi := Json.Field(opR, spec.varId + "_max").value;
    var size := IconSize(v, lo, hi).value;
    var boundary := if spec.boundary then Some(Boundary(MaxIconSize, Json.Number(hi).value)) else None;
    IconStepCell(doc, spec.cell, spec.varId, size, Value(ConvertToFloat(v).value), spec.unit, boundary, boolIsInt);
  }

  // ---------------------------------------------------------------------------
  // Text boxes

  const TextBoxCells: seq<string> := ["line_c_in_text", "line_c_out_text", "pump_c_text"]

  /** The text boxes, each with its text; a text is needed (and its failure
      raised) only when its box holds a text element. */
  function TextBoxes(doc: Node, boxes: seq<(string, Result<Text, Error>)>): (r: Result<Node, Error>)
    ensures |boxes| == 0 ==> r == Ok(doc)
    ensures |boxes| > 0 && !HasCell(doc, boxes[0].0) ==> r == Err(IndexError(boxes[0].0))
    decreases |boxes|
  {
    if |boxes| == 0 then Ok(doc)
    else
      var d :- TextBox(doc, boxes[0].0, boxes[0].1);
      TextBoxes(d, boxes[1..])
  }

  /** The loop's step: the first box, then the rest on its result. */
  lemma TextBoxesStep(doc: Node, boxes: seq<(string, Result<Text, Error>)>)
    requires |boxes| > 0 && TextBox(doc, boxes[0].0, boxes[0].1).Ok?
    ensures TextBoxes(doc, boxes) == TextBoxes(TextBox(doc, boxes[0].0, boxes[0].1).value, boxes[1..])
  {
  }

  /** The boxes are filled one after the other, so the first missing box
      is the error when every earlier box holds and takes its text. */
  lemma {:induction false} TextBoxesMissing(doc: Node, boxes: seq<(string, Result<Text, Error>)>, k: nat)
    requires k < |boxes| && !HasCell(doc, boxes[k].0)
    requires forall i :: 0 <= i < k ==> HasCell(doc, boxes[i].0) && boxes[i].1.Ok?
    ensures TextBoxes(doc, boxes) == Err(IndexError(boxes[k].0))
    decreases k
  {
    if k > 0 {
      TextBoxesMissingTail(doc, boxes, k);
      TextBoxesMissing(TextBox(doc, boxes[0].0, boxes[0].1).value, boxes[1..], k - 1);
    }
  }

  /** The first box filled, the rest of the loop meets the same missing box
      after the same present ones. */
  lemma TextBoxesMissingTail(doc: Node, boxes: seq<(string, Result<Text, Error>)>, k: nat)
    requires 0 < k < |boxes| && !HasCell(doc, boxes[k].0)
    requires forall i :: 0 <= i < k ==> HasCell(doc, boxes[i].0) && boxes[i].1.Ok?
    ensures TextBox(doc, boxes[0].0, boxes[0].1).Ok?
    ensures TextBoxes(doc, boxes) == TextBoxes(TextBox(doc, boxes[0].0, boxes[0].1).value, boxes[1..])
    ensures !HasCell(TextBox(doc, boxes[0].0, boxes[0].1).value, boxes[1..][k - 1].0)
    ensures forall i :: 0 <= i < k - 1 ==>
              HasCell(TextBox(doc, boxes[0].0, boxes[0].1).value, boxes[1..][i].0) && boxes[1..][i].1.Ok?
  {
    var d := TextBox(doc, boxes[0].0, boxes[0].1).value;
    var tail := boxes[1..];
    TextBoxesFirst(doc, boxes);
    assert tail[k - 1] == boxes[k];
    forall i | 0 <= i < k - 1 ensures HasCell(d, tail[i].0) && tail[i].1.Ok? {
      assert tail[i] == boxes[i + 1] && HasCell(doc, boxes[i + 1].0);
    }
  }

  /** Every box present with its text: the boxes are filled. */
  lemma {:induction false} TextBoxesSucceed(doc: Node, boxes: seq<(string, Result<Text, Error>)>)
    requires forall i :: 0 <= i < |boxes| ==> HasCell(doc, boxes[i].0) && boxes[i].1.Ok?
    ensures TextBoxes(doc, boxes).Ok?
    decreases |boxes|
  {
    if |boxes| > 0 {
      var d := TextBox(doc, boxes[0].0, boxes[0].1).value;
      var tail := boxes[1..];
      TextBoxesStep(doc, boxes);
      TextBoxShape(doc, boxes[0].0, boxes[0].1);
      forall i | 0 <= i < |tail| ensures HasCell(d, tail[i].0) && tail[i].1.Ok? {
        assert tail[i] == boxes[i + 1];
        SameShapeFind(doc, d, tail[i].0);
      }
      TextBoxesSucceed(d, tail);
    }
  }

  /** Filled boxes keep the document's shape. */
  lemma {:induction false} TextBoxesKeep(doc: Node, boxes: seq<(string, Result<Text, Error>)>)
    requires TextBoxes(doc, boxes).Ok?
    ensures SameShape(doc, TextBoxes(doc, boxes).value)
    decreases |boxes|
  {
    if |boxes| == 0 {
      SameShapeRefl(doc);
    } else {
      var d := TextBox(doc, boxes[0].0, boxes[0].1).value;
      TextBoxesStep(doc, boxes);
      TextBoxShape(doc, boxes[0].0, boxes[0].1);
      TextBoxesKeep(d, boxes[1..]);
      SameShapeTrans(doc, d, TextBoxes(d, boxes[1..]).value);
    }
  }

  /** Filled boxes were all there. */
  lemma {:induction false} TextBoxesPresent(doc: Node, boxes: seq<(string, Result<Text, Error>)>)
    requires TextBoxes(doc, boxes).Ok?
    ensures forall i :: 0 <= i < |boxes| ==> HasCell(doc, boxes[i].0)
    decreases |boxes|
  {
    if |boxes| > 0 {
      var d := TextBox(doc, boxes[0].0, boxes[0].1).value;
      TextBoxesFirst(doc, boxes);
      TextBoxesPresent(d, boxes[1..]);
    }
  }

  /** After a first box that is filled, the rest of the loop runs on a
      document with the same cells. */
  lemma TextBoxesFirst(doc: Node, boxes: seq<(string, Result<Text, Error>)>)
    requires |boxes| > 0 && TextBox(doc, boxes[0].0, boxes[0].1).Ok?
    ensures HasCell(doc, boxes[0].0)
    ensures TextBoxes(doc, boxes) == TextBoxes(TextBox(doc, boxes[0].0, boxes[0].1).value, boxes[1..])
    ensures SameShape(doc, TextBox(doc, boxes[0].0, boxes[0].1).value)
    ensures forall i :: 0 < i < |boxes| ==>
              (HasCell(doc, boxes[i].0) <==> HasCell(TextBox(doc, boxes[0].0, boxes[0].1).value, boxes[1..][i - 1].0))
  {
    var d := TextBox(doc, boxes[0].0, boxes[0].1).value;
    TextBoxesStep(doc, boxes);
    TextBoxShape(doc, boxes[0].0, boxes[0].1);
    forall i | 0 < i < |boxes|
      ensures HasCell(doc, boxes[i].0) <==> HasCell(d, boxes[1..][i - 1].0)
    {
      assert boxes[1..][i - 1] == boxes[i];
      SameShapeFind(doc, d, boxes[i].0);
    }
  }

  /** Filling the boxes fails only at a missing box or on a box's own text
      error. */
  lemma {:induction false} TextBoxesFail(doc: Node, boxes: seq<(string, Result<Text, Error>)>)
    requires TextBoxes(doc, boxes).Err?
    ensures exists k :: 0 <= k < |boxes|
              && ((!HasCell(doc, boxes[k].0) && TextBoxes(doc, boxes).error == IndexError(boxes[k].0))
                  || (boxes[k].1.Err? && TextBoxes(doc, boxes).error == boxes[k].1.error))
    decreases |boxes|
  {
    if HasCell(doc, boxes[0].0) && TextBox(doc, boxes[0].0, boxes[0].1).Ok? {
      var d := TextBox(doc, boxes[0].0, boxes[0].1).value;
      var tail := boxes[1..];
      TextBoxesStep(doc, boxes);
      TextBoxShape(doc, boxes[0].0, boxes[0].1);
      TextBoxesFail(d, tail);
      var k :| 0 <= k < |tail|
               && ((!HasCell(d, tail[k].0) && TextBoxes(d, tail).error == IndexError(tail[k].0))
                   || (tail[k].1.Err? && TextBoxes(d, tail).error == tail[k].1.error));
      assert boxes[k + 1] == tail[k];
      SameShapeFind(doc, d, tail[k].0);
    }
  }
  /** Any two boxes of the list name cells apart. */
  predicate BoxesApart(doc: Node, boxes: seq<(string, Result<Text, Error>)>) {
    forall i, j :: 0 <= i < j < |boxes| ==> Apart(doc, boxes[i].0, boxes[j].0)
  }

  lemma BoxesApartShape(a: Node, b: Node, boxes: seq<(string, Result<Text, Error>)>)
    requires SameShape(a, b) && BoxesApart(a, boxes)
    ensures BoxesApart(b, boxes)
  {
    forall i, j | 0 <= i < j < |boxes| ensures Apart(b, boxes[i].0, boxes[j].0) {
      ApartShape(a, b, boxes[i].0, boxes[j].0);
    }
  }

  /** A cell apart from every box is left as it was. */
  lemma {:induction false} TextBoxesElsewhere(doc: Node, boxes: seq<(string, Result<Text, Error>)>, other: string)
    requires TextBoxes(doc, boxes).Ok?
    requires forall i :: 0 <= i < |boxes| ==> Apart(doc, boxes[i].0, other)
    ensures Cell(TextBoxes(doc, boxes).value, other) == Cell(doc, other)
    decreases |boxes|
  {
    if |boxes| > 0 {
      var d := TextBox(doc, boxes[0].0, boxes[0].1).value;
      var tail := boxes[1..];
      TextBoxesStep(doc, boxes);
      TextBoxKeeps(doc, boxes[0].0, boxes[0].1, other);
      forall i | 0 <= i < |tail| ensures Apart(d, tail[i].0, other) {
        assert tail[i] == boxes[i + 1];
        ApartShape(doc, d, tail[i].0, other);
      }
      TextBoxesElsewhere(d, tail, other);
    }
  }

  /** With the boxes apart, every box ends up as its old cell with its text
      written in: the loop at generate_results.py:362-374 fills each box once. */
  lemma {:induction false} TextBoxesCells(doc: Node, boxes: seq<(string, Result<Text, Error>)>, k: nat)
    requires TextBoxes(doc, boxes).Ok? && BoxesApart(doc, boxes) && k < |boxes|
    ensures HasCell(doc, boxes[k].0)
    ensures Cell(TextBoxes(doc, boxes).value, boxes[k].0) == TextCell(Cell(doc, boxes[k].0).value, boxes[k].1)
    decreases |boxes|
  {
    if k == 0 {
      TextBoxesFirstCell(doc, boxes);
    } else {
      var d := TextBox(doc, boxes[0].0, boxes[0].1).value;
      var tail := boxes[1..];
      TextBoxesTail(doc, boxes);
      assert tail[k - 1] == boxes[k];
      TextBoxesCells(d, tail, k - 1);
      assert Apart(doc, boxes[0].0, boxes[k].0);
      TextBoxKeeps(doc, boxes[0].0, boxes[0].1, boxes[k].0);
    }
  }

  /** After the first box the rest of the loop runs on apart boxes. */
  lemma TextBoxesTail(doc: Node, boxes: seq<(string, Result<Text, Error>)>)
    requires TextBoxes(doc, boxes).Ok? && BoxesApart(doc, boxes) && |boxes| > 0
    ensures TextBox(doc, boxes[0].0, boxes[0].1).Ok?
    ensures TextBoxes(doc, boxes) == TextBoxes(TextBox(doc, boxes[0].0, boxes[0].1).value, boxes[1..])
    ensures BoxesApart(TextBox(doc, boxes[0].0, boxes[0].1).value, boxes[1..])
  {
    var d := TextBox(doc, boxes[0].0, boxes[0].1).value;
    var tail := boxes[1..];
    TextBoxesStep(doc, boxes);
    TextBoxShape(doc, boxes[0].0, boxes[0].1);
    BoxesApartShape(doc, d, boxes);
    forall i, j | 0 <= i < j < |tail| ensures Apart(d, tail[i].0, tail[j].0) {
      assert tail[i] == boxes[i + 1] && tail[j] == boxes[j + 1];
    }
  }

  /** The first box is apart from the rest, which leave it as it is filled. */
  lemma TextBoxesFirstCell(doc: Node, boxes: seq<(string, Result<Text, Error>)>)
    requires TextBoxes(doc, boxes).Ok? && BoxesApart(doc, boxes) && |boxes| > 0
    ensures HasCell(doc, boxes[0].0)
    ensures Cell(TextBoxes(doc, boxes).value, boxes[0].0) == TextCell(Cell(doc, boxes[0].0).value, boxes[0].1)
  {
    var d := TextBox(doc, boxes[0].0, boxes[0].1).value;
    var tail := boxes[1..];
    TextBoxesTail(doc, boxes);
    TextBoxKeeps(doc, boxes[0].0, boxes[0].1, boxes[0].0);
    BoxesApartShape(doc, d, boxes);
    forall i | 0 <= i < |tail| ensures Apart(d, tail[i].0, boxes[0].0) {
      assert tail[i] == boxes[i + 1];
      assert Apart(d, boxes[0].0, boxes[i + 1].0);
    }
    TextBoxesElsewhere(d, tail, boxes[0].0);
  }
  /** `f'{round_to_nonzero_decimal(v)} {unit}'` of a looked-up value. */
  function BoxText(v: Result<Json.Value, Error>, unit: string): (r: Result<Text, Error>)
    ensures v.Err? ==> r == Err(v.error)
    ensures v.Ok? ==> r == RoundedText(v.value, unit)
  {
    var x :- v;
    RoundedText(x, unit)
  }

  // ---------------------------------------------------------------------------
  // Cooling requirements

  /** `f'{Pth:.0f} <word>, {Mv:.2f} kg/s, {Tv:.0f} ⁰C'`. */
  function CoolingText(pth: real, mv: real, tv: real, word: string): (t: Text)
    ensures |t| == 6 && t[0] == Fixed(pth, 0) && t[2] == Fixed(mv, 2) && t[4] == Fixed(tv, 0)
  {
    [Fixed(pth, 0), Lit(" " + word + ", "), Fixed(mv, 2), Lit(" kg/s, "), Fixed(tv, 0), Lit(" " + SuperscriptDegreeC)]
  }

  /** A value formatted with `:.Nf`: numbers (bools among them) format, a
      string has no `f` format (ValueError), and anything else rejects the
      format string (TypeError). */
  function FixedOperand(v: Json.Value): (r: Result<real, Error>)
    ensures r.Ok? <==> Json.Number(v).Ok?
    ensures r.Ok? ==> r.value == Json.Number(v).value
    ensures v.Str? ==> r.Err? && r.error.ValueError?
    ensures r.Err? && !v.Str? ==> r.error.TypeError?
  {
    if v.Str? then Err(ValueError("unknown format code 'f' for a string"))
    else match Json.Number(v)
      case Ok(x) => Ok(x)
      case Err(_) => Err(TypeError("unsupported format string"))
  }

  /** The cooling requirements icon: sized by the thermal power over its
      range, labelled with power, vapour flow and vapour temperature, with a
      boundary circle. The power and both bounds are looked up before the
      size is computed; then the label looks up and formats `Mv` and `Tv`,
      one after the other. */
  function Cooling(doc: Node, cr: Json.Value, opR: Json.Value, word: string, boolIsInt: bool): (r: Result<Node, Error>)
    ensures Json.Field(cr, "Pth").Err? ==> r == Err(Json.Field(cr, "Pth").error)
    ensures Json.Field(cr, "Pth").Ok? && Json.Field(opR, "Pth_min").Err? ==> r == Err(Json.Field(opR, "Pth_min").error)
    ensures Json.Field(cr, "Pth").Ok? && Json.Field(opR, "Pth_min").Ok? && Json.Field(opR, "Pth_max").Err?
            ==> r == Err(Json.Field(opR, "Pth_max").error)
    ensures Json.Field(cr, "Pth").Ok? && Json.Field(opR, "Pth_min").Ok? && Json.Field(opR, "Pth_max").Ok?
            && IconSize(Json.Field(cr, "Pth").value, Json.Field(opR, "Pth_min").value, Json.Field(opR, "Pth_max").value).Ok?
            && Json.Field(cr, "Mv").Ok? && Json.Field(cr, "Mv").value.Str?
            ==> r.Err? && r.error.ValueError?
    ensures r.Ok? ==> Json.Field(cr, "Mv").Ok? && Json.Number(Json.Field(cr, "Mv").value).Ok?
                      && Json.Field(cr, "Tv").Ok? && Json.Number(Json.Field(cr, "Tv").value).Ok?
  {
    var pthV :- Json.Field(cr, "Pth");
    var loV :- Json.Field(opR, "Pth_min");
    var hiV :- Json.Field(opR, "Pth_max");
    var size :- IconSize(pthV, loV, hiV);
    var pth := Json.Number(pthV).value;
    var mvV :- Json.Field(cr, "Mv");
    var mv :- FixedOperand(mvV);
    var tvV :- Json.Field(cr, "Tv");
    var tv :- FixedOperand(tvV);
    IconStep(doc, "cooling_req", "cooling_req", size, Formatted(CoolingText(pth, mv, tv, word)), "",
             Some(Boundary(MaxIconSize, Json.Number(hiV).value)), boolIsInt)
  }

  // ---------------------------------------------------------------------------
  // Costs

  const ElectricityStem: string := "electrical_consumption_x"
  const WaterStem: string := "water_consumption_x"

  /** The three cost icons: two electricity costs levelled over `Ce_min` to
      `Ce_max`, and the water cost levelled over 0 to `Cw_max`. Both
      electricity bounds are looked up before the first cost; `Cw_max` is
      looked up only after the two electricity icons are drawn. */
  function Costs(doc: Node, files: Files, folder: string, opR: Json.Value,
                 ceWct: Result<Json.Value, Error>, ceDc: Result<Json.Value, Error>, cwWct: Result<Json.Value, Error>,
                 eUnit: string, wUnit: string, boolIsInt: bool): (r: Result<Node, Error>)
    ensures Json.Field(opR, "Ce_min").Err? ==> r == Err(Json.Field(opR, "Ce_min").error)
    ensures Json.Field(opR, "Ce_min").Ok? && Json.Field(opR, "Ce_max").Err? ==> r == Err(Json.Field(opR, "Ce_max").error)
    ensures Json.Field(opR, "Ce_min").Ok? && Json.Field(opR, "Ce_max").Ok? && ceWct.Err? ==> r == Err(ceWct.error)
  {
    var ceMin :- Json.Field(opR, "Ce_min");
    var ceMax :- Json.Field(opR, "Ce_max");
    var v :- ceWct;
    var d :- CostIcon(doc, files, folder, "cost_e_wct", "Ce_wct", v, ceMin, ceMax, ElectricityStem, eUnit, boolIsInt);
    var v :- ceDc;
    var d :- CostIcon(d, files, folder, "cost_e_dc", "Ce_dc", v, ceMin, ceMax, ElectricityStem, eUnit, boolIsInt);
    var cwMax :- Json.Field(opR, "Cw_max");
    var v :- cwWct;
    CostIcon(d, files, folder, "cost_w_wct", "Cw_wct", v, Json.Int(0), cwMax, WaterStem, wUnit, boolIsInt)
  }

  /** The three cost cells. */
  const CostCells: seq<string> := ["cost_e_wct", "cost_e_dc", "cost_w_wct"]

  /** The cost icons keep the document's shape and every cell apart from the
      three they edit. */
  lemma CostsKeeps(doc: Node, files: Files, folder: string, opR: Json.Value,
                   ceWct: Result<Json.Value, Error>, ceDc: Result<Json.Value, Error>, cwWct: Result<Json.Value, Error>,
                   eUnit: string, wUnit: string, boolIsInt: bool, other: string)
    requires Costs(doc, files, folder, opR, ceWct, ceDc, cwWct, eUnit, wUnit, boolIsInt).Ok?
    ensures var r := Costs(doc, files, folder, opR, ceWct, ceDc, cwWct, eUnit, wUnit, boolIsInt).value;
      SameShape(doc, r)
      && (Apart(doc, CostCells[0], other) && Apart(doc, CostCells[1], other) && Apart(doc, CostCells[2], other)
          ==> Cell(r, other) == Cell(doc, other))
  {
    CostsSteps(doc, files, folder, opR, ceWct, ceDc, cwWct, eUnit, wUnit, boolIsInt);
    var ceMin := Json.Field(opR, "Ce_min").value;
    var ceMax := Json.Field(opR, "Ce_max").value;
    var cwMax := Json.Field(opR, "Cw_max").value;
    var d1 := CostIcon(doc, files, folder, "cost_e_wct", "Ce_wct", ceWct.value, ceMin, ceMax, ElectricityStem, eUnit, boolIsInt).value;
    var d2 := CostIcon(d1, files, folder, "cost_e_dc", "Ce_dc", ceDc.value, ceMin, ceMax, ElectricityStem, eUnit, boolIsInt).value;
    var r := CostIcon(d2, files, folder, "cost_w_wct", "Cw_wct", cwWct.value, Json.Int(0), cwMax, WaterStem, wUnit, boolIsInt).value;
    CostIconKeeps(doc, files, folder, "cost_e_wct", "Ce_wct", ceWct.value, ceMin, ceMax, ElectricityStem, eUnit, boolIsInt, other);
    CostIconKeeps(d1, files, folder, "cost_e_dc", "Ce_dc", ceDc.value, ceMin, ceMax, ElectricityStem, eUnit, boolIsInt, other);
    CostIconKeeps(d2, files, folder, "cost_w_wct", "Cw_wct", cwWct.value, Json.Int(0), cwMax, WaterStem, wUnit, boolIsInt, other);
    SameShapeTrans(doc, d1, d2);
    SameShapeTrans(doc, d2, r);
    ApartShape(doc, d1, CostCells[1], other);
    ApartShape(doc, d2, CostCells[2], other);
  }

  /** When the three cost cells are apart, each ends up as a lone cost icon
      on the original document would leave it: electricity costs levelled
      between `Ce_min` and `Ce_max`, water costs between 0 and `Cw_max`
      (`Steps.CostIconCell` says what that cell is). */
  lemma CostsCells(doc: Node, files: Files, folder: string, opR: Json.Value,
                   ceWct: Result<Json.Value, Error>, ceDc: Result<Json.Value, Error>, cwWct: Result<Json.Value, Error>,
                   eUnit: string, wUnit: string, boolIsInt: bool)
    requires Costs(doc, files, folder, opR, ceWct, ceDc, cwWct, eUnit, wUnit, boolIsInt).Ok?
    requires AllApart(doc, CostCells)
    ensures Json.Field(opR, "Ce_min").Ok? && Json.Field(opR, "Ce_max").Ok? && Json.Field(opR, "Cw_max").Ok?
    ensures ceWct.Ok? && ceDc.Ok? && cwWct.Ok?
    ensures var r := Costs(doc, files, folder, opR, ceWct, ceDc, cwWct, eUnit, wUnit, boolIsInt).value;
      var ceMin := Json.Field(opR, "Ce_min").value;
      var ceMax := Json.Field(opR, "Ce_max").value;
      var cwMax := Json.Field(opR, "Cw_max").value;
      var eWct := CostIcon(doc, files, folder, "cost_e_wct", "Ce_wct", ceWct.value, ceMin, ceMax, ElectricityStem, eUnit, boolIsInt);
      var eDc := CostIcon(doc, files, folder, "cost_e_dc", "Ce_dc", ceDc.value, ceMin, ceMax, ElectricityStem, eUnit, boolIsInt);
      var wWct := CostIcon(doc, files, folder, "cost_w_wct", "Cw_wct", cwWct.value, Json.Int(0), cwMax, WaterStem, wUnit, boolIsInt);
      eWct.Ok? && eDc.Ok? && wWct.Ok?
      && Cell(r, "cost_e_wct") == Cell(eWct.value, "cost_e_wct")
      && Cell(r, "cost_e_dc") == Cell(eDc.value, "cost_e_dc")
      && Cell(r, "cost_w_wct") == Cell(wWct.value, "cost_w_wct")
  {
    CostsSteps(doc, files, folder, opR, ceWct, ceDc, cwWct, eUnit, wUnit, boolIsInt);
    var ceMin := Json.Field(opR, "Ce_min").value;
    var ceMax := Json.Field(opR, "Ce_max").value;
    var cwMax := Json.Field(opR, "Cw_max").value;
    var d1 := CostIcon(doc, files, folder, "cost_e_wct", "Ce_wct", ceWct.value, ceMin, ceMax, ElectricityStem, eUnit, boolIsInt).value;
    var d2 := CostIcon(d1, files, folder, "cost_e_dc", "Ce_dc", ceDc.value, ceMin, ceMax, ElectricityStem, eUnit, boolIsInt).value;
    var r := CostIcon(d2, files, folder, "cost_w_wct", "Cw_wct", cwWct.value, Json.Int(0), cwMax, WaterStem, wUnit, boolIsInt).value;
    CostsCellsApart(doc, d1, d2, r, files, folder, ceWct.value, ceDc.value, cwWct.value, ceMin, ceMax, cwMax,
                    eUnit, wUnit, boolIsInt);
  }

  /** The cost icons succeed exactly as three cost icons one after the other. */
  lemma CostsSteps(doc: Node, files: Files, folder: string, opR: Json.Value,
                   ceWct: Result<Json.Value, Error>, ceDc: Result<Json.Value, Error>, cwWct: Result<Json.Value, Error>,
                   eUnit: string, wUnit: string, boolIsInt: bool)
    requires Costs(doc, files, folder, opR, ceWct, ceDc, cwWct, eUnit, wUnit, boolIsInt).Ok?
    ensures Json.Field(opR, "Ce_min").Ok? && Json.Field(opR, "Ce_max").Ok? && Json.Field(opR, "Cw_max").Ok?
    ensures ceWct.Ok? && ceDc.Ok? && cwWct.Ok?
    ensures var ceMin := Json.Field(opR, "Ce_min").value;
      var ceMax := Json.Field(opR, "Ce_max").value;
      var d1 := CostIcon(doc, files, folder, "cost_e_wct", "Ce_wct", ceWct.value, ceMin, ceMax, ElectricityStem, eUnit, boolIsInt);
      d1.Ok?
      && var d2 := CostIcon(d1.value, files, folder, "cost_e_dc", "Ce_dc", ceDc.value, ceMin, ceMax, ElectricityStem, eUnit, boolIsInt);
      d2.Ok?
      && CostIcon(d2.value, files, folder, "cost_w_wct", "Cw_wct", cwWct.value, Json.Int(0), Json.Field(opR, "Cw_max").value,
                  WaterStem, wUnit, boolIsInt)
         == Costs(doc, files, folder, opR, ceWct, ceDc, cwWct, eUnit, wUnit, boolIsInt)
  {
  }

  lemma CostsCellsApart(doc: Node, d1: Node, d2: Node, r: Node, files: Files, folder: string,
                        eWct: Json.Value, eDc: Json.Value, wWct: Json.Value,
                        ceMin: Json.Value, ceMax: Json.Value, cwMax: Json.Value,
                        eUnit: string, wUnit: string, boolIsInt: bool)
    requires AllApart(doc, CostCells)
    requires CostIcon(doc, files, folder, "cost_e_wct", "Ce_wct", eWct, ceMin, ceMax, ElectricityStem, eUnit, boolIsInt) == Ok(d1)
    requires CostIcon(d1, files, folder, "cost_e_dc", "Ce_dc", eDc, ceMin, ceMax, ElectricityStem, eUnit, boolIsInt) == Ok(d2)
    requires CostIcon(d2, files, folder, "cost_w_wct", "Cw_wct", wWct, Json.Int(0), cwMax, WaterStem, wUnit, boolIsInt) == Ok(r)
    ensures var a := CostIcon(doc, files, folder, "cost_e_dc", "Ce_dc", eDc, ceMin, ceMax, ElectricityStem, eUnit, boolIsInt);
      a.Ok? && Cell(r, "cost_e_dc") == Cell(a.value, "cost_e_dc")
    ensures var b := CostIcon(doc, files, folder, "cost_w_wct", "Cw_wct", wWct, Json.Int(0), cwMax, WaterStem, wUnit, boolIsInt);
      b.Ok? && Cell(r, "cost_w_wct") == Cell(b.value, "cost_w_wct")
    ensures Cell(r, "cost_e_wct") == Cell(d1, "cost_e_wct")
  {
    var ids := CostCells;
    CostIconKeeps(doc, files, folder, ids[0], "Ce_wct", eWct, ceMin, ceMax, ElectricityStem, eUnit, boolIsInt, ids[1]);
    CostIconKeeps(d1, files, folder, ids[1], "Ce_dc", eDc, ceMin, ceMax, ElectricityStem, eUnit, boolIsInt, ids[2]);
    CostIconKeeps(d2, files, folder, ids[2], "Cw_wct", wWct, Json.Int(0), cwMax, WaterStem, wUnit, boolIsInt, ids[0]);
    assert ids == [ids[0], ids[1], ids[2]];
    ThreeApart(doc, d1, d2, ids[0], ids[1], ids[2]);
    CostsFirstKept(d1, d2, r, files, folder, eDc, wWct, ceMin, ceMax, cwMax, eUnit, wUnit, boolIsInt);
    CostsSecondKept(doc, d1, d2, r, files, folder, eWct, eDc, wWct, ceMin, ceMax, cwMax, eUnit, wUnit, boolIsInt);
    CostsThirdKept(doc, d1, d2, files, folder, eWct, eDc, wWct, ceMin, ceMax, cwMax, eUnit, wUnit, boolIsInt);
  }

  lemma CostsFirstKept(d1: Node, d2: Node, r: Node, files: Files, folder: string, eDc: Json.Value, wWct: Json.Value,
                       ceMin: Json.Value, ceMax: Json.Value, cwMax: Json.Value,
                       eUnit: string, wUnit: string, boolIsInt: bool)
    requires Apart(d1, "cost_e_dc", "cost_e_wct") && Apart(d2, "cost_w_wct", "cost_e_wct")
    requires CostIcon(d1, files, folder, "cost_e_dc", "Ce_dc", eDc, ceMin, ceMax, ElectricityStem, eUnit, boolIsInt) == Ok(d2)
    requires CostIcon(d2, files, folder, "cost_w_wct", "Cw_wct", wWct, Json.Int(0), cwMax, WaterStem, wUnit, boolIsInt) == Ok(r)
    ensures Cell(r, "cost_e_wct") == Cell(d1, "cost_e_wct")
  {
    CostIconKeeps(d1, files, folder, "cost_e_dc", "Ce_dc", eDc, ceMin, ceMax, ElectricityStem, eUnit, boolIsInt, "cost_e_wct");
    CostIconKeeps(d2, files, folder, "cost_w_wct", "Cw_wct", wWct, Json.Int(0), cwMax, WaterStem, wUnit, boolIsInt, "cost_e_wct");
  }

  lemma CostsSecondKept(doc: Node, d1: Node, d2: Node, r: Node, files: Files, folder: string,
                        eWct: Json.Value, eDc: Json.Value, wWct: Json.Value,
                        ceMin: Json.Value, ceMax: Json.Value, cwMax: Json.Value,
                        eUnit: string, wUnit: string, boolIsInt: bool)
    requires Apart(doc, "cost_e_wct", "cost_e_dc") && Apart(d2, "cost_w_wct", "cost_e_dc")
    requires CostIcon(doc, files, folder, "cost_e_wct", "Ce_wct", eWct, ceMin, ceMax, ElectricityStem, eUnit, boolIsInt) == Ok(d1)
    requires CostIcon(d1, files, folder, "cost_e_dc", "Ce_dc", eDc, ceMin, ceMax, ElectricityStem, eUnit, boolIsInt) == Ok(d2)
    requires CostIcon(d2, files, folder, "cost_w_wct", "Cw_wct", wWct, Json.Int(0), cwMax, WaterStem, wUnit, boolIsInt) == Ok(r)
    ensures var a := CostIcon(doc, files, folder, "cost_e_dc", "Ce_dc", eDc, ceMin, ceMax, ElectricityStem, eUnit, boolIsInt);
      a.Ok? && Cell(r, "cost_e_dc") == Cell(a.value, "cost_e_dc")
  {
    CostIconKeeps(doc, files, folder, "cost_e_wct", "Ce_wct", eWct, ceMin, ceMax, ElectricityStem, eUnit, boolIsInt, "cost_e_dc");
    CostIconKeeps(d2, files, folder, "cost_w_wct", "Cw_wct", wWct, Json.Int(0), cwMax, WaterStem, wUnit, boolIsInt, "cost_e_dc");
    CostIconOwnCell(d1, doc, files, folder, "cost_e_dc", "Ce_dc", eDc, ceMin, ceMax, ElectricityStem, eUnit, boolIsInt);
  }

  lemma CostsThirdKept(doc: Node, d1: Node, d2: Node, files: Files, folder: string,
                       eWct: Json.Value, eDc: Json.Value, wWct: Json.Value,
                       ceMin: Json.Value, ceMax: Json.Value, cwMax: Json.Value,
                       eUnit: string, wUnit: string, boolIsInt: bool)
    requires Apart(doc, "cost_e_wct", "cost_w_wct") && Apart(d1, "cost_e_dc", "cost_w_wct")
    requires CostIcon(doc, files, folder, "cost_e_wct", "Ce_wct", eWct, ceMin, ceMax, ElectricityStem, eUnit, boolIsInt) == Ok(d1)
    requires CostIcon(d1, files, folder, "cost_e_dc", "Ce_dc", eDc, ceMin, ceMax, ElectricityStem, eUnit, boolIsInt) == Ok(d2)
    requires CostIcon(d2, files, folder, "cost_w_wct", "Cw_wct", wWct, Json.Int(0), cwMax, WaterStem, wUnit, boolIsInt).Ok?
    ensures var b := CostIcon(doc, files, folder, "cost_w_wct", "Cw_wct", wWct, Json.Int(0), cwMax, WaterStem, wUnit, boolIsInt);
      b.Ok? && Cell(CostIcon(d2, files, folder, "cost_w_wct", "Cw_wct", wWct, Json.Int(0), cwMax, WaterStem, wUnit, boolIsInt).value, "cost_w_wct")
               == Cell(b.value, "cost_w_wct")
  {
    CostIconKeeps(doc, files, folder, "cost_e_wct", "Ce_wct", eWct, ceMin, ceMax, ElectricityStem, eUnit, boolIsInt, "cost_w_wct");
    CostIconKeeps(d1, files, folder, "cost_e_dc", "Ce_dc", eDc, ceMin, ceMax, ElectricityStem, eUnit, boolIsInt, "cost_w_wct");
    CostIconOwnCell(d2, doc, files, folder, "cost_w_wct", "Cw_wct", wWct, Json.Int(0), cwMax, WaterStem, wUnit, boolIsInt);
  }

  // ---------------------------------------------------------------------------
  // Required cells

  /** The cells looked up before anything is edited: lines, icons, text boxes. */
  function Required(lines: seq<string>): seq<string> {
    lines + ["cost_e_dc", "cost_e_wct", "cost_w_wct", "cooling_req", "fan_dc",
             "fan_wct", "temp_amb", "hr_amb", "temp_dc", "temp_wct", "valve_r1",
             "valve_r2"] + TextBoxCells
  }
}

=== FILE: diagram_v1.dfy ===
/** `generate_diagram` of the results watcher (generate_results.py:247-462):
    one operation point's diagram, drawn on a copy of the template. */
module DiagramV1 {
  import opened Wrappers
  import opened Failures
  import opened Svg
  import opened Render
  import opened Steps
  import opened Diagram
  import Json
  import Widths
  import Theme

  /** The line cells of this version, in lookup order. */
  const Lines: seq<string> := ["line_c_in", "line_c_out", "line_r2", "line_dc_in", "line_dc_out",
                               "line_r1_out1", "line_r1_out2", "line_wct_in", "line_wct_out", "line_pump_in"]

  /** The first valve splits by R2 into `line_r2` and the dry cooler; the
      second splits the dry cooler outlet by R1. */
  const Names: LineNames := LineNames("line_r2", "line_r1_out1", "line_r1_out2")

  const VarIds: seq<string> := ["w_fan_dc", "w_fan_wct", "R1", "R2", "Tamb", "HR", "Twct_out", "Tdc_out"]
  const Groups: seq<string> := ["control_variables", "control_variables", "decision_variables", "decision_variables",
                                "environment", "environment", "decision_variables", "decision_variables"]

  /** The degree sign of the text boxes (U+00B0, unlike the icons' `⁰`). */
  const DegreeC: string := "°C"

  /** The objects holding the icon variables, each looked up when its icon
      is reached. */
  function IconObjects(ptop: Json.Value): (objs: seq<Result<Json.Value, Error>>)
    ensures |objs| == 8
    ensures forall i :: 0 <= i < 8 ==> objs[i] == Json.Field(ptop, Groups[i])
  {
    seq(8, i requires 0 <= i < 8 => Json.Field(ptop, Groups[i]))
  }

  /** The three text boxes and their (lazily needed) texts. */
  function Boxes(ptop: Json.Value): seq<(string, Result<Text, Error>)> {
    [("line_c_in_text", BoxText(Json.Field2(ptop, "others", "Tc_in"), DegreeC)),
     ("line_c_out_text", BoxText(Json.Field2(ptop, "others", "Tc_out"), DegreeC)),
     ("pump_c_text", BoxText(Json.Field2(ptop, "decision_variables", "qc"), "m3/h"))]
  }

  /** The light diagram: everything up to the cost icons. `op_r` and `dv`
      are read first, then every required cell is looked up before any edit. */
  function Light(doc: Node, ptop: Json.Value, files: Files, folder: string): (r: Result<Node, Error>)
    ensures Json.Field(ptop, "operating_range").Err? ==> r == Err(Json.Field(ptop, "operating_range").error)
    ensures Json.Field(ptop, "operating_range").Ok? && Json.Field(ptop, "decision_variables").Err? ==>
              r == Err(Json.Field(ptop, "decision_variables").error)
    ensures r.Ok? ==> forall i :: 0 <= i < |Required(Lines)| ==> HasCell(doc, Required(Lines)[i])
  {
    var opR :- Json.Field(ptop, "operating_range");
    var dv :- Json.Field(ptop, "decision_variables");
    var _ :- Resolve(doc, Required(Lines));
    var qc :- Json.Field(dv, "qc");
    var qcMin :- Json.Field(opR, "qc_min");
    var qcMax :- Json.Field(opR, "qc_max");
    var main :- Widths.MainWidth(qc, qcMin, qcMax);
    var r2 :- Json.Num1(dv, "R2");
    var r1 :- Json.Num1(dv, "R1");
    var d :- ApplySplit(doc, Names, Widths.SplitV1(main, r1, r2));
    var d :- SizedIcons(d, IconSpecs(VarIds), IconObjects(ptop), opR, false);
    var d :- TextBoxes(d, Boxes(ptop));
    var cr :- Json.Field(ptop, "cooling_requirements");
    var d :- Cooling(d, cr, opR, "kWhth", false);
    Costs(d, files, folder, opR, Json.Field2(ptop, "costs", "Ce_wct"), Json.Field2(ptop, "costs", "Ce_dc"),
          Json.Field2(ptop, "costs", "Cw_wct"), "kWhe", "L/h", false)
  }

  /** `generate_diagram(diagram, ptop, theme)`. */
  function Generate(doc: Node, ptop: Json.Value, dark: bool, files: Files, folder: string): (r: Result<Node, Error>)
    ensures Light(doc, ptop, files, folder).Err? || !dark ==> r == Light(doc, ptop, files, folder)
    ensures dark && r.Ok? ==> Light(doc, ptop, files, folder).Ok?
                              && SameShape(Light(doc, ptop, files, folder).value, r.value)
    ensures dark && Light(doc, ptop, files, folder).Ok? ==>
              (r.Ok? <==> JoinPath(folder, Theme.DarkBackground) in files && JoinPath(folder, Theme.DarkLogoGobierno) in files
                          && JoinPath(folder, Theme.DarkLogoPsa) in files
                          && forall i :: 0 <= i < |Theme.DarkFixedCells| ==>
                               HasCell(Light(doc, ptop, files, folder).value, Theme.DarkFixedCells[i]))
  {
    var d :- Light(doc, ptop, files, folder);
    if dark then
      Theme.DarkPassKeeps(d, files, folder);
      Theme.DarkPass(d, files, folder)
    else Ok(d)
  }

  /** A missing cell is reported, by name, before any value of the point
      beyond `operating_range` and `decision_variables` is looked at. */
  lemma MissingCellFirst(doc: Node, ptop: Json.Value, dark: bool, files: Files, folder: string, k: nat)
    requires Json.Field(ptop, "operating_range").Ok? && Json.Field(ptop, "decision_variables").Ok?
    requires k < |Required(Lines)| && !HasCell(doc, Required(Lines)[k])
    requires forall i :: 0 <= i < k ==> HasCell(doc, Required(Lines)[i])
    ensures Generate(doc, ptop, dark, files, folder) == Err(MissingCell(Required(Lines)[k]))
  {
    var res := Resolve(doc, Required(Lines));
    var j :| 0 <= j < |Required(Lines)| && res.error == MissingCell(Required(Lines)[j])
             && !HasCell(doc, Required(Lines)[j]) && forall i :: 0 <= i < j ==> HasCell(doc, Required(Lines)[i]);
    assert j == k;
  }

  /** A drawn diagram had every required cell. */
  lemma DrawnHadEveryCell(doc: Node, ptop: Json.Value, dark: bool, files: Files, folder: string, i: nat)
    requires Generate(doc, ptop, dark, files, folder).Ok?
    requires i < |Required(Lines)|
    ensures HasCell(doc, Required(Lines)[i])
  {
  }
}

=== FILE: diagram_v2.dfy ===
/** `generate_diagram` of the visualisation package
    (solhycool_visualizations/diagrams.py:157-395): the diagram of the
    selected solution of a case study. */
module DiagramV2 {
  import opened Wrappers
  import opened Failures
  import opened Svg
  import opened Render
  import opened Steps
  import opened Diagram
  import Json
  import Widths
  import Theme

  const Lines: seq<string> := ["line_c_in", "line_c_out", "line_r1", "line_dc_in", "line_dc_out",
                               "line_r2_out1", "line_r2_out2", "line_wct_in", "line_wct_out", "line_pump_in"]

  /** The first valve splits by R1 into `line_r1` and the dry cooler; the
      second splits the dry cooler outlet by R2. */
  const Names: LineNames := LineNames("line_r1", "line_r2_out1", "line_r2_out2")

  const VarIds: seq<string> := ["w_dc", "w_wct", "R1", "R2", "Tamb", "HR", "Twct_out", "Tdc_out"]

  const DegreeC: string := "°C"
  const CubicMetresPerHour: string := "m³/h"

  // ---------------------------------------------------------------------------
  // The selected solution

  /** A JSON value used as a list index: ints, and bools as 0 and 1. */
  function IndexValue(v: Json.Value): (r: Result<int, Error>)
    ensures r.Ok? <==> v.Int? || v.Bool?
    ensures v.Int? ==> r == Ok(v.i)
  {
    match v
    case Int(i) => Ok(i)
    case Bool(b) => Ok(if b then 1 else 0)
    case _ => Err(TypeError("list indices must be integers"))
  }

  /** `items[k]` with Python's negative indices. */
  function PyIndex(items: seq<Json.Value>, k: int): (r: Result<Json.Value, Error>)
    ensures r.Ok? <==> -|items| <= k < |items|
    ensures 0 <= k < |items| ==> r == Ok(items[k])
    ensures -|items| <= k < 0 ==> r == Ok(items[|items| + k])
  {
    if 0 <= k < |items| then Ok(items[k])
    else if -|items| <= k < 0 then Ok(items[|items| + k])
    else Err(IndexError("solutions"))
  }

  /** `case_study['solutions'][case_study['selected_solution_idx'] - 1]`. */
  function PickSolution(caseStudy: Json.Value): (r: Result<Json.Value, Error>)
    ensures Json.Field(caseStudy, "solutions").Err? ==> r == Err(Json.Field(caseStudy, "solutions").error)
    ensures r.Ok? ==> Json.Field(caseStudy, "solutions").Ok? && Json.Field(caseStudy, "solutions").value.Arr?
                      && r.value in Json.Field(caseStudy, "solutions").value.items
  {
    var sols :- Json.Field(caseStudy, "solutions");
    var idx :- Json.Field(caseStudy, "selected_solution_idx");
    var i :- IndexValue(idx);
    match sols
    case Arr(items) => PyIndex(items, i - 1)
    case _ => Err(TypeError("solutions is not a list"))
  }

  /** The index counts from 1: index `i` picks the `i`-th solution. */
  lemma PickSolutionCountsFromOne(items: seq<Json.Value>, fields: seq<(string, Json.Value)>, i: int)
    requires Json.Get(fields, "solutions") == Some(Json.Arr(items))
    requires Json.Get(fields, "selected_solution_idx") == Some(Json.Int(i))
    ensures 1 <= i <= |items| ==> PickSolution(Json.Obj(fields)) == Ok(items[i - 1])
    ensures (i > |items| || i < 1 - |items|) ==> PickSolution(Json.Obj(fields)).Err?
  {
  }

  /** Index 0, which a one-based index never is, silently picks the last
      solution through Python's negative indexing instead of failing. */
  lemma PickSolutionZeroIsLast(items: seq<Json.Value>, fields: seq<(string, Json.Value)>)
    requires |items| > 0
    requires Json.Get(fields, "solutions") == Some(Json.Arr(items))
    requires Json.Get(fields, "selected_solution_idx") == Some(Json.Int(0))
    ensures PickSolution(Json.Obj(fields)) == Ok(items[|items| - 1])
  {
  }

  // ---------------------------------------------------------------------------
  // The diagram

  /** The objects holding the icon variables: the solution, except the
      ambient pair, which lives in the case study's `environment` (read once,
      when the list is built). */
  function IconObjects(ptop: Json.Value, env: Json.Value): (objs: seq<Result<Json.Value, Error>>)
    ensures |objs| == 8
    ensures objs[4] == objs[5] == Ok(env)
    ensures forall i :: 0 <= i < 8 && i != 4 && i != 5 ==> objs[i] == Ok(ptop)
  {
    [Ok(ptop), Ok(ptop), Ok(ptop), Ok(ptop), Ok(env), Ok(env), Ok(ptop), Ok(ptop)]
  }

  function Boxes(ptop: Json.Value): seq<(string, Result<Text, Error>)> {
    [("line_c_in_text", BoxText(Json.Field(ptop, "Tc_in"), DegreeC)),
     ("line_c_out_text", BoxText(Json.Field(ptop, "Tc_out"), DegreeC)),
     ("pump_c_text", BoxText(Json.Field(ptop, "q_c"), CubicMetresPerHour))]
  }

  /** The cells of the three extra labels, in the order they are written. */
  const ExtraCells: seq<string> := ["Twct_in", "qwct", "qdc"]

  /** What the three extra labels need: their three values, each of them a
      number to format, and their three cells. */
  predicate ExtraReady(doc: Node, ptop: Json.Value) {
    && Json.Field(ptop, "Twct_in").Ok? && Json.Field(ptop, "q_wct").Ok? && Json.Field(ptop, "q_dc").Ok?
    && RoundedText(Json.Field(ptop, "Twct_in").value, DegreeC).Ok?
    && RoundedText(Json.Field(ptop, "q_wct").value, CubicMetresPerHour).Ok?
    && RoundedText(Json.Field(ptop, "q_dc").value, CubicMetresPerHour).Ok?
    && HasCell(doc, "Twct_in") && HasCell(doc, "qwct") && HasCell(doc, "qdc")
  }

  /** The three extra labels: all three values are read first, then each
      label's text is formatted and written with `change_text`. */
  function ExtraTexts(doc: Node, ptop: Json.Value): (r: Result<Node, Error>)
    ensures Json.Field(ptop, "Twct_in").Err? ==> r == Err(Json.Field(ptop, "Twct_in").error)
    ensures Json.Field(ptop, "Twct_in").Ok? && Json.Field(ptop, "q_wct").Err? ==>
              r == Err(Json.Field(ptop, "q_wct").error)
    ensures Json.Field(ptop, "Twct_in").Ok? && Json.Field(ptop, "q_wct").Ok? && Json.Field(ptop, "q_dc").Err? ==>
              r == Err(Json.Field(ptop, "q_dc").error)
    ensures Json.Field(ptop, "Twct_in").Ok? && Json.Field(ptop, "q_wct").Ok? && Json.Field(ptop, "q_dc").Ok? ==>
              var t := RoundedText(Json.Field(ptop, "Twct_in").value, DegreeC);
              (t.Err? ==> r == Err(t.error))
              && (t.Ok? && !HasCell(doc, "Twct_in") ==> r == Err(IndexError("Twct_in")))
  {
    var twct :- Json.Field(ptop, "Twct_in");
    var qwct :- Json.Field(ptop, "q_wct");
    var qdc :- Json.Field(ptop, "q_dc");
    var t :- RoundedText(twct, DegreeC);
    var d :- ChangeTextDoc(doc, "Twct_in", t);
    var t :- RoundedText(qwct, CubicMetresPerHour);
    var d :- ChangeTextDoc(d, "qwct", t);
    var t :- RoundedText(qdc, CubicMetresPerHour);
    ChangeTextDoc(d, "qdc", t)
  }

  /** The labels are written exactly when their values are numbers and
      their cells exist, and writing them keeps the document's shape. */
  lemma ExtraTextsKeeps(doc: Node, ptop: Json.Value)
    ensures ExtraTexts(doc, ptop).Ok? <==> ExtraReady(doc, ptop)
    ensures ExtraTexts(doc, ptop).Ok? ==> SameShape(doc, ExtraTexts(doc, ptop).value)
  {
    if Json.Field(ptop, "Twct_in").Ok? && Json.Field(ptop, "q_wct").Ok? && Json.Field(ptop, "q_dc").Ok?
       && RoundedText(Json.Field(ptop, "Twct_in").value, DegreeC).Ok?
       && RoundedText(Json.Field(ptop, "q_wct").value, CubicMetresPerHour).Ok?
       && RoundedText(Json.Field(ptop, "q_dc").value, CubicMetresPerHour).Ok?
       && HasCell(doc, "Twct_in")
    {
      var t1 := RoundedText(Json.Field(ptop, "Twct_in").value, DegreeC).value;
      var t2 := RoundedText(Json.Field(ptop, "q_wct").value, CubicMetresPerHour).value;
      var t3 := RoundedText(Json.Field(ptop, "q_dc").value, CubicMetresPerHour).value;
      var d1 := ChangeTextDoc(doc, "Twct_in", t1).value;
      ChangeTextKeeps(doc, "Twct_in", t1, "qwct");
      SameShapeFind(doc, d1, "qwct");
      SameShapeFind(doc, d1, "qdc");
      if HasCell(d1, "qwct") {
        var d2 := ChangeTextDoc(d1, "qwct", t2).value;
        ChangeTextKeeps(d1, "qwct", t2, "qdc");
        SameShapeFind(d1, d2, "qdc");
        if HasCell(d2, "qdc") {
          ChangeTextKeeps(d2, "qdc", t3, "qdc");
          SameShapeTrans(doc, d1, d2);
          SameShapeTrans(doc, d2, ChangeTextDoc(d2, "qdc", t3).value);
        }
      }
    }
  }

  /** With the three cells apart, each label's cell is its old cell with
      `change_text` of the value rounded and followed by its unit
      (diagrams.py:345-350). */
  lemma ExtraTextsCells(doc: Node, ptop: Json.Value)
    requires ExtraReady(doc, ptop) && AllApart(doc, ExtraCells)
    ensures ExtraTexts(doc, ptop).Ok?
    ensures Cell(ExtraTexts(doc, ptop).value, "Twct_in")
            == Ok(ChangeText(Cell(doc, "Twct_in").value, RoundedText(Json.Field(ptop, "Twct_in").value, DegreeC).value))
    ensures Cell(ExtraTexts(doc, ptop).value, "qwct")
            == Ok(ChangeText(Cell(doc, "qwct").value, RoundedText(Json.Field(ptop, "q_wct").value, CubicMetresPerHour).value))
    ensures Cell(ExtraTexts(doc, ptop).value, "qdc")
            == Ok(ChangeText(Cell(doc, "qdc").value, RoundedText(Json.Field(ptop, "q_dc").value, CubicMetresPerHour).value))
  {
    var t1 := RoundedText(Json.Field(ptop, "Twct_in").value, DegreeC).value;
    var t2 := RoundedText(Json.Field(ptop, "q_wct").value, CubicMetresPerHour).value;
    var t3 := RoundedText(Json.Field(ptop, "q_dc").value, CubicMetresPerHour).value;
    ExtraTextsKeeps(doc, ptop);
    var d1 := ChangeTextDoc(doc, "Twct_in", t1).value;
    ChangeTextKeeps(doc, "Twct_in", t1, "qwct");
    SameShapeFind(doc, d1, "qwct");
    var d2 := ChangeTextDoc(d1, "qwct", t2).value;
    ChangeTextKeeps(d1, "qwct", t2, "qdc");
    ThreeApart(doc, d1, d2, "Twct_in", "qwct", "qdc");
    ChangeTextKeeps(doc, "Twct_in", t1, "qdc");
    ChangeTextKeeps(d1, "qwct", t2, "Twct_in");
    ChangeTextKeeps(d2, "qdc", t3, "Twct_in");
    ChangeTextKeeps(d2, "qdc", t3, "qwct");
  }

  /** The light diagram. The solution, the limits and the cooling
      requirements are read first, then every required cell is looked up. */
  function Light(doc: Node, caseStudy: Json.Value, files: Files, folder: string): (r: Result<Node, Error>)
    ensures PickSolution(caseStudy).Err? ==> r == Err(PickSolution(caseStudy).error)
    ensures PickSolution(caseStudy).Ok? && Json.Field(caseStudy, "limits").Err? ==>
              r == Err(Json.Field(caseStudy, "limits").error)
    ensures PickSolution(caseStudy).Ok? && Json.Field(caseStudy, "limits").Ok?
            && Json.Field(caseStudy, "cooling_requirements").Err? ==>
              r == Err(Json.Field(caseStudy, "cooling_requirements").error)
    ensures r.Ok? ==> forall i :: 0 <= i < |Required(Lines)| ==> HasCell(doc, Required(Lines)[i])
  {
    var ptop :- PickSolution(caseStudy);
    var opR :- Json.Field(caseStudy, "limits");
    var cr :- Json.Field(caseStudy, "cooling_requirements");
    var _ :- Resolve(doc, Required(Lines));
    var qc :- Json.Field(ptop, "q_c");
    var qcMin :- Json.Field(opR, "qc_min");
    var qcMax :- Json.Field(opR, "qc_max");
    var main :- Widths.MainWidth(qc, qcMin, qcMax);
    var r1 :- Json.Num1(ptop, "R1");
    var r2 :- Json.Num1(ptop, "R2");
    var d :- ApplySplit(doc, Names, Widths.SplitV2(main, r1, r2));
    var env :- Json.Field(caseStudy, "environment");
    var d :- SizedIcons(d, IconSpecs(VarIds), IconObjects(ptop, env), opR, true);
    var d :- TextBoxes(d, Boxes(ptop));
    var d :- Cooling(d, cr, opR, "kWth", true);
    var d :- Costs(d, files, folder, opR, Json.Field(ptop, "Ce_wct"), Json.Field(ptop, "Ce_dc"),
                   Json.Field(ptop, "Cw_wct"), "kWe", "l/h", true);
    ExtraTexts(d, ptop)
  }

  /** `generate_diagram(src_diagram_path, case_study, theme)` on the parsed template. */
  function Generate(doc: Node, caseStudy: Json.Value, dark: bool, files: Files, folder: string): (r: Result<Node, Error>)
    ensures Light(doc, caseStudy, files, folder).Err? || !dark ==> r == Light(doc, caseStudy, files, folder)
    ensures dark && r.Ok? ==> Light(doc, caseStudy, files, folder).Ok?
                              && SameShape(Light(doc, caseStudy, files, folder).value, r.value)
    ensures dark && Light(doc, caseStudy, files, folder).Ok? ==>
              (r.Ok? <==> JoinPath(folder, Theme.DarkBackground) in files && JoinPath(folder, Theme.DarkLogoGobierno) in files
                          && JoinPath(folder, Theme.DarkLogoPsa) in files
                          && forall i :: 0 <= i < |Theme.DarkFixedCells| ==>
                               HasCell(Light(doc, caseStudy, files, folder).value, Theme.DarkFixedCells[i]))
  {
    var d :- Light(doc, caseStudy, files, folder);
    if dark then
      Theme.DarkPassKeeps(d, files, folder);
      Theme.DarkPass(d, files, folder)
    else Ok(d)
  }

  /** A missing cell is reported by name once the solution, the limits and
      the cooling requirements have been read, before anything else. */
  lemma MissingCellFirst(doc: Node, caseStudy: Json.Value, dark: bool, files: Files, folder: string, k: nat)
    requires PickSolution(caseStudy).Ok?
    requires Json.Field(caseStudy, "limits").Ok? && Json.Field(caseStudy, "cooling_requirements").Ok?
    requires k < |Required(Lines)| && !HasCell(doc, Required(Lines)[k])
    requires forall i :: 0 <= i < k ==> HasCell(doc, Required(Lines)[i])
    ensures Generate(doc, caseStudy, dark, files, folder) == Err(MissingCell(Required(Lines)[k]))
  {
    var res := Resolve(doc, Required(Lines));
    var j :| 0 <= j < |Required(Lines)| && res.error == MissingCell(Required(Lines)[j])
             && !HasCell(doc, Required(Lines)[j]) && forall i :: 0 <= i < j ==> HasCell(doc, Required(Lines)[i]);
    assert j == k;
  }

  /** The extra labels are not among the required cells: a template without
      one fails only at the end, with IndexError. */
  lemma ExtraLabelsNotRequired()
    ensures "Twct_in" !in Required(Lines) && "qwct" !in Required(Lines) && "qdc" !in Required(Lines)
  {
  }
}

=== FILE: failures.dfy ===
/** The exceptions the modelled Python code can raise, as values. */
module Failures {

  datatype Error =
    | KeyError(key: string)           // a missing dictionary key
    | TypeError(what: string)         // arithmetic or comparison on a non-number
    | ZeroDivision                    // `get_y` on a degenerate range
    | MissingCell(id: string)         // `generate_diagram`'s ValueError for a required cell
    | ValueError(what: string)        // an unsupported format code, or text `float` cannot parse
    | IndexError(id: string)          // `obj[0]` on an empty XPath result
    | FileNotFound(path: string)      // an asset that cannot be opened
    | Unbound(name: string)           // a local read before any assignment
    | MalformedName(name: string)     // `re.search(...)` returned None
    | UnknownActuator(name: string)   // `power_consumption`'s ValueError
    | EmptyArgMin                     // `idxmin` over no rows
}

=== FILE: gate.dfy ===
/** The debounce/cooldown gate of `MyHandler.on_modified`
    (generate_results.py:44-70) as a pure transition over an abstract clock. */
module Gate {

  /** Seconds a change must follow the last counted change to count. */
  const ChangeDelay: real := 20.0
  /** Seconds the pipeline must follow its last completed run to start again. */
  const CooldownPeriod: real := 60.0

  datatype State = State(lastChange: real, lastAction: real)

  /** `MyHandler.__init__`: both timestamps start at 0. */
  const Initial: State := State(0.0, 0.0)

  /** Whether the triggered pipeline (`generate_results_file` then
      `generate_diagrams`) returned or raised. */
  datatype Outcome = Returned | Raised

  /** One file-system event, handled at clock time `now`. */
  datatype Event = Event(isDirectory: bool, now: real, outcome: Outcome)

  /** The new state, and whether the pipeline was started. */
  datatype Step = Step(next: State, fired: bool)

  /** The first gate: a file event at least ChangeDelay after the last counted change. */
  predicate Counts(s: State, e: Event) {
    !e.isDirectory && e.now - s.lastChange >= ChangeDelay
  }

  /** The second gate: at least CooldownPeriod after the last completed run. */
  predicate CooledDown(s: State, e: Event) {
    e.now - s.lastAction >= CooldownPeriod
  }

  /** `on_modified`. A counted change records its time even when the cooldown
      then blocks the run; the run's time is recorded only once the pipeline
      has returned, so a run that raised leaves `lastAction` as it was. */
  function OnModified(s: State, e: Event): (r: Step)
    ensures r.fired <==> !e.isDirectory && e.now - s.lastChange >= ChangeDelay
                          && e.now - s.lastAction >= CooldownPeriod
    ensures r.next.lastChange == (if Counts(s, e) then e.now else s.lastChange)
    ensures r.next.lastAction == (if r.fired && e.outcome == Returned then e.now else s.lastAction)
  {
    if !Counts(s, e) then Step(s, false)
    else
      var s1 := s.(lastChange := e.now);
      if !CooledDown(s, e) then Step(s1, false)
      else if e.outcome == Returned then Step(s1.(lastAction := e.now), true)
      else Step(s1, true)
  }

  /** Feeding a sequence of events: the final state and the number of runs started. */
  function Run(s: State, events: seq<Event>): (r: (State, nat))
    decreases |events|
  {
    if |events| == 0 then (s, 0)
    else
      var step := OnModified(s, events[0]);
      var rest := Run(step.next, events[1..]);
      (rest.0, rest.1 + (if step.fired then 1 else 0))
  }

  /** Directory events and events that fail the first gate change nothing. */
  lemma IgnoredEventsChangeNothing(s: State, e: Event)
    requires !Counts(s, e)
    ensures OnModified(s, e) == Step(s, false)
  {
  }

  predicate AllBefore(events: seq<Event>, bound: real) {
    forall i :: 0 <= i < |events| ==> events[i].now < bound
  }

  predicate AllAtOrAfter(events: seq<Event>, bound: real) {
    forall i :: 0 <= i < |events| ==> bound <= events[i].now
  }

  /** Once a change at or after `t0` has been counted, no event before
      `t0 + ChangeDelay` counts, so none starts a run. */
  lemma {:induction false} NothingCountsWithinDelay(s: State, events: seq<Event>, t0: real)
    requires s.lastChange >= t0
    requires AllBefore(events, t0 + ChangeDelay)
    ensures Run(s, events).1 == 0
    ensures Run(s, events).0 == s
    decreases |events|
  {
    if |events| > 0 {
      assert !Counts(s, events[0]);
      NothingCountsWithinDelay(s, events[1..], t0);
    }
  }

  /** A burst of events that all fall within ChangeDelay seconds starts the
      pipeline at most once, whatever the runs' outcomes. */
  lemma {:induction false} BurstRunsAtMostOnce(s: State, events: seq<Event>, t0: real)
    requires AllAtOrAfter(events, t0) && AllBefore(events, t0 + ChangeDelay)
    ensures Run(s, events).1 <= 1
    decreases |events|
  {
    if |events| > 0 {
      var step := OnModified(s, events[0]);
      if Counts(s, events[0]) {
        NothingCountsWithinDelay(step.next, events[1..], t0);
      } else {
        BurstRunsAtMostOnce(s, events[1..], t0);
      }
    }
  }

  predicate AllReturn(events: seq<Event>) {
    forall i :: 0 <= i < |events| ==> events[i].outcome == Returned
  }

  /** Within CooldownPeriod of a completed run nothing starts again. */
  lemma {:induction false} NothingRunsWithinCooldown(s: State, events: seq<Event>, t0: real)
    requires s.lastAction >= t0
    requires AllBefore(events, t0 + CooldownPeriod)
    ensures Run(s, events).1 == 0
    decreases |events|
  {
    if |events| > 0 {
      var step := OnModified(s, events[0]);
      assert !step.fired;
      NothingRunsWithinCooldown(step.next, events[1..], t0);
    }
  }

  /** Any number of bursts inside one CooldownPeriod window start at most one
      run, provided the runs return (a run that raised records no action time). */
  lemma {:induction false} CooldownWindowRunsAtMostOnce(s: State, events: seq<Event>, t0: real)
    requires AllAtOrAfter(events, t0) && AllBefore(events, t0 + CooldownPeriod)
    requires AllReturn(events)
    ensures Run(s, events).1 <= 1
    decreases |events|
  {
    if |events| > 0 {
      var step := OnModified(s, events[0]);
      if step.fired {
        NothingRunsWithinCooldown(step.next, events[1..], t0);
      } else {
        CooldownWindowRunsAtMostOnce(step.next, events[1..], t0);
      }
    }
  }

  /** A run that raised does not arm the cooldown: the very next counted
      change may start the pipeline again. */
  lemma RaisedRunDoesNotArmCooldown(t: real)
    requires t >= CooldownPeriod
    ensures var first := OnModified(Initial, Event(false, t, Raised));
      first.fired && OnModified(first.next, Event(false, t + ChangeDelay, Returned)).fired
  {
  }
}

=== FILE: json.dfy ===
/** JSON values as `json.load` produces them, dictionary access with Python's
    failures, and `flatten_dict` (pages/optimization.py:115-123). */
module Json {
  import opened Wrappers
  import opened Failures
  import opened Strings

  /** An object keeps its members in insertion order, as a Python dict does. */
  datatype Value =
    | Null
    | Bool(b: bool)
    | Int(i: int)
    | Real(r: real)
    | Str(s: string)
    | Arr(items: seq<Value>)
    | Obj(fields: seq<(string, Value)>)

  /** The value a dict built from `fields` holds for `k`: the last pair with
      that key wins, as for `dict(pairs)` and for `json.load`. */
  function Get(fields: seq<(string, Value)>, k: string): (r: Option<Value>)
    decreases |fields|
  {
    if |fields| == 0 then None
    else if fields[|fields| - 1].0 == k then Some(fields[|fields| - 1].1)
    else Get(fields[..|fields| - 1], k)
  }

  /** A value found under `k` is the value of one of the pairs named `k`. */
  lemma {:induction false} GetFromPair(fields: seq<(string, Value)>, k: string)
    requires Get(fields, k).Some?
    ensures exists i :: 0 <= i < |fields| && fields[i] == (k, Get(fields, k).value)
    decreases |fields|
  {
    var init := fields[..|fields| - 1];
    if fields[|fields| - 1].0 != k {
      GetFromPair(init, k);
      var i :| 0 <= i < |init| && init[i] == (k, Get(init, k).value);
      assert fields[i] == init[i];
    }
  }

  /** `o[k]` on a JSON value. */
  function Field(o: Value, k: string): (r: Result<Value, Error>)
    ensures r.Ok? <==> o.Obj? && Get(o.fields, k).Some?
  {
    match o
    case Obj(fs) => (match Get(fs, k) case Some(v) => Ok(v) case None => Err(KeyError(k)))
    case _ => Err(TypeError("subscript of a non-dict"))
  }

  /** `o[g][k]`. */
  function Field2(o: Value, g: string, k: string): (r: Result<Value, Error>)
  {
    var inner :- Field(o, g);
    Field(inner, k)
  }

  /** A JSON value used as an arithmetic operand: Python ints, floats and
      bools take part in arithmetic; anything else raises TypeError. */
  function Number(v: Value): (r: Result<real, Error>)
    ensures r.Ok? <==> (v.Int? || v.Real? || v.Bool?)
    ensures v.Int? ==> r == Ok(v.i as real)
    ensures v.Real? ==> r == Ok(v.r)
    ensures v.Bool? ==> r == Ok(if v.b then 1.0 else 0.0)
  {
    match v
    case Int(i) => Ok(i as real)
    case Real(x) => Ok(x)
    case Bool(b) => Ok(if b then 1.0 else 0.0)
    case _ => Err(TypeError("arithmetic on a non-number"))
  }

  /** `o[g][k]` used as a number. */
  function Num2(o: Value, g: string, k: string): (r: Result<real, Error>)
  {
    var v :- Field2(o, g, k);
    Number(v)
  }

  /** `o[k]` used as a number. */
  function Num1(o: Value, k: string): (r: Result<real, Error>)
  {
    var v :- Field(o, k);
    Number(v)
  }

  /** The key a member gets under `parent`: `f"{parent}_{k}" if parent else k`. */
  function JoinKey(parent: string, k: string): string {
    if parent != "" then parent + "_" + k else k
  }

  /** The `(key, leaf)` pairs `flatten_dict` collects, in the order it collects them. */
  function FlattenPairs(fields: seq<(string, Value)>, parent: string): (r: seq<(string, Value)>)
    decreases fields
  {
    if |fields| == 0 then []
    else
      var k := fields[0].0;
      var v := fields[0].1;
      assert fields[0] in fields;
      assert v < fields[0];
      var key := JoinKey(parent, k);
      (if v.Obj? then FlattenPairs(v.fields, key) else [(key, v)]) + FlattenPairs(fields[1..], parent)
  }

  /** `dict(pairs)`: later pairs overwrite earlier ones. */
  function ToMap(pairs: seq<(string, Value)>): (m: map<string, Value>)
    decreases |pairs|
  {
    if |pairs| == 0 then map[]
    else ToMap(pairs[..|pairs| - 1])[pairs[|pairs| - 1].0 := pairs[|pairs| - 1].1]
  }

  /** `flatten_dict(d)` with the default separator and no parent key. */
  function FlattenDict(fields: seq<(string, Value)>): map<string, Value> {
    ToMap(FlattenPairs(fields, ""))
  }

  /** No collected value is a dict: nested objects are always descended into. */
  lemma {:induction false} FlattenLeavesOnly(fields: seq<(string, Value)>, parent: string)
    ensures forall i :: 0 <= i < |FlattenPairs(fields, parent)| ==> !FlattenPairs(fields, parent)[i].1.Obj?
    decreases fields
  {
    if |fields| > 0 {
      var v := fields[0].1;
      assert fields[0] in fields;
      assert v < fields[0];
      var key := JoinKey(parent, fields[0].0);
      if v.Obj? {
        FlattenLeavesOnly(v.fields, key);
      }
      FlattenLeavesOnly(fields[1..], parent);
    }
  }

  /** Under a non-empty parent every collected key is `parent + "_" + ...`. */
  lemma {:induction false} FlattenKeysPrefixed(fields: seq<(string, Value)>, parent: string)
    requires parent != ""
    ensures forall i :: 0 <= i < |FlattenPairs(fields, parent)| ==>
      StartsWith(FlattenPairs(fields, parent)[i].0, parent + "_")
    decreases fields
  {
    if |fields| > 0 {
      var v := fields[0].1;
      assert fields[0] in fields;
      assert v < fields[0];
      var key := JoinKey(parent, fields[0].0);
      FlattenKeysPrefixed(fields[1..], parent);
      if v.Obj? {
        FlattenKeysPrefixed(v.fields, key);
        var head := FlattenPairs(v.fields, key);
        forall i | 0 <= i < |head|
          ensures StartsWith(head[i].0, parent + "_")
        {
          assert head[i].0[..|key| + 1] == key + "_";
          assert (key + "_")[..|parent| + 1] == parent + "_";
        }
      }
    }
  }

  /** A top-level leaf member survives with its own key. */
  lemma {:induction false} FlattenKeepsTopLevelLeaf(fields: seq<(string, Value)>, i: nat)
    requires i < |fields| && !fields[i].1.Obj?
    ensures fields[i] in FlattenPairs(fields, "")
    decreases i
  {
    if i > 0 {
      FlattenKeepsTopLevelLeaf(fields[1..], i - 1);
      assert fields[1..][i - 1] == fields[i];
    }
  }

  /** An empty nested dict contributes no pair. */
  lemma EmptyDictContributesNothing(k: string, rest: seq<(string, Value)>, parent: string)
    ensures FlattenPairs([(k, Obj([]))] + rest, parent) == FlattenPairs(rest, parent)
  {
    var fs := [(k, Obj([]))] + rest;
    assert fs[1..] == rest;
  }

  /** `dict(pairs)` holds exactly the keys of `pairs`, each with the value of
      its LAST pair: on a key collision the later path wins. */
  lemma {:induction false} ToMapLastWins(pairs: seq<(string, Value)>, i: nat)
    requires i < |pairs|
    requires forall j :: i < j < |pairs| ==> pairs[j].0 != pairs[i].0
    ensures pairs[i].0 in ToMap(pairs) && ToMap(pairs)[pairs[i].0] == pairs[i].1
    decreases |pairs|
  {
    if i < |pairs| - 1 {
      ToMapLastWins(pairs[..|pairs| - 1], i);
    }
  }

  lemma {:induction false} ToMapKeys(pairs: seq<(string, Value)>)
    ensures forall k :: k in ToMap(pairs) <==> exists i :: 0 <= i < |pairs| && pairs[i].0 == k
    decreases |pairs|
  {
    if |pairs| > 0 {
      var init := pairs[..|pairs| - 1];
      ToMapKeys(init);
      forall k ensures k in ToMap(pairs) <==> exists i :: 0 <= i < |pairs| && pairs[i].0 == k
      {
        if k in ToMap(init) {
          var i :| 0 <= i < |init| && init[i].0 == k;
          assert pairs[i].0 == k;
        }
      }
    }
  }

  /** Every entry of `dict(pairs)` is one of the pairs. */
  lemma {:induction false} ToMapEntriesFromPairs(pairs: seq<(string, Value)>, k: string)
    requires k in ToMap(pairs)
    ensures exists i :: 0 <= i < |pairs| && pairs[i] == (k, ToMap(pairs)[k])
    decreases |pairs|
  {
    var init := pairs[..|pairs| - 1];
    if pairs[|pairs| - 1].0 != k {
      ToMapEntriesFromPairs(init, k);
      var i :| 0 <= i < |init| && init[i] == (k, ToMap(init)[k]);
      assert pairs[i] == init[i];
    }
  }

  /** Every value of the flattened dict is a leaf, never a dict. */
  lemma FlattenDictHasNoDicts(fields: seq<(string, Value)>, k: string)
    requires k in FlattenDict(fields)
    ensures !FlattenDict(fields)[k].Obj?
  {
    var ps := FlattenPairs(fields, "");
    FlattenLeavesOnly(fields, "");
    ToMapEntriesFromPairs(ps, k);
  }
}

=== FILE: orchestrator.dfy ===
/** `generate_diagrams` (generate_results.py:464-509): one diagram per
    operation point of the results, skipping points already drawn, each
    written as `<point>.svg` and, for the dark variant, `<point>_dark.svg`.
    Drawing is a parameter: `draw(ptop, dark)` stands for `generate_diagram`
    on a fresh copy of the template. */
module Orchestrator {
  import opened Wrappers
  import opened Failures
  import opened Svg
  import Json

  type Draw = (Json.Value, bool) -> Result<Node, Error>

  /** The results index as `results.json` holds it: conditions, each with
      its operation points, in insertion order. */
  type Results = seq<(string, seq<(string, Json.Value)>)>

  /** The files written, in order, and the exception that escaped, if any.
      A file's content is `None` when `open(..., 'w')` created it and the
      write then raised, leaving it empty. */
  datatype Run = Run(writes: seq<(string, Option<Node>)>, escaped: Option<Error>)

  /** `f'{op_cond}_{ptop_}'`. */
  function PointId(cond: string, point: string): string {
    cond + "_" + point
  }

  /** The nested loop over the results: every operation point of every
      operating condition, in order, under its joined id. */
  function Points(results: Results): (ps: seq<(string, Json.Value)>)
    ensures forall c, j :: 0 <= c < |results| && 0 <= j < |results[c].1| ==>
              (PointId(results[c].0, results[c].1[j].0), results[c].1[j].1) in ps
  {
    if |results| == 0 then []
    else
      var here := PointsOf(results[0].0, results[0].1);
      var rest := Points(results[1..]);
      assert forall c, j :: 1 <= c < |results| && 0 <= j < |results[c].1| ==>
        (PointId(results[c].0, results[c].1[j].0), results[c].1[j].1) in rest by {
        forall c, j | 1 <= c < |results| && 0 <= j < |results[c].1|
          ensures (PointId(results[c].0, results[c].1[j].0), results[c].1[j].1) in rest
        {
          assert results[1..][c - 1] == results[c];
        }
      }
      here + rest
  }

  function PointsOf(cond: string, points: seq<(string, Json.Value)>): (ps: seq<(string, Json.Value)>)
    ensures |ps| == |points|
    ensures forall j :: 0 <= j < |points| ==> ps[j] == (PointId(cond, points[j].0), points[j].1)
  {
    seq(|points|, j requires 0 <= j < |points| => (PointId(cond, points[j].0), points[j].1))
  }

  /** The first point visited is the first point of the first condition. */
  lemma FirstPoint(cond: string, pt: string, ptop: Json.Value, rest: seq<(string, Json.Value)>, more: Results)
    ensures |Points([(cond, [(pt, ptop)] + rest)] + more)| > 0
    ensures Points([(cond, [(pt, ptop)] + rest)] + more)[0] == (PointId(cond, pt), ptop)
  {
    var results := [(cond, [(pt, ptop)] + rest)] + more;
    assert results[0] == (cond, [(pt, ptop)] + rest);
    assert PointsOf(cond, [(pt, ptop)] + rest)[0] == (PointId(cond, pt), ptop);
  }

  function SvgName(id: string): string { id + ".svg" }
  function DarkName(id: string): string { id + "_dark.svg" }

  /** Every file was given its content: none was left empty. */
  predicate AllFilled(ws: seq<(string, Option<Node>)>) {
    forall k :: 0 <= k < |ws| ==> ws[k].1.Some?
  }

  function Prepend(ws: seq<(string, Option<Node>)>, r: Run): (out: Run)
    ensures out.writes == ws + r.writes && out.escaped == r.escaped
  {
    Run(ws + r.writes, r.escaped)
  }

  /** What every run of the source loop looks like: an escaped exception is
      an unbound variable, the dark one only in the dark variant, and it
      leaves exactly the last file created empty; every other file is
      filled. */
  predicate WellEnded(r: Run, dark: bool) {
    (r.escaped.Some? ==> r.escaped.value == Unbound("diagram_light") || (dark && r.escaped.value == Unbound("diagram_dark")))
    && (r.escaped.Some? <==> |r.writes| > 0 && r.writes[|r.writes| - 1].1.None?)
    && (forall k :: 0 <= k < |r.writes| - 1 ==> r.writes[k].1.Some?)
  }

  lemma PrependFilled(ws: seq<(string, Option<Node>)>, r: Run, dark: bool)
    requires AllFilled(ws) && WellEnded(r, dark)
    ensures WellEnded(Prepend(ws, r), dark)
  {
    var out := Prepend(ws, r);
    forall k | 0 <= k < |out.writes| - 1
      ensures out.writes[k].1.Some?
    {
      if k >= |ws| {
        assert out.writes[k] == r.writes[k - |ws|];
      }
    }
    if |r.writes| > 0 {
      assert out.writes[|out.writes| - 1] == r.writes[|r.writes| - 1];
    } else if |ws| > 0 {
      assert out.writes[|out.writes| - 1] == ws[|ws| - 1];
    }
  }

  // ---------------------------------------------------------------------------
  // As written

  /** The loop as the source has it. The skip test looks for the bare id
      among the file names, which all end in `.svg`. A failure inside the
      `try` is logged, and then the `diagram_light` (and `diagram_dark`) of
      an earlier point is written under this point's name. If there is none
      yet, `open(..., 'w')` has already created the file when reading the
      unassigned variable raises; the file stays empty and the run ends. */
  function RunAsWritten(points: seq<(string, Json.Value)>, existing: seq<string>, dark: bool, draw: Draw,
                        light: Option<Node>, darkD: Option<Node>): (r: Run)
    ensures WellEnded(r, dark)
    ensures !dark ==> |r.writes| <= |points|
    ensures |r.writes| <= 2 * |points|
    decreases |points|
  {
    if |points| == 0 then Run([], None)
    else
      var id := points[0].0;
      var ptop := points[0].1;
      if id in existing then RunAsWritten(points[1..], existing, dark, draw, light, darkD)
      else
        var l := draw(ptop, false);
        var light' := if l.Ok? then Some(l.value) else light;
        var dk := if l.Ok? && dark then draw(ptop, true) else Err(Unbound("diagram_dark"));
        var dark' := if dk.Ok? then Some(dk.value) else darkD;
        match light'
        case None => Run([(SvgName(id), None)], Some(Unbound("diagram_light")))
        case Some(lv) =>
          if !dark then
            var rest := RunAsWritten(points[1..], existing, dark, draw, light', dark');
            PrependFilled([(SvgName(id), Some(lv))], rest, dark);
            Prepend([(SvgName(id), Some(lv))], rest)
          else
            match dark'
            case None => Run([(SvgName(id), Some(lv)), (DarkName(id), None)], Some(Unbound("diagram_dark")))
            case Some(dv) =>
              var rest := RunAsWritten(points[1..], existing, dark, draw, light', dark');
              PrependFilled([(SvgName(id), Some(lv)), (DarkName(id), Some(dv))], rest, dark);
              Prepend([(SvgName(id), Some(lv)), (DarkName(id), Some(dv))], rest)
  }

  /** `generate_diagrams(results)`: the output folder is listed first. */
  function GenerateDiagramsAsWritten(results: Results, existing: Option<seq<string>>, dark: bool,
                                     draw: Draw): (r: Run)
    ensures existing.None? ==> r == Run([], Some(FileNotFound("diagrams")))
    ensures existing.Some? ==> WellEnded(r, dark)
  {
    match existing
    case None => Run([], Some(FileNotFound("diagrams")))
    case Some(names) => RunAsWritten(Points(results), names, dark, draw, None, None)
  }

  /** The skip test never recognises a diagram the loop itself wrote: the
      point is drawn and its file written again. */
  lemma AsWrittenRedrawsExisting(cond: string, pt: string, ptop: Json.Value, draw: Draw, d: Node)
    requires draw(ptop, false) == Ok(d)
    ensures var id := PointId(cond, pt);
      GenerateDiagramsAsWritten([(cond, [(pt, ptop)])], Some([SvgName(id)]), false, draw).writes == [(SvgName(id), Some(d))]
  {
    var id := PointId(cond, pt);
    IdIsNotItsFileName(id);
    var results := [(cond, [(pt, ptop)])];
    assert results[1..] == [];
    assert PointsOf(cond, [(pt, ptop)]) == [(id, ptop)];
    assert Points(results) == [(id, ptop)];
    assert [(id, ptop)][1..] == [];
    assert RunAsWritten([], [SvgName(id)], false, draw, Some(d), None).writes == [];
  }

  /** An id never equals its own file name, so the skip test fails for
      every point whose file is listed. */
  lemma IdIsNotItsFileName(id: string)
    ensures id != SvgName(id)
  {
    assert |SvgName(id)| == |id| + 4;
  }

  /** A failure on the second point writes the first point's diagram under
      the second point's name. */
  lemma AsWrittenWritesStaleDiagram(a: string, p: Json.Value, b: string, q: Json.Value, draw: Draw, d: Node, e: Error)
    requires draw(p, false) == Ok(d) && draw(q, false) == Err(e)
    ensures RunAsWritten([(a, p), (b, q)], [], false, draw, None, None).writes
            == [(SvgName(a), Some(d)), (SvgName(b), Some(d))]
  {
    assert [(b, q)][1..] == [];
    assert RunAsWritten([], [], false, draw, Some(d), None).writes == [];
    var r2 := RunAsWritten([(b, q)], [], false, draw, Some(d), None);
    assert r2.writes == [(SvgName(b), Some(d))];
    assert [(a, p), (b, q)][1..] == [(b, q)];
  }

  /** A failure on the first point drawn leaves `diagram_light` unbound: the
      point's file is created empty and the run ends there. */
  lemma AsWrittenFirstFailureEscapes(cond: string, pt: string, ptop: Json.Value, rest: seq<(string, Json.Value)>,
                                     more: Results, dark: bool, draw: Draw, e: Error)
    requires draw(ptop, false) == Err(e)
    ensures GenerateDiagramsAsWritten([(cond, [(pt, ptop)] + rest)] + more, Some([]), dark, draw)
            == Run([(SvgName(PointId(cond, pt)), None)], Some(Unbound("diagram_light")))
  {
    FirstPoint(cond, pt, ptop, rest, more);
  }

  /** In the dark variant, a failed dark drawing of the first point drawn
      writes the light file, creates the dark one empty and ends the run. */
  lemma AsWrittenFirstDarkFailureEscapes(cond: string, pt: string, ptop: Json.Value, rest: seq<(string, Json.Value)>,
                                         more: Results, draw: Draw, d: Node, e: Error)
    requires draw(ptop, false) == Ok(d) && draw(ptop, true) == Err(e)
    ensures var id := PointId(cond, pt);
      GenerateDiagramsAsWritten([(cond, [(pt, ptop)] + rest)] + more, Some([]), true, draw)
      == Run([(SvgName(id), Some(d)), (DarkName(id), None)], Some(Unbound("diagram_dark")))
  {
    FirstPoint(cond, pt, ptop, rest, more);
  }

  // ---------------------------------------------------------------------------
  // Corrected

  /** The loop as evidently intended: a point is skipped when its `.svg`
      file exists, and a failed drawing is logged and writes nothing. */
  function RunCorrected(points: seq<(string, Json.Value)>, existing: seq<string>, dark: bool, draw: Draw)
    : (ws: seq<(string, Node)>)
    ensures !dark ==> |ws| <= |points|
    ensures |ws| <= 2 * |points|
    ensures !dark ==> forall k :: 0 <= k < |ws| ==> ws[k].0 !in existing
    decreases |points|
  {
    if |points| == 0 then []
    else
      var id := points[0].0;
      var ptop := points[0].1;
      var rest := RunCorrected(points[1..], existing, dark, draw);
      if SvgName(id) in existing then rest
      else
        match draw(ptop, false)
        case Err(_) => rest
        case Ok(l) =>
          if !dark then [(SvgName(id), l)] + rest
          else
            match draw(ptop, true)
            case Err(_) => [(SvgName(id), l)] + rest
            case Ok(dv) => [(SvgName(id), l), (DarkName(id), dv)] + rest
  }

  /** The written files, each with its content. */
  function Filled(ws: seq<(string, Node)>): (out: seq<(string, Option<Node>)>)
    ensures |out| == |ws| && AllFilled(out)
    ensures forall k :: 0 <= k < |ws| ==> out[k] == (ws[k].0, Some(ws[k].1))
  {
    seq(|ws|, k requires 0 <= k < |ws| => (ws[k].0, Some(ws[k].1)))
  }

  function GenerateDiagrams(results: Results, existing: Option<seq<string>>, dark: bool, draw: Draw): (r: Run)
    ensures existing.None? ==> r == Run([], Some(FileNotFound("diagrams")))
    ensures existing.Some? ==> r.escaped.None? && AllFilled(r.writes)
    ensures existing.Some? ==> r.writes == Filled(RunCorrected(Points(results), existing.value, dark, draw))
  {
    match existing
    case None => Run([], Some(FileNotFound("diagrams")))
    case Some(names) => Run(Filled(RunCorrected(Points(results), names, dark, draw)), None)
  }

  /** Written for point `i`: its own light diagram, or its own dark one. */
  predicate WrittenFor(points: seq<(string, Json.Value)>, existing: seq<string>, dark: bool, draw: Draw,
                       w: (string, Node), i: int)
  {
    0 <= i < |points| && SvgName(points[i].0) !in existing
    && ((w.0 == SvgName(points[i].0) && draw(points[i].1, false) == Ok(w.1))
        || (dark && w.0 == DarkName(points[i].0) && draw(points[i].1, true) == Ok(w.1)))
  }

  /** Every file the corrected loop writes holds the diagram drawn for its
      own point, and no point whose file exists is drawn. */
  lemma {:induction false} CorrectedWritesOwnDiagrams(points: seq<(string, Json.Value)>, existing: seq<string>,
                                                      dark: bool, draw: Draw, k: nat)
    requires k < |RunCorrected(points, existing, dark, draw)|
    ensures exists i :: WrittenFor(points, existing, dark, draw, RunCorrected(points, existing, dark, draw)[k], i)
    decreases |points|
  {
    var ws := RunCorrected(points, existing, dark, draw);
    var rest := RunCorrected(points[1..], existing, dark, draw);
    var n := |ws| - |rest|;
    assert ws[n..] == rest by {
      var id := points[0].0;
      var ptop := points[0].1;
      if SvgName(id) !in existing && draw(ptop, false).Ok? {
        if dark && draw(ptop, true).Ok? {
          assert ws == [(SvgName(id), draw(ptop, false).value), (DarkName(id), draw(ptop, true).value)] + rest;
        } else {
          assert ws == [(SvgName(id), draw(ptop, false).value)] + rest;
        }
      }
    }
    if k >= n {
      CorrectedWritesOwnDiagrams(points[1..], existing, dark, draw, k - n);
      var i :| WrittenFor(points[1..], existing, dark, draw, rest[k - n], i);
      assert WrittenFor(points, existing, dark, draw, ws[k], i + 1);
    } else {
      assert WrittenFor(points, existing, dark, draw, ws[k], 0);
    }
  }

  /** Every point not yet drawn whose drawing succeeds gets its file. */
  lemma {:induction false} CorrectedDrawsEveryNewPoint(points: seq<(string, Json.Value)>, existing: seq<string>,
                                                       dark: bool, draw: Draw, i: nat)
    requires i < |points| && SvgName(points[i].0) !in existing && draw(points[i].1, false).Ok?
    ensures (SvgName(points[i].0), draw(points[i].1, false).value) in RunCorrected(points, existing, dark, draw)
    decreases |points|
  {
    if i > 0 {
      CorrectedDrawsEveryNewPoint(points[1..], existing, dark, draw, i - 1);
    }
  }

  /** The corrected loop skips a point whose file is listed. */
  lemma CorrectedSkipsExisting(id: string, ptop: Json.Value, rest: seq<(string, Json.Value)>, existing: seq<string>,
                               dark: bool, draw: Draw)
    requires SvgName(id) in existing
    ensures RunCorrected([(id, ptop)] + rest, existing, dark, draw) == RunCorrected(rest, existing, dark, draw)
  {
    assert ([(id, ptop)] + rest)[1..] == rest;
  }
}

=== FILE: render.dfy ===
/** The element-level edits of the diagram helpers (generate_results.py:129-245,
    solhycool_visualizations/diagrams.py:23-154), each applied to the element
    `obj[0]` of one cell. */
module Render {
  import opened Wrappers
  import opened Failures
  import opened Strings
  import opened Svg
  import Json
  import ValueMapper

  /** The superscript-zero degree sign `adjust_icon` substitutes for `degree_celsius`. */
  const SuperscriptDegreeC: string := "\U{2070}C"

  /** `if unit == 'degree_celsius': unit = '⁰C'`. */
  function DisplayUnit(unit: string): (u: string)
    ensures unit == "degree_celsius" ==> u == SuperscriptDegreeC
    ensures unit != "degree_celsius" ==> u == unit
  {
    if unit == "degree_celsius" then SuperscriptDegreeC else unit
  }

  /** Python's `str()` of `round_to_nonzero_decimal(x)`: the integer 0 for 0,
      otherwise the rounded float. */
  function RoundedPiece(x: real): (p: Piece)
    ensures x == 0.0 <==> p == IntText(0)
    ensures x != 0.0 ==> p.Dec? && ValueMapper.Abs(p.x) <= ValueMapper.Abs(x)
  {
    ValueMapper.RoundShrinks(x);
    if x == 0.0 then IntText(0) else Dec(ValueMapper.RoundToNonzeroDecimal(x))
  }

  /** `round_to_nonzero_decimal(v)` on a JSON value: ints, floats and bools
      are numbers; anything else fails the comparison `n < 0`. */
  function RoundedValue(v: Json.Value): (r: Result<Piece, Error>)
    ensures r.Ok? <==> Json.Number(v).Ok?
  {
    var x :- Json.Number(v);
    Ok(RoundedPiece(x))
  }

  /** `f'{round_to_nonzero_decimal(v)} {unit}'`, the text of a text box. */
  function RoundedText(v: Json.Value, unit: string): (r: Result<Text, Error>)
    ensures r.Ok? <==> Json.Number(v).Ok?
    ensures r.Ok? ==> |r.value| == 2 && r.value[1] == Lit(" " + unit)
  {
    var p :- RoundedValue(v);
    Ok([p, Lit(" " + unit)])
  }

  /** What `adjust_icon` is handed as its value: text the caller already
      formatted, or a JSON value. */
  datatype IconValue = Formatted(t: Text) | Value(v: Json.Value)

  /** `convert_to_float_if_possible`: numbers and bools become floats; a
      string is kept (the `float()` of a numeric string is not modelled);
      `float()` of None, a list or a dict raises TypeError, which is not caught. */
  function ConvertToFloat(v: Json.Value): (r: Result<Json.Value, Error>)
    ensures r.Ok? ==> !r.value.Int? && !r.value.Bool?
    ensures r.Ok? && r.value.Real? ==> Json.Number(v) == Ok(r.value.r)
    ensures r.Ok? <==> Json.Number(v).Ok? || v.Str?
  {
    if v.Str? then Ok(v)
    else
      match Json.Number(v)
      case Ok(x) => Ok(Json.Real(x))
      case Err(e) => Err(e)
  }

  /** The icon text `adjust_icon` writes. Strings and ints are shown as they
      are; everything else goes through `round_to_nonzero_decimal`.
      `boolIsInt` selects the variant's type test: `isinstance(value, int)`
      (diagrams.py) accepts bools, `type(value) == int` (generate_results.py)
      does not. */
  function IconText(value: IconValue, unit: string, boolIsInt: bool): (r: Result<Text, Error>)
  {
    var suffix := Lit(" " + DisplayUnit(unit));
    match value
    case Formatted(t) => Ok(t + [suffix])
    case Value(v) =>
      match v
      case Str(s) => Ok([Lit(s), suffix])
      case Int(i) => Ok([IntText(i), suffix])
      case Bool(b) =>
        if boolIsInt then Ok([Lit(if b then "True" else "False"), suffix])
        else Ok([RoundedPiece(if b then 1.0 else 0.0), suffix])
      case _ =>
        match RoundedValue(v)
        case Ok(p) => Ok([p, suffix])
        case Err(e) => Err(e)
  }

  /** The icon text always ends with a space and the displayed unit; ints
      are shown unrounded and floats rounded to their first nonzero decimal;
      only None, lists and dicts cannot be shown. */
  lemma IconTextSpec(value: IconValue, unit: string, boolIsInt: bool)
    ensures var r := IconText(value, unit, boolIsInt);
      var suffix := Lit(" " + DisplayUnit(unit));
      (value.Formatted? ==> r == Ok(value.t + [suffix]))
      && (r.Ok? ==> |r.value| >= 1 && r.value[|r.value| - 1] == suffix)
      && (value.Value? && value.v.Int? ==> r == Ok([IntText(value.v.i), suffix]))
      && (value.Value? && value.v.Real? ==> r == Ok([RoundedPiece(value.v.r), suffix]))
      && (value.Value? && value.v.Bool? && boolIsInt ==> r == Ok([Lit(if value.v.b then "True" else "False"), suffix]))
      && (value.Value? && value.v.Bool? && !boolIsInt ==> r == Ok([if value.v.b then Dec(1.0) else IntText(0), suffix]))
      && (value.Value? ==> (r.Err? <==> value.v.Null? || value.v.Arr? || value.v.Obj?))
  {
    if value.Value? && value.v.Bool? && value.v.b && !boolIsInt {
      ValueMapper.RoundLarge(1.0);
    }
  }

  // ---------------------------------------------------------------------------
  // Text and colour edits

  predicate IsTextTag(tag: string) { TagHas(tag, "text") }
  predicate IsGroupTag(tag: string) { TagEnds(tag, "g") }

  predicate HasTextChild(n: Node) {
    exists i | 0 <= i < |n.children| :: IsTextTag(n.children[i].tag)
  }

  /** `for child2 in g: if 'text' in child2.tag: child2.text = text`. The text
      is computed only when there is a text element to receive it, so a
      failure to compute it surfaces only then. */
  function SetGroupText(g: Node, text: Result<Text, Error>): (r: Result<Node, Error>)
    ensures r.Err? <==> HasTextChild(g) && text.Err?
    ensures r.Ok? ==> r.value.tag == g.tag && r.value.attrs == g.attrs && |r.value.children| == |g.children|
    ensures r.Ok? ==> forall i :: 0 <= i < |g.children| ==>
              r.value.children[i] == (if IsTextTag(g.children[i].tag)
                                      then g.children[i].(text := Some(text.value)) else g.children[i])
  {
    if !HasTextChild(g) then
      assert forall i :: 0 <= i < |g.children| ==> !IsTextTag(g.children[i].tag);
      Ok(g)
    else
      var t :- text;
      Ok(g.(children := MapChildren(g.children, IsTextTag, (n: Node) => n.(text := Some(t)))))
  }

  /** The text edit of `adjust_icon` and of the text boxes: every text
      element inside every child group of the cell receives `text`. */
  function SetTexts(children: seq<Node>, text: Result<Text, Error>): (r: Result<seq<Node>, Error>)
    ensures r.Ok? ==> |r.value| == |children|
    ensures r.Ok? ==> forall i :: 0 <= i < |children| ==>
              if IsGroupTag(children[i].tag) then SetGroupText(children[i], text) == Ok(r.value[i])
              else r.value[i] == children[i]
    ensures text.Ok? ==> r.Ok?
    ensures r.Err? ==> text.Err? && r.error == text.error
  {
    if |children| == 0 then Ok([])
    else
      var c := if IsGroupTag(children[0].tag) then SetGroupText(children[0], text) else Ok(children[0]);
      var c1 :- c;
      var rest :- SetTexts(children[1..], text);
      Ok([c1] + rest)
  }

  /** `change_text`: in every child group, only the first element whose tag
      ends with `text` receives the new text. */
  function FirstTextOnly(g: Node, t: Text, from: nat): (r: Node)
    ensures r.tag == g.tag && r.attrs == g.attrs && |r.children| == |g.children|
    ensures forall i :: 0 <= i < |g.children| && i < from ==> r.children[i] == g.children[i]
    ensures forall i :: from <= i < |g.children| && TagEnds(g.children[i].tag, "text") ==>
              (r.children[i] == g.children[i].(text := Some(t))
               <==> forall j :: from <= j < i ==> !TagEnds(g.children[j].tag, "text"))
              || g.children[i].text == Some(t)
    ensures forall i :: 0 <= i < |g.children| && !TagEnds(g.children[i].tag, "text") ==>
              r.children[i] == g.children[i]
    decreases |g.children| - from
  {
    if from >= |g.children| then g
    else if TagEnds(g.children[from].tag, "text") then
      g.(children := g.children[from := g.children[from].(text := Some(t))])
    else FirstTextOnly(g, t, from + 1)
  }

  function ChangeText(cell: Node, t: Text): (r: Node)
    ensures r.tag == cell.tag && r.attrs == cell.attrs && |r.children| == |cell.children|
    ensures forall i :: 0 <= i < |cell.children| ==>
              r.children[i] == (if IsGroupTag(cell.children[i].tag) then FirstTextOnly(cell.children[i], t, 0)
                                else cell.children[i])
  {
    cell.(children := MapChildren(cell.children, IsGroupTag, (g: Node) => FirstTextOnly(g, t, 0)))
  }

  /** `change_color_text`: each child group and the text elements in it get `fill`. */
  function ColorGroup(g: Node, color: string): (r: Node)
    ensures r.tag == g.tag && r.attrs == g.attrs[ "fill" := Str(color)]
    ensures |r.children| == |g.children|
    ensures forall i :: 0 <= i < |g.children| ==>
              r.children[i] == (if IsTextTag(g.children[i].tag) then Set(g.children[i], "fill", Str(color))
                                else g.children[i])
  {
    var g1 := Set(g, "fill", Str(color));
    g1.(children := MapChildren(g1.children, IsTextTag, (n: Node) => Set(n, "fill", Str(color))))
  }

  function ChangeColorText(cell: Node, color: string): (r: Node)
    ensures r.tag == cell.tag && r.attrs == cell.attrs && |r.children| == |cell.children|
    ensures forall i :: 0 <= i < |cell.children| && !IsGroupTag(cell.children[i].tag) ==>
              r.children[i] == cell.children[i]
    ensures forall i :: 0 <= i < |cell.children| && IsGroupTag(cell.children[i].tag) ==>
              r.children[i] == ColorGroup(cell.children[i], color)
  {
    cell.(children := MapChildren(cell.children, IsGroupTag, (g: Node) => ColorGroup(g, color)))
  }

  // ---------------------------------------------------------------------------
  // Stroke widths and images

  /** Every child of a line cell (the line and its arrow) gets `stroke-width`. */
  function SetStrokeWidth(cell: Node, w: real): (r: Node)
    ensures r.tag == cell.tag && r.attrs == cell.attrs && |r.children| == |cell.children|
    ensures forall i :: 0 <= i < |r.children| ==>
              r.children[i].attrs == cell.children[i].attrs["stroke-width" := Num(w)]
              && r.children[i].tag == cell.children[i].tag
  {
    cell.(children := MapChildren(cell.children, (t: string) => true, (n: Node) => Set(n, "stroke-width", Num(w))))
  }

  /** The MIME type `update_image` puts in the data URL: `image/` and the
      path's last `.`-segment, with `svg` spelled `svg+xml`. */
  function ImageMime(path: string): (m: string)
    ensures StartsWith(m, "image/")
  {
    var ext := LastSegment(path, '.');
    "image/" + (if ext == "svg" then "svg+xml" else ext)
  }

  lemma ImageMimeOf(stem: string, ext: string)
    requires '.' !in ext
    ensures ImageMime(stem + "." + ext) == "image/" + (if ext == "svg" then "svg+xml" else ext)
  {
    LastSegmentOfExtension(stem, '.', ext);
  }

  /** `update_image`'s edit: the `xlink:href` of every image child becomes the
      data URL; nothing else changes. */
  function UpdateImage(cell: Node, mime: string, bytes: seq<bv8>): (r: Node)
    ensures r.tag == cell.tag && r.attrs == cell.attrs && |r.children| == |cell.children|
    ensures forall i :: 0 <= i < |cell.children| ==>
              r.children[i].tag == cell.children[i].tag && r.children[i].children == cell.children[i].children
              && r.children[i].text == cell.children[i].text
              && r.children[i].attrs == (if TagHas(cell.children[i].tag, "image")
                                         then cell.children[i].attrs[XlinkHref := DataUrl(mime, bytes)]
                                         else cell.children[i].attrs)
  {
    cell.(children := MapChildren(cell.children, (t: string) => TagHas(t, "image"),
                                  (n: Node) => Set(n, XlinkHref, DataUrl(mime, bytes))))
  }

  // ---------------------------------------------------------------------------
  // Icons

  /** `float(child.get(key))`: a missing attribute is `float(None)`, a
      TypeError; a present one that is not a number is text `float` cannot
      parse, a ValueError. */
  function NumAttr(n: Node, key: string): (r: Result<real, Error>)
    ensures r.Ok? <==> key in n.attrs && n.attrs[key].Num?
    ensures r.Ok? ==> r.value == n.attrs[key].x
    ensures key !in n.attrs ==> r.Err? && r.error.TypeError?
    ensures key in n.attrs && !n.attrs[key].Num? ==> r.Err? && r.error.ValueError?
  {
    if key !in n.attrs then Err(TypeError("float() of attribute " + key))
    else if !n.attrs[key].Num? then Err(ValueError("float() of attribute " + key))
    else Ok(n.attrs[key].x)
  }

  /** The centre of an image element, taken as the source takes it: both
      coordinates are offset by half the width. */
  function Centre(a: map<string, Attr>): Option<(real, real)> {
    if "x" in a && a["x"].Num? && "y" in a && a["y"].Num? && "width" in a && a["width"].Num?
    then Some((a["x"].x + a["width"].x / 2.0, a["y"].x + a["width"].x / 2.0))
    else None
  }

  /** One image child resized to `size` about its centre and tagged `icon-<id>`. */
  function ResizeImage(c: Node, id: string, size: real): (r: Result<Node, Error>)
    ensures r.Ok? <==> NumAttr(c, "x").Ok? && NumAttr(c, "y").Ok? && NumAttr(c, "width").Ok?
    ensures r.Ok? ==> r.value.tag == c.tag && r.value.children == c.children && r.value.text == c.text
    ensures r.Ok? ==> "width" in r.value.attrs && "height" in r.value.attrs && "template-id" in r.value.attrs
    ensures r.Ok? ==> "x" in r.value.attrs && "y" in r.value.attrs && r.value.attrs["x"].Num? && r.value.attrs["y"].Num?
    ensures r.Ok? ==> r.value.attrs["width"] == Num(size) && r.value.attrs["height"] == Num(size)
                      && r.value.attrs["template-id"] == Str("icon-" + id)
    ensures r.Ok? ==> Centre(r.value.attrs) == Centre(c.attrs) && Centre(c.attrs).Some?
  {
    var w :- NumAttr(c, "width");
    var x :- NumAttr(c, "x");
    var y :- NumAttr(c, "y");
    var delta := size - w;
    var c1 := Set(Set(c, "width", Num(size)), "height", Num(size));
    Ok(Set(Set(Set(c1, "x", Num(x - delta / 2.0)), "y", Num(y - delta / 2.0)), "template-id", Str("icon-" + id)))
  }

  /** Resizing leaves every other attribute of the image as it was. */
  lemma ResizeKeepsOtherAttrs(c: Node, id: string, size: real, k: string)
    requires ResizeImage(c, id, size).Ok?
    requires k in c.attrs && k != "x" && k != "y" && k != "width" && k != "height" && k != "template-id"
    ensures k in ResizeImage(c, id, size).value.attrs && ResizeImage(c, id, size).value.attrs[k] == c.attrs[k]
  {
  }

  /** The per-child work of the loop in `adjust_icon`: resize an image child,
      then write the text into a child group. */
  function AdjustChild(c: Node, id: string, size: real, text: Result<Text, Error>): (r: Result<Node, Error>)
    ensures r.Ok? ==> r.value.tag == c.tag
    ensures r.Ok? && TagHas(c.tag, "image") ==>
              ResizeImage(c, id, size).Ok? && r.value.attrs == ResizeImage(c, id, size).value.attrs
    ensures r.Ok? && !TagHas(c.tag, "image") ==> r.value.attrs == c.attrs
  {
    var c1 :- if TagHas(c.tag, "image") then ResizeImage(c, id, size) else Ok(c);
    if IsGroupTag(c1.tag) then SetGroupText(c1, text) else Ok(c1)
  }

  function AdjustChildren(cs: seq<Node>, id: string, size: real, text: Result<Text, Error>): (r: Result<seq<Node>, Error>)
    ensures r.Ok? <==> forall i :: 0 <= i < |cs| ==> AdjustChild(cs[i], id, size, text).Ok?
    ensures r.Ok? ==> |r.value| == |cs|
                      && forall i :: 0 <= i < |cs| ==> r.value[i] == AdjustChild(cs[i], id, size, text).value
  {
    if |cs| == 0 then Ok([])
    else
      var c :- AdjustChild(cs[0], id, size, text);
      var rest :- AdjustChildren(cs[1..], id, size, text);
      Ok([c] + rest)
  }

  /** The index of the last image child: the one whose position `adjust_icon` returns. */
  function LastImage(cs: seq<Node>): (r: Option<nat>)
    ensures r.Some? ==> r.value < |cs| && TagHas(cs[r.value].tag, "image")
                        && forall j :: r.value < j < |cs| ==> !TagHas(cs[j].tag, "image")
    ensures r.None? ==> forall j :: 0 <= j < |cs| ==> !TagHas(cs[j].tag, "image")
  {
    if |cs| == 0 then None
    else if TagHas(cs[|cs| - 1].tag, "image") then Some(|cs| - 1)
    else LastImage(cs[..|cs| - 1])
  }

  /** The boundary circle's extent: its maximum size and the maximum value
      printed beside it. */
  datatype Boundary = Boundary(maxSize: real, maxValue: real)

  /** `generate_boundary_circle` parsed: a dashed ellipse of radius
      `maxSize / 2` around the icon's centre and the maximum value, printed
      with no decimals, at its right edge. The parsed fragment carries no
      namespace, so none of its elements is an SVG group. */
  function BoundaryCircle(id: string, size: real, b: Boundary, x: real, y: real): (n: Node)
    ensures n.tag == "g" && "id" in n.attrs && n.attrs["id"] == Str("boundary-" + id)
    ensures |n.children| == 2 && n.children[0].tag == "ellipse"
    ensures "cx" in n.children[0].attrs && "cy" in n.children[0].attrs
    ensures "rx" in n.children[0].attrs && "ry" in n.children[0].attrs
    ensures n.children[0].attrs["cx"] == Num(x + size / 2.0) && n.children[0].attrs["cy"] == Num(y + size / 2.0)
    ensures n.children[0].attrs["rx"] == Num(b.maxSize / 2.0) && n.children[0].attrs["ry"] == Num(b.maxSize / 2.0)
  {
    var cx := x + size / 2.0;
    var cy := y + size / 2.0;
    var r := b.maxSize / 2.0;
    var ellipse := Node("ellipse",
      map["cx" := Num(cx), "cy" := Num(cy), "rx" := Num(r), "ry" := Num(r),
          "fill-opacity" := Str("0"), "fill" := Str("rgb(255, 255, 255)"), "stroke" := Str("#ececec"),
          "stroke-dasharray" := Str("3 3"), "pointer-events" := Str("all")],
      None, []);
    var caption := Node("text", map["x" := Num(cx + r), "y" := Num(cy)], Some([Fixed(b.maxValue, 0)]), []);
    var captionGroup := Node("g", map["fill" := Str("#ECECEC"), "font-family" := Str("Helvetica"), "font-size" := Str("10px")],
      None, [caption]);
    Node("g", map["id" := Str("boundary-" + id)], None, [ellipse, captionGroup])
  }

  /** The edited cell and the returned `(pos_x, pos_y)`. */
  datatype Icon = Icon(cell: Node, x: real, y: real)

  /** The returned `(pos_x, pos_y)`: the corner of the last image child once
      resized; unbound when no child is an image. */
  function Corner(cell: Node, id: string, size: real): (r: Result<(real, real), Error>)
    ensures r.Ok? ==> LastImage(cell.children).Some?
  {
    match LastImage(cell.children)
    case None => Err(Unbound("pos_x"))
    case Some(j) =>
      // the loop has already resized this image, so this cannot fail here
      var img :- ResizeImage(cell.children[j], id, size);
      Ok((img.attrs["x"].x, img.attrs["y"].x))
  }

  /** What goes before the adjusted children: the boundary circle, if any. */
  function Front(id: string, size: real, boundary: Option<Boundary>, x: real, y: real): (f: seq<Node>)
    ensures |f| == Offset(boundary)
    ensures boundary.Some? ==> f[0] == BoundaryCircle(id, size, boundary.value, x, y)
  {
    if boundary.Some? then [BoundaryCircle(id, size, boundary.value, x, y)] else []
  }

  /** The cell after the child loop of `adjust_icon` has produced `kids`:
      the boundary circle goes before the old first child. */
  function PlaceIcon(cell: Node, kids: seq<Node>, id: string, size: real, boundary: Option<Boundary>): (r: Result<Icon, Error>)
    requires |kids| == |cell.children|
    ensures r.Ok? ==> LastImage(cell.children).Some?
    ensures r.Ok? ==> r.value.cell.tag == cell.tag && r.value.cell.attrs == cell.attrs
    ensures r.Ok? ==> Corner(cell, id, size) == Ok((r.value.x, r.value.y))
    ensures r.Ok? ==> r.value.cell.children == Front(id, size, boundary, r.value.x, r.value.y) + kids
  {
    if boundary.Some? && |cell.children| == 0 then Err(IndexError("first child of cell " + id))
    else
      var p :- Corner(cell, id, size);
      Ok(Icon(cell.(children := Front(id, size, boundary, p.0, p.1) + kids), p.0, p.1))
  }

  /** `adjust_icon`. Fails when an image child lacks a numeric x, y or width,
      when a text has to be rendered and cannot be, when a boundary is asked
      for and the cell has no child (`tag[0][0]`), and when no child is an
      image (`pos_x` is then never assigned). */
  function AdjustIcon(cell: Node, id: string, size: real, value: IconValue, unit: string,
                      boundary: Option<Boundary>, boolIsInt: bool): (r: Result<Icon, Error>)
    ensures r.Ok? ==> LastImage(cell.children).Some?
    ensures r.Ok? ==> r.value.cell.tag == cell.tag && r.value.cell.attrs == cell.attrs
    ensures LastImage(cell.children).None? ==> r.Err?
    ensures r.Ok? ==> Corner(cell, id, size) == Ok((r.value.x, r.value.y))
  {
    var kids :- AdjustChildren(cell.children, id, size, IconText(value, unit, boolIsInt));
    PlaceIcon(cell, kids, id, size, boundary)
  }

  /** Placement keeps the adjusted children in order behind the optional circle. */
  lemma PlacedKids(cell: Node, kids: seq<Node>, id: string, size: real, boundary: Option<Boundary>,
                   r: Icon, i: nat)
    requires |kids| == |cell.children|
    requires PlaceIcon(cell, kids, id, size, boundary) == Ok(r)
    requires i < |cell.children|
    ensures |r.cell.children| == |kids| + Offset(boundary) && r.cell.children[i + Offset(boundary)] == kids[i]
  {
    var f := Front(id, size, boundary, r.x, r.y);
    assert r.cell.children == f + kids && |f| == Offset(boundary);
  }

  /** Placement with a boundary puts the circle first. */
  lemma PlacedCircle(cell: Node, kids: seq<Node>, id: string, size: real, b: Boundary, r: Icon)
    requires |kids| == |cell.children|
    requires PlaceIcon(cell, kids, id, size, Some(b)) == Ok(r)
    ensures r.cell.children[0] == BoundaryCircle(id, size, b, r.x, r.y)
  {
  }

  /** `adjust_icon` is the child loop followed by the placement. */
  lemma AdjustIconParts(cell: Node, id: string, size: real, value: IconValue, unit: string,
                        boundary: Option<Boundary>, boolIsInt: bool, r: Icon)
    requires AdjustIcon(cell, id, size, value, unit, boundary, boolIsInt) == Ok(r)
    ensures AdjustChildren(cell.children, id, size, IconText(value, unit, boolIsInt)).Ok?
    ensures PlaceIcon(cell, AdjustChildren(cell.children, id, size, IconText(value, unit, boolIsInt)).value,
                      id, size, boundary) == Ok(r)
  {
  }

  /** Where child `i` of the cell ends up: after the circle, if there is one. */
  function Offset(boundary: Option<Boundary>): nat {
    if boundary.Some? then 1 else 0
  }

  /** The resize facts, stated over the loop's output. */
  lemma PlacedImage(cell: Node, kids: seq<Node>, id: string, size: real, text: Result<Text, Error>,
                    boundary: Option<Boundary>, r: Icon, i: nat)
    requires AdjustChildren(cell.children, id, size, text) == Ok(kids)
    requires PlaceIcon(cell, kids, id, size, boundary) == Ok(r)
    requires i < |cell.children| && TagHas(cell.children[i].tag, "image")
    ensures |r.cell.children| == |cell.children| + Offset(boundary)
    ensures r.cell.children[i + Offset(boundary)].attrs == ResizeImage(cell.children[i], id, size).value.attrs
  {
    PlacedKids(cell, kids, id, size, boundary, r, i);
    assert AdjustChild(cell.children[i], id, size, text).Ok?;
    assert kids[i] == AdjustChild(cell.children[i], id, size, text).value;
  }

  /** The corner is that of the last image once resized to `size`, so the
      last image was centred half a size further on. */
  lemma CornerCentre(cell: Node, id: string, size: real, x: real, y: real)
    requires Corner(cell, id, size) == Ok((x, y))
    ensures LastImage(cell.children).Some?
    ensures Centre(cell.children[LastImage(cell.children).value].attrs) == Some((x + size / 2.0, y + size / 2.0))
  {
    var c := cell.children[LastImage(cell.children).value];
    CentreOf(ResizeImage(c, id, size).value.attrs, x, y, size);
  }

  lemma CentreOf(a: map<string, Attr>, x: real, y: real, w: real)
    requires "x" in a && "y" in a && "width" in a
    requires a["x"] == Num(x) && a["y"] == Num(y) && a["width"] == Num(w)
    ensures Centre(a) == Some((x + w / 2.0, y + w / 2.0))
  {
  }

  /** A successful `adjust_icon` makes every image child `size` square
      about its old centre. */
  lemma AdjustIconResizes(cell: Node, id: string, size: real, value: IconValue, unit: string,
                          boundary: Option<Boundary>, boolIsInt: bool, r: Icon, i: nat)
    requires AdjustIcon(cell, id, size, value, unit, boundary, boolIsInt) == Ok(r)
    requires i < |cell.children| && TagHas(cell.children[i].tag, "image")
    ensures |r.cell.children| == |cell.children| + Offset(boundary)
    ensures var img := r.cell.children[i + Offset(boundary)].attrs;
      "width" in img && "height" in img && img["width"] == Num(size) && img["height"] == Num(size)
    ensures Centre(r.cell.children[i + Offset(boundary)].attrs) == Centre(cell.children[i].attrs)
    ensures Centre(cell.children[i].attrs).Some?
  {
    AdjustIconParts(cell, id, size, value, unit, boundary, boolIsInt, r);
    var text := IconText(value, unit, boolIsInt);
    PlacedImage(cell, AdjustChildren(cell.children, id, size, text).value, id, size, text, boundary, r, i);
  }

  /** Attributes of an image child other than its geometry and template id
      survive `adjust_icon`. */
  lemma AdjustIconKeepsImageAttr(cell: Node, id: string, size: real, value: IconValue, unit: string,
                                 boundary: Option<Boundary>, boolIsInt: bool, r: Icon, i: nat, k: string)
    requires AdjustIcon(cell, id, size, value, unit, boundary, boolIsInt) == Ok(r)
    requires i < |cell.children| && TagHas(cell.children[i].tag, "image")
    requires k in cell.children[i].attrs
    requires k != "x" && k != "y" && k != "width" && k != "height" && k != "template-id"
    ensures |r.cell.children| == |cell.children| + Offset(boundary)
    ensures k in r.cell.children[i + Offset(boundary)].attrs
    ensures r.cell.children[i + Offset(boundary)].attrs[k] == cell.children[i].attrs[k]
  {
    AdjustIconParts(cell, id, size, value, unit, boundary, boolIsInt, r);
    var text := IconText(value, unit, boolIsInt);
    PlacedImage(cell, AdjustChildren(cell.children, id, size, text).value, id, size, text, boundary, r, i);
    ResizeKeepsOtherAttrs(cell.children[i], id, size, k);
  }

  /** The returned `(pos_x, pos_y)` is the corner of the last image child,
      which is centred where it was before. */
  lemma AdjustIconPosition(cell: Node, id: string, size: real, value: IconValue, unit: string,
                           boundary: Option<Boundary>, boolIsInt: bool, r: Icon)
    requires AdjustIcon(cell, id, size, value, unit, boundary, boolIsInt) == Ok(r)
    ensures LastImage(cell.children).Some?
    ensures Centre(cell.children[LastImage(cell.children).value].attrs) == Some((r.x + size / 2.0, r.y + size / 2.0))
  {
    CornerCentre(cell, id, size, r.x, r.y);
  }

  /** With a boundary, `adjust_icon` puts the circle before the cell's old
      first child, centred on the last image's centre, which the resize kept. */
  lemma AdjustIconBoundary(cell: Node, id: string, size: real, value: IconValue, unit: string,
                           b: Boundary, boolIsInt: bool, r: Icon)
    requires AdjustIcon(cell, id, size, value, unit, Some(b), boolIsInt) == Ok(r)
    ensures r.cell.children[0] == BoundaryCircle(id, size, b, r.x, r.y)
    ensures LastImage(cell.children).Some?
    ensures Centre(cell.children[LastImage(cell.children).value].attrs) == Some((r.x + size / 2.0, r.y + size / 2.0))
  {
    AdjustIconParts(cell, id, size, value, unit, Some(b), boolIsInt, r);
    var kids := AdjustChildren(cell.children, id, size, IconText(value, unit, boolIsInt)).value;
    PlacedCircle(cell, kids, id, size, b, r);
    AdjustIconPosition(cell, id, size, value, unit, Some(b), boolIsInt, r);
  }

  /** Without a boundary the cell keeps its number of children, and children
      that are not images keep their attributes. */
  lemma AdjustIconWithoutBoundary(cell: Node, id: string, size: real, value: IconValue, unit: string,
                                  boolIsInt: bool, r: Icon, i: nat)
    requires AdjustIcon(cell, id, size, value, unit, None, boolIsInt) == Ok(r)
    requires i < |cell.children| && !TagHas(cell.children[i].tag, "image")
    ensures |r.cell.children| == |cell.children|
    ensures r.cell.children[i].attrs == cell.children[i].attrs
  {
    AdjustIconParts(cell, id, size, value, unit, None, boolIsInt, r);
    var text := IconText(value, unit, boolIsInt);
    var kids := AdjustChildren(cell.children, id, size, text).value;
    PlacedKids(cell, kids, id, size, None, r, i);
    assert r.cell.children[i] == kids[i];
    assert kids[i] == AdjustChild(cell.children[i], id, size, text).value;
  }

  /** Without a boundary an image child stays at its index: resized to
      `size`, with its other attributes as they were. */
  lemma AdjustIconImageInPlace(cell: Node, id: string, size: real, value: IconValue, unit: string,
                               boolIsInt: bool, r: Icon, i: nat, k: string)
    requires AdjustIcon(cell, id, size, value, unit, None, boolIsInt) == Ok(r)
    requires i < |cell.children| && TagHas(cell.children[i].tag, "image")
    requires k in cell.children[i].attrs
    requires k != "x" && k != "y" && k != "width" && k != "height" && k != "template-id"
    ensures |r.cell.children| == |cell.children|
    ensures var img := r.cell.children[i].attrs;
            k in img && img[k] == cell.children[i].attrs[k] && "width" in img && img["width"] == Num(size)
  {
    AdjustIconParts(cell, id, size, value, unit, None, boolIsInt, r);
    var text := IconText(value, unit, boolIsInt);
    PlacedImageInPlace(cell, AdjustChildren(cell.children, id, size, text).value, id, size, text, r, i);
    ResizeKeepsOtherAttrs(cell.children[i], id, size, k);
  }

  lemma PlacedImageInPlace(cell: Node, kids: seq<Node>, id: string, size: real, text: Result<Text, Error>,
                           r: Icon, i: nat)
    requires AdjustChildren(cell.children, id, size, text) == Ok(kids)
    requires PlaceIcon(cell, kids, id, size, None) == Ok(r)
    requires i < |cell.children| && TagHas(cell.children[i].tag, "image")
    ensures |r.cell.children| == |cell.children|
    ensures r.cell.children[i].attrs == ResizeImage(cell.children[i], id, size).value.attrs
  {
    assert r.cell.children == kids;
    assert AdjustChild(cell.children[i], id, size, text).Ok?;
    assert kids[i] == AdjustChild(cell.children[i], id, size, text).value;
  }

  // ---------------------------------------------------------------------------
  // The cell edits keep the document's shape

  /** `update_image` changes only a link attribute. */
  lemma UpdateImageKeepsShape(c: Node, mime: string, bytes: seq<bv8>)
    ensures SameShape(c, UpdateImage(c, mime, bytes))
  {
    var r := UpdateImage(c, mime, bytes);
    assert XlinkHref != "id";
    forall i | 0 <= i < |c.children| ensures SameShape(c.children[i], r.children[i]) {
      if TagHas(c.children[i].tag, "image") {
        SetKeepsShape(c.children[i], XlinkHref, DataUrl(mime, bytes));
      } else {
        SameShapeRefl(c.children[i]);
      }
    }
  }

  /** `change_color_text` changes only fills. */
  lemma ChangeColorKeepsShape(c: Node, color: string)
    ensures SameShape(c, ChangeColorText(c, color))
  {
    var r := ChangeColorText(c, color);
    forall i | 0 <= i < |c.children| ensures SameShape(c.children[i], r.children[i]) {
      if IsGroupTag(c.children[i].tag) {
        ColorGroupKeepsShape(c.children[i], color);
      } else {
        SameShapeRefl(c.children[i]);
      }
    }
  }

  lemma ColorGroupKeepsShape(g: Node, color: string)
    ensures SameShape(g, ColorGroup(g, color))
  {
    var r := ColorGroup(g, color);
    forall i | 0 <= i < |g.children| ensures SameShape(g.children[i], r.children[i]) {
      if IsTextTag(g.children[i].tag) {
        SetKeepsShape(g.children[i], "fill", Str(color));
      } else {
        SameShapeRefl(g.children[i]);
      }
    }
  }

  /** Writing a text into a group changes only texts. */
  lemma SetGroupTextKeepsShape(g: Node, text: Result<Text, Error>)
    requires SetGroupText(g, text).Ok?
    ensures SameShape(g, SetGroupText(g, text).value)
  {
    var r := SetGroupText(g, text).value;
    forall i | 0 <= i < |g.children| ensures SameShape(g.children[i], r.children[i]) {
      if IsTextTag(g.children[i].tag) {
        TextKeepsShape(g.children[i], Some(text.value));
      } else {
        SameShapeRefl(g.children[i]);
      }
    }
  }

  /** The text loop over a cell's children changes only texts. */
  lemma SetTextsKeepShape(children: seq<Node>, text: Result<Text, Error>)
    requires SetTexts(children, text).Ok?
    ensures forall i :: 0 <= i < |children| ==> SameShape(children[i], SetTexts(children, text).value[i])
  {
    forall i | 0 <= i < |children| ensures SameShape(children[i], SetTexts(children, text).value[i]) {
      if IsGroupTag(children[i].tag) {
        SetGroupTextKeepsShape(children[i], text);
      } else {
        SameShapeRefl(children[i]);
      }
    }
  }

  lemma {:induction false} FirstTextOnlyKeepsShape(g: Node, t: Text, from: nat)
    ensures SameShape(g, FirstTextOnly(g, t, from))
    decreases |g.children| - from
  {
    if from >= |g.children| {
      SameShapeRefl(g);
    } else if TagEnds(g.children[from].tag, "text") {
      var r := FirstTextOnly(g, t, from);
      forall i | 0 <= i < |g.children| ensures SameShape(g.children[i], r.children[i]) {
        if i == from {
          TextKeepsShape(g.children[i], Some(t));
        } else {
          SameShapeRefl(g.children[i]);
        }
      }
    } else {
      FirstTextOnlyKeepsShape(g, t, from + 1);
    }
  }

  /** `change_text` changes only texts. */
  lemma ChangeTextKeepsShape(cell: Node, t: Text)
    ensures SameShape(cell, ChangeText(cell, t))
  {
    var r := ChangeText(cell, t);
    forall i | 0 <= i < |cell.children| ensures SameShape(cell.children[i], r.children[i]) {
      if IsGroupTag(cell.children[i].tag) {
        FirstTextOnlyKeepsShape(cell.children[i], t, 0);
      } else {
        SameShapeRefl(cell.children[i]);
      }
    }
  }

  /** `adjust_icon` without a boundary circle changes only image geometry
      and texts; with one it inserts an element, so it is not covered here. */
  lemma AdjustIconKeepsShape(cell: Node, id: string, size: real, value: IconValue, unit: string,
                             boolIsInt: bool)
    requires AdjustIcon(cell, id, size, value, unit, None, boolIsInt).Ok?
    ensures SameShape(cell, AdjustIcon(cell, id, size, value, unit, None, boolIsInt).value.cell)
  {
    var r := AdjustIcon(cell, id, size, value, unit, None, boolIsInt).value;
    var text := IconText(value, unit, boolIsInt);
    AdjustIconParts(cell, id, size, value, unit, None, boolIsInt, r);
    var kids := AdjustChildren(cell.children, id, size, text).value;
    AdjustChildrenKeepShape(cell.children, id, size, text);
    ChildrenKeepShape(cell, r.cell, kids);
  }

  /** A node whose children each keep their shape keeps its own, if its tag
      and attributes are unchanged. */
  lemma ChildrenKeepShape(cell: Node, out: Node, kids: seq<Node>)
    requires |kids| == |cell.children| && forall i :: 0 <= i < |kids| ==> SameShape(cell.children[i], kids[i])
    requires out.tag == cell.tag && out.attrs == cell.attrs && out.children == kids
    ensures SameShape(cell, out)
  {
  }

  /** The child loop keeps every child's structure. */
  lemma AdjustChildrenKeepShape(cs: seq<Node>, id: string, size: real, text: Result<Text, Error>)
    requires AdjustChildren(cs, id, size, text).Ok?
    ensures forall i :: 0 <= i < |cs| ==> SameShape(cs[i], AdjustChildren(cs, id, size, text).value[i])
  {
    forall i | 0 <= i < |cs| ensures SameShape(cs[i], AdjustChildren(cs, id, size, text).value[i]) {
      AdjustChildKeepsShape(cs[i], id, size, text);
    }
  }

  lemma AdjustChildKeepsShape(c: Node, id: string, size: real, text: Result<Text, Error>)
    requires AdjustChild(c, id, size, text).Ok?
    ensures SameShape(c, AdjustChild(c, id, size, text).value)
  {
    var c1 := if TagHas(c.tag, "image") then ResizeImage(c, id, size).value else c;
    if TagHas(c.tag, "image") {
      ResizeKeepsShape(c, id, size);
    } else {
      SameShapeRefl(c);
    }
    if IsGroupTag(c1.tag) {
      SetGroupTextKeepsShape(c1, text);
      SameShapeTrans(c, c1, SetGroupText(c1, text).value);
    }
  }

  lemma ResizeKeepsShape(c: Node, id: string, size: real)
    requires ResizeImage(c, id, size).Ok?
    ensures SameShape(c, ResizeImage(c, id, size).value)
  {
    var r := ResizeImage(c, id, size).value;
    assert r.attrs == c.attrs["width" := r.attrs["width"]]["height" := r.attrs["height"]]["x" := r.attrs["x"]]
                             ["y" := r.attrs["y"]]["template-id" := r.attrs["template-id"]];
    SameShapeRefl(c);
  }
}

=== FILE: steps.dfy ===
/** The document-level steps both diagram generators are built from: each one
    looks a cell up by id and edits it (generate_results.py:213-245 and
    solhycool_visualizations/diagrams.py:42-154, together with the loops of
    `generate_diagram` that apply them). */
module Steps {
  import opened Wrappers
  import opened Failures
  import opened Strings
  import opened Svg
  import opened Render
  import Json
  import ValueMapper

  /** The asset files beside the source diagram, by path. */
  type Files = map<string, seq<bv8>>

  /** `os.path.join(folder, name)` for two components. */
  function JoinPath(folder: string, name: string): (p: string)
    ensures EndsWith(p, name)
    ensures |name| > 0 && name[0] == '/' ==> p == name
  {
    if |name| > 0 && name[0] == '/' then name
    else if folder == [] || folder[|folder| - 1] == '/' then folder + name
    else folder + "/" + name
  }

  /** Joining a folder and a plain file name gives a path whose last
      component is that file name. */
  lemma JoinPathLastComponent(folder: string, name: string)
    requires '/' !in name
    ensures LastSegment(JoinPath(folder, name), '/') == name
  {
    if folder == [] {
      NoSepIsLast(name, '/');
    } else if folder[|folder| - 1] == '/' {
      var stem := folder[..|folder| - 1];
      assert folder + name == stem + ['/'] + name;
      LastSegmentOfExtension(stem, '/', name);
    } else {
      assert folder + "/" + name == folder + ['/'] + name;
      LastSegmentOfExtension(folder, '/', name);
    }
  }

  lemma {:induction false} NoSepIsLast(s: string, sep: char)
    requires sep !in s
    ensures LastSegment(s, sep) == s
    decreases |s|
  {
    if |s| > 0 {
      NoSepIsLast(s[..|s| - 1], sep);
    }
  }

  // ---------------------------------------------------------------------------
  // Cell edits

  /** `update_image`: the file is read first, so a missing file is reported
      before a missing cell; then every image child of the cell gets the
      file's data URL. */
  function UpdateImageDoc(doc: Node, files: Files, path: string, id: string): (r: Result<Node, Error>)
    ensures path !in files ==> r == Err(FileNotFound(path))
    ensures path in files && !HasCell(doc, id) ==> r == Err(IndexError(id))
    ensures r.Ok? <==> path in files && HasCell(doc, id)
  {
    if path !in files then Err(FileNotFound(path))
    else EditCell(doc, id, ImageEdit(path, files[path]))
  }

  function ImageEdit(path: string, bytes: seq<bv8>): Node -> Result<Node, Error> {
    (c: Node) => Ok(UpdateImage(c, ImageMime(path), bytes))
  }

  /** After `update_image`, the cell's image children all show the file. */
  lemma UpdateImageDocShows(doc: Node, files: Files, path: string, id: string, i: nat)
    requires UpdateImageDoc(doc, files, path, id).Ok?
    requires i < |Cell(doc, id).value.children| && TagHas(Cell(doc, id).value.children[i].tag, "image")
    ensures var c := Cell(UpdateImageDoc(doc, files, path, id).value, id);
      c.Ok? && |c.value.children| == |Cell(doc, id).value.children|
      && XlinkHref in c.value.children[i].attrs
      && c.value.children[i].attrs[XlinkHref] == DataUrl(ImageMime(path), files[path])
  {
    EditedCell(doc, id, ImageEdit(path, files[path]));
  }

  /** The stroke width of one line cell: the line and its arrow. */
  function StrokeCell(doc: Node, id: string, w: real): (r: Result<Node, Error>)
    ensures r.Ok? <==> HasCell(doc, id)
  {
    EditCell(doc, id, StrokeEdit(w))
  }

  function StrokeEdit(w: real): Node -> Result<Node, Error> {
    (c: Node) => Ok(SetStrokeWidth(c, w))
  }

  /** After a stroke edit, every child of the line cell has the width. */
  lemma StrokeCellSets(doc: Node, id: string, w: real, i: nat)
    requires StrokeCell(doc, id, w).Ok?
    requires i < |Cell(doc, id).value.children|
    ensures var c := Cell(StrokeCell(doc, id, w).value, id);
      c.Ok? && |c.value.children| == |Cell(doc, id).value.children|
      && "stroke-width" in c.value.children[i].attrs
      && c.value.children[i].attrs["stroke-width"] == Num(w)
  {
    EditedCell(doc, id, StrokeEdit(w));
  }

  /** The children's attributes after `stroke-width` is set on each. */
  function Stroked(attrs: seq<map<string, Attr>>, w: real): (r: seq<map<string, Attr>>)
    ensures |r| == |attrs|
    ensures forall i :: 0 <= i < |attrs| ==> r[i] == attrs[i]["stroke-width" := Num(w)]
  {
    seq(|attrs|, i requires 0 <= i < |attrs| => attrs[i]["stroke-width" := Num(w)])
  }

  /** Only the last width set on a line shows. */
  lemma StrokedTwice(attrs: seq<map<string, Attr>>, w1: real, w2: real)
    ensures Stroked(Stroked(attrs, w1), w2) == Stroked(attrs, w2)
  {
    forall i | 0 <= i < |attrs| ensures Stroked(Stroked(attrs, w1), w2)[i] == Stroked(attrs, w2)[i] {
      assert attrs[i]["stroke-width" := Num(w1)]["stroke-width" := Num(w2)] == attrs[i]["stroke-width" := Num(w2)];
    }
  }

  /** One stroke edit strokes the children of its own cell. */
  lemma StrokeOwn(doc: Node, id: string, w: real)
    requires HasCell(doc, id)
    ensures var d := StrokeCell(doc, id, w).value;
      HasCell(d, id) && ChildAttrs(Cell(d, id).value) == Stroked(ChildAttrs(Cell(doc, id).value), w)
  {
    var c := Cell(doc, id).value;
    EditedCell(doc, id, StrokeEdit(w));
    assert ChildAttrs(SetStrokeWidth(c, w)) == Stroked(ChildAttrs(c), w);
  }

  /** One stroke edit leaves the children of every other cell as they were,
      even of a cell that contains the edited one or lies inside it. */
  lemma StrokeOther(doc: Node, id: string, w: real, other: string)
    requires HasCell(doc, id) && HasCell(doc, other) && other != id
    ensures var d := StrokeCell(doc, id, w).value;
      HasCell(d, other) && ChildAttrs(Cell(d, other).value) == ChildAttrs(Cell(doc, other).value)
  {
    var d := StrokeCell(doc, id, w).value;
    var p := Find(doc, id).value;
    var q := Find(doc, other).value;
    var c := NodeAt(doc, p);
    var m := SetStrokeWidth(c, w);
    assert d == ReplaceAt(doc, p, m);
    StrokeKeepsShape(doc, id, w);
    SameShapeFind(doc, d, other);
    if p == q {
      CellIdsDiffer(c, id, other);
    }
    OtherChildAttrs(doc, p, m, q);
  }

  lemma StrokeKeepsShape(doc: Node, id: string, w: real)
    requires HasCell(doc, id)
    ensures SameShape(doc, StrokeCell(doc, id, w).value)
  {
    var c := Cell(doc, id).value;
    var m := SetStrokeWidth(c, w);
    forall i | 0 <= i < |c.children| ensures SameShape(c.children[i], m.children[i]) {
      SetKeepsShape(c.children[i], "stroke-width", Num(w));
    }
    EditKeepsShape(doc, id, StrokeEdit(w));
  }

  /** No later pair sets the line of pair `k` again. */
  predicate LastFor(ls: seq<(string, real)>, k: int)
    requires 0 <= k < |ls|
  {
    forall j :: k < j < |ls| ==> ls[j].0 != ls[k].0
  }

  predicate Unlisted(ls: seq<(string, real)>, id: string) {
    forall k :: 0 <= k < |ls| ==> ls[k].0 != id
  }

  /** What setting the widths `ls` on `doc` leaves in `r`: the same shape;
      the children of each listed line carry the line's last width on top of
      their old attributes; the children of every unlisted cell are as they
      were. */
  ghost predicate StrokesApplied(doc: Node, ls: seq<(string, real)>, r: Node) {
    SameShape(doc, r)
    && (forall k :: 0 <= k < |ls| && LastFor(ls, k) ==>
          HasCell(doc, ls[k].0) && HasCell(r, ls[k].0)
          && ChildAttrs(Cell(r, ls[k].0).value) == Stroked(ChildAttrs(Cell(doc, ls[k].0).value), ls[k].1))
    && (forall id :: HasCell(doc, id) && Unlisted(ls, id) ==>
          HasCell(r, id) && ChildAttrs(Cell(r, id).value) == ChildAttrs(Cell(doc, id).value))
  }

  /** Stroke widths on several line cells, in order: the loops of
      `generate_diagram` over its lines. The cells found at the start are
      the cells edited, as the source's `tags` are. */
  function StrokeAll(doc: Node, ls: seq<(string, real)>): (r: Result<Node, Error>)
    ensures r.Ok? <==> forall k :: 0 <= k < |ls| ==> HasCell(doc, ls[k].0)
    ensures r.Err? ==> exists k :: 0 <= k < |ls| && r.error == IndexError(ls[k].0) && !HasCell(doc, ls[k].0)
                                   && forall j :: 0 <= j < k ==> HasCell(doc, ls[j].0)
    ensures r.Ok? ==> StrokesApplied(doc, ls, r.value)
    decreases |ls|
  {
    if |ls| == 0 then
      SameShapeRefl(doc);
      Ok(doc)
    else
      match StrokeCell(doc, ls[0].0, ls[0].1)
      case Err(e) => Err(e)
      case Ok(d) =>
        var r := StrokeAll(d, ls[1..]);
        StrokeAllStep(doc, ls, d, r);
        r
  }

  /** The step of StrokeAll: the first edit, then the rest on its result. */
  lemma StrokeAllStep(doc: Node, ls: seq<(string, real)>, d: Node, r: Result<Node, Error>)
    requires |ls| > 0 && StrokeCell(doc, ls[0].0, ls[0].1) == Ok(d)
    requires r.Ok? <==> forall k :: 0 <= k < |ls| - 1 ==> HasCell(d, ls[1..][k].0)
    requires r.Err? ==> exists k :: 0 <= k < |ls| - 1 && r.error == IndexError(ls[1..][k].0) && !HasCell(d, ls[1..][k].0)
                                    && forall j :: 0 <= j < k ==> HasCell(d, ls[1..][j].0)
    requires r.Ok? ==> StrokesApplied(d, ls[1..], r.value)
    ensures r.Ok? <==> forall k :: 0 <= k < |ls| ==> HasCell(doc, ls[k].0)
    ensures r.Err? ==> exists k :: 0 <= k < |ls| && r.error == IndexError(ls[k].0) && !HasCell(doc, ls[k].0)
                                   && forall j :: 0 <= j < k ==> HasCell(doc, ls[j].0)
    ensures r.Ok? ==> StrokesApplied(doc, ls, r.value)
  {
    StrokeKeepsShape(doc, ls[0].0, ls[0].1);
    StrokeKeepsLines(doc, ls, d);
    if r.Err? {
      StrokeAllMissing(doc, ls, d, r.error);
    } else {
      var out := r.value;
      SameShapeTrans(doc, d, out);
      StrokeAllLast(doc, ls, d, out);
      StrokeAllUnlisted(doc, ls, d, out);
      assert StrokesApplied(doc, ls, out);
    }
  }

  /** The first line missing from the rest is the first line missing. */
  lemma StrokeAllMissing(doc: Node, ls: seq<(string, real)>, d: Node, e: Error)
    requires |ls| > 0 && HasCell(doc, ls[0].0)
    requires forall k :: 0 <= k < |ls| ==> (HasCell(doc, ls[k].0) <==> HasCell(d, ls[k].0))
    requires exists k :: 0 <= k < |ls| - 1 && e == IndexError(ls[1..][k].0) && !HasCell(d, ls[1..][k].0)
                         && forall j :: 0 <= j < k ==> HasCell(d, ls[1..][j].0)
    ensures exists k :: 0 <= k < |ls| && e == IndexError(ls[k].0) && !HasCell(doc, ls[k].0)
                        && forall j :: 0 <= j < k ==> HasCell(doc, ls[j].0)
  {
    var tail := ls[1..];
    var k :| 0 <= k < |tail| && e == IndexError(tail[k].0) && !HasCell(d, tail[k].0)
             && forall j :: 0 <= j < k ==> HasCell(d, tail[j].0);
    assert ls[k + 1] == tail[k];
    forall j | 0 <= j < k + 1 ensures HasCell(doc, ls[j].0) {
      if j > 0 {
        assert ls[j] == tail[j - 1];
      }
    }
  }

  /** The first edit keeps every listed line's cell, so the rest of the list
      finds the same lines missing or present. */
  lemma StrokeKeepsLines(doc: Node, ls: seq<(string, real)>, d: Node)
    requires |ls| > 0 && SameShape(doc, d)
    ensures forall k :: 0 <= k < |ls| ==> (HasCell(doc, ls[k].0) <==> HasCell(d, ls[k].0))
    ensures (forall k :: 0 <= k < |ls| ==> HasCell(doc, ls[k].0))
            <==> HasCell(doc, ls[0].0) && forall k :: 0 <= k < |ls| - 1 ==> HasCell(d, ls[1..][k].0)
  {
    forall k | 0 <= k < |ls| ensures HasCell(doc, ls[k].0) <==> HasCell(d, ls[k].0) {
      SameShapeFind(doc, d, ls[k].0);
    }
    assert forall k :: 0 <= k < |ls| - 1 ==> ls[1..][k] == ls[k + 1];
  }

  lemma StrokeAllLast(doc: Node, ls: seq<(string, real)>, d: Node, out: Node)
    requires |ls| > 0 && StrokeCell(doc, ls[0].0, ls[0].1) == Ok(d)
    requires StrokesApplied(d, ls[1..], out)
    ensures forall k :: 0 <= k < |ls| && LastFor(ls, k) ==>
              HasCell(doc, ls[k].0) && HasCell(out, ls[k].0)
              && ChildAttrs(Cell(out, ls[k].0).value) == Stroked(ChildAttrs(Cell(doc, ls[k].0).value), ls[k].1)
  {
    forall k | 0 <= k < |ls| && LastFor(ls, k)
      ensures HasCell(doc, ls[k].0) && HasCell(out, ls[k].0)
      ensures ChildAttrs(Cell(out, ls[k].0).value) == Stroked(ChildAttrs(Cell(doc, ls[k].0).value), ls[k].1)
    {
      if k == 0 {
        StrokeFirstLast(doc, ls, d, out);
      } else {
        StrokeLaterLast(doc, ls, d, out, k);
      }
    }
  }

  lemma StrokeFirstLast(doc: Node, ls: seq<(string, real)>, d: Node, out: Node)
    requires |ls| > 0 && StrokeCell(doc, ls[0].0, ls[0].1) == Ok(d)
    requires StrokesApplied(d, ls[1..], out)
    requires LastFor(ls, 0)
    ensures HasCell(out, ls[0].0)
    ensures ChildAttrs(Cell(out, ls[0].0).value) == Stroked(ChildAttrs(Cell(doc, ls[0].0).value), ls[0].1)
  {
    var x := ls[0].0;
    var tail := ls[1..];
    StrokeOwn(doc, x, ls[0].1);
    assert Unlisted(tail, x) by {
      forall j | 0 <= j < |tail| ensures tail[j].0 != x {
        assert tail[j] == ls[j + 1];
      }
    }
  }

  lemma StrokeLaterLast(doc: Node, ls: seq<(string, real)>, d: Node, out: Node, k: nat)
    requires 0 < k < |ls| && StrokeCell(doc, ls[0].0, ls[0].1) == Ok(d)
    requires StrokesApplied(d, ls[1..], out)
    requires LastFor(ls, k)
    ensures HasCell(doc, ls[k].0) && HasCell(out, ls[k].0)
    ensures ChildAttrs(Cell(out, ls[k].0).value) == Stroked(ChildAttrs(Cell(doc, ls[k].0).value), ls[k].1)
  {
    var x := ls[k].0;
    var tail := ls[1..];
    assert tail[k - 1] == ls[k];
    assert LastFor(tail, k - 1) by {
      forall j | k - 1 < j < |tail| ensures tail[j].0 != tail[k - 1].0 {
        assert tail[j] == ls[j + 1];
      }
    }
    StrokeKeepsShape(doc, ls[0].0, ls[0].1);
    SameShapeFind(doc, d, x);
    if x == ls[0].0 {
      StrokeOwn(doc, x, ls[0].1);
      StrokedTwice(ChildAttrs(Cell(doc, x).value), ls[0].1, ls[k].1);
    } else {
      StrokeOther(doc, ls[0].0, ls[0].1, x);
    }
  }

  lemma StrokeAllUnlisted(doc: Node, ls: seq<(string, real)>, d: Node, out: Node)
    requires |ls| > 0 && StrokeCell(doc, ls[0].0, ls[0].1) == Ok(d)
    requires StrokesApplied(d, ls[1..], out)
    ensures forall x :: HasCell(doc, x) && Unlisted(ls, x) ==>
              HasCell(out, x) && ChildAttrs(Cell(out, x).value) == ChildAttrs(Cell(doc, x).value)
  {
    var tail := ls[1..];
    forall x | HasCell(doc, x) && Unlisted(ls, x)
      ensures HasCell(out, x) && ChildAttrs(Cell(out, x).value) == ChildAttrs(Cell(doc, x).value)
    {
      assert ls[0].0 != x;
      assert Unlisted(tail, x) by {
        forall j | 0 <= j < |tail| ensures tail[j].0 != x {
          assert tail[j] == ls[j + 1];
        }
      }
      StrokeOther(doc, ls[0].0, ls[0].1, x);
    }
  }

  /** `adjust_icon` on the cell `id`, the edited cell taking its place. */
  function IconStep(doc: Node, id: string, varId: string, size: real, value: IconValue, unit: string,
                    boundary: Option<Boundary>, boolIsInt: bool): (r: Result<Node, Error>)
    ensures !HasCell(doc, id) ==> r == Err(IndexError(id))
    ensures HasCell(doc, id) ==>
              (r.Ok? <==> AdjustIcon(Cell(doc, id).value, varId, size, value, unit, boundary, boolIsInt).Ok?)
  {
    EditCell(doc, id, (c: Node) => IconCell(c, varId, size, value, unit, boundary, boolIsInt))
  }

  function IconCell(c: Node, varId: string, size: real, value: IconValue, unit: string,
                    boundary: Option<Boundary>, boolIsInt: bool): (r: Result<Node, Error>)
    ensures r.Ok? <==> AdjustIcon(c, varId, size, value, unit, boundary, boolIsInt).Ok?
    ensures r.Ok? ==> r.value == AdjustIcon(c, varId, size, value, unit, boundary, boolIsInt).value.cell
  {
    match AdjustIcon(c, varId, size, value, unit, boundary, boolIsInt)
    case Ok(icon) => Ok(icon.cell)
    case Err(e) => Err(e)
  }

  /** After an icon step the cell, looked up again, is the adjusted icon. */
  lemma IconStepCell(doc: Node, id: string, varId: string, size: real, value: IconValue, unit: string,
                     boundary: Option<Boundary>, boolIsInt: bool)
    requires IconStep(doc, id, varId, size, value, unit, boundary, boolIsInt).Ok?
    ensures Cell(IconStep(doc, id, varId, size, value, unit, boundary, boolIsInt).value, id)
            == IconCell(Cell(doc, id).value, varId, size, value, unit, boundary, boolIsInt)
  {
    EditedCell(doc, id, (c: Node) => IconCell(c, varId, size, value, unit, boundary, boolIsInt));
  }

  /** A text box: every text element in every child group of the cell gets
      the text, which is evaluated only if there is such an element. */
  function TextBox(doc: Node, id: string, text: Result<Text, Error>): (r: Result<Node, Error>)
    ensures !HasCell(doc, id) ==> r == Err(IndexError(id))
    ensures HasCell(doc, id) && text.Ok? ==> r.Ok?
    ensures HasCell(doc, id) && r.Err? ==> text.Err? && r.error == text.error
  {
    EditCell(doc, id, TextEdit(text))
  }

  function TextEdit(text: Result<Text, Error>): Node -> Result<Node, Error> {
    (c: Node) => TextCell(c, text)
  }

  function TextCell(c: Node, text: Result<Text, Error>): (r: Result<Node, Error>)
    ensures r.Ok? ==> r.value.tag == c.tag && r.value.attrs == c.attrs
    ensures text.Ok? ==> r.Ok?
    ensures r.Err? ==> text.Err? && r.error == text.error
  {
    match SetTexts(c.children, text)
    case Ok(kids) => Ok(c.(children := kids))
    case Err(e) => Err(e)
  }

  /** `change_text` on the cell `id`. */
  function ChangeTextDoc(doc: Node, id: string, t: Text): (r: Result<Node, Error>)
    ensures r.Ok? <==> HasCell(doc, id)
  {
    EditCell(doc, id, ChangeTextEdit(t))
  }

  function ChangeTextEdit(t: Text): Node -> Result<Node, Error> {
    (c: Node) => Ok(ChangeText(c, t))
  }

  /** `change_color_text` on the cell `id`. */
  function ChangeColorDoc(doc: Node, color: string, id: string): (r: Result<Node, Error>)
    ensures r.Ok? <==> HasCell(doc, id)
  {
    EditCell(doc, id, ColorEdit(color))
  }

  function ColorEdit(color: string): Node -> Result<Node, Error> {
    (c: Node) => Ok(ChangeColorText(c, color))
  }

  // ---------------------------------------------------------------------------
  // Cost icons

  /** The icon asset of a cost: the stem and the level, 1 to 3. */
  function CostAsset(folder: string, stem: string, level: int): (p: string)
    ensures EndsWith(p, ".svg")
  {
    var name := stem + IntStr(level) + ".svg";
    assert name[|name| - 4..] == ".svg";
    JoinPath(folder, name)
  }

  /** One cost icon: the cost's level picks the asset, `update_image` puts it
      in the cell, and `adjust_icon` sizes it to 70 with the raw value as its
      text and no boundary circle. */
  function CostIcon(doc: Node, files: Files, folder: string, id: string, varId: string,
                    value: Json.Value, lo: Json.Value, hi: Json.Value, stem: string, unit: string,
                    boolIsInt: bool): (r: Result<Node, Error>)
    ensures ValueMapper.GetLevelOf(value, lo, hi).Err? ==> r == Err(ValueMapper.GetLevelOf(value, lo, hi).error)
  {
    var level :- ValueMapper.GetLevelOf(value, lo, hi);
    var path := CostAsset(folder, stem, level);
    var d :- UpdateImageDoc(doc, files, path, id);
    IconStep(d, id, varId, CostIconSize, Value(value), unit, None, boolIsInt)
  }

  const CostIconSize: real := 70.0

  /** A cost icon is an image update followed by an icon step. */
  lemma CostIconParts(doc: Node, files: Files, folder: string, id: string, varId: string,
                      value: Json.Value, lo: Json.Value, hi: Json.Value, stem: string, unit: string, boolIsInt: bool)
    requires CostIcon(doc, files, folder, id, varId, value, lo, hi, stem, unit, boolIsInt).Ok?
    ensures ValueMapper.GetLevelOf(value, lo, hi).Ok?
    ensures var path := CostAsset(folder, stem, ValueMapper.GetLevelOf(value, lo, hi).value);
      UpdateImageDoc(doc, files, path, id).Ok?
      && IconStep(UpdateImageDoc(doc, files, path, id).value, id, varId, CostIconSize, Value(value), unit, None, boolIsInt)
         == CostIcon(doc, files, folder, id, varId, value, lo, hi, stem, unit, boolIsInt)
  {
  }

  /** The cost icon's cell is the old cell with the level's asset in its
      images, adjusted to size 70 without a boundary circle. */
  lemma CostIconCell(doc: Node, files: Files, folder: string, id: string, varId: string,
                     value: Json.Value, lo: Json.Value, hi: Json.Value, stem: string, unit: string, boolIsInt: bool)
    requires CostIcon(doc, files, folder, id, varId, value, lo, hi, stem, unit, boolIsInt).Ok?
    ensures ValueMapper.GetLevelOf(value, lo, hi).Ok?
    ensures var level := ValueMapper.GetLevelOf(value, lo, hi).value;
      var path := CostAsset(folder, stem, level);
      1 <= level <= 3 && path in files && HasCell(doc, id)
      && IconCell(UpdateImage(Cell(doc, id).value, ImageMime(path), files[path]),
                  varId, CostIconSize, Value(value), unit, None, boolIsInt).Ok?
      && Cell(CostIcon(doc, files, folder, id, varId, value, lo, hi, stem, unit, boolIsInt).value, id)
         == IconCell(UpdateImage(Cell(doc, id).value, ImageMime(path), files[path]),
                     varId, CostIconSize, Value(value), unit, None, boolIsInt)
  {
    CostIconParts(doc, files, folder, id, varId, value, lo, hi, stem, unit, boolIsInt);
    var path := CostAsset(folder, stem, ValueMapper.GetLevelOf(value, lo, hi).value);
    var d := UpdateImageDoc(doc, files, path, id).value;
    var r := CostIcon(doc, files, folder, id, varId, value, lo, hi, stem, unit, boolIsInt);
    assert r == IconStep(d, id, varId, CostIconSize, Value(value), unit, None, boolIsInt);
    var c0 := Cell(doc, id).value;
    ImageStepCell(doc, files, path, id);
    assert Cell(d, id) == Ok(UpdateImage(c0, ImageMime(path), files[path]));
    IconStepCell(d, id, varId, CostIconSize, Value(value), unit, None, boolIsInt);
  }

  lemma ImageStepCell(doc: Node, files: Files, path: string, id: string)
    requires UpdateImageDoc(doc, files, path, id).Ok?
    ensures Cell(UpdateImageDoc(doc, files, path, id).value, id) == Ok(UpdateImage(Cell(doc, id).value, ImageMime(path), files[path]))
  {
    EditedCell(doc, id, ImageEdit(path, files[path]));
  }

  /** `update_image` puts the data URL into an image child and keeps the
      children in place. */
  lemma UpdatedImageChild(c: Node, mime: string, bytes: seq<bv8>, i: nat)
    requires i < |c.children| && TagHas(c.children[i].tag, "image")
    ensures var u := UpdateImage(c, mime, bytes);
            |u.children| == |c.children| && TagHas(u.children[i].tag, "image")
            && XlinkHref in u.children[i].attrs && u.children[i].attrs[XlinkHref] == DataUrl(mime, bytes)
  {
  }

  /** An image of an icon adjusted without a boundary keeps its link and
      takes the new size. */
  lemma IconImageFacts(u: Node, url: Attr, varId: string, size: real, value: IconValue, unit: string,
                       boolIsInt: bool, r: Icon, i: nat)
    requires AdjustIcon(u, varId, size, value, unit, None, boolIsInt) == Ok(r)
    requires i < |u.children| && TagHas(u.children[i].tag, "image")
    requires XlinkHref in u.children[i].attrs && u.children[i].attrs[XlinkHref] == url
    ensures |r.cell.children| == |u.children|
    ensures var img := r.cell.children[i].attrs;
            XlinkHref in img && "width" in img && img[XlinkHref] == url && img["width"] == Num(size)
  {
    assert XlinkHref != "x" && XlinkHref != "y" && XlinkHref != "width" && XlinkHref != "height";
    assert XlinkHref != "template-id";
    AdjustIconImageInPlace(u, varId, size, value, unit, boolIsInt, r, i, XlinkHref);
  }

  /** Every image of a cost icon shows the level's asset at size 70, and the
      cell gains no boundary circle. */
  lemma CostIconImages(doc: Node, files: Files, folder: string, id: string, varId: string,
                       value: Json.Value, lo: Json.Value, hi: Json.Value, stem: string, unit: string, boolIsInt: bool,
                       i: nat)
    requires CostIcon(doc, files, folder, id, varId, value, lo, hi, stem, unit, boolIsInt).Ok?
    requires HasCell(doc, id)
    requires i < |Cell(doc, id).value.children| && TagHas(Cell(doc, id).value.children[i].tag, "image")
    ensures ValueMapper.GetLevelOf(value, lo, hi).Ok?
    ensures var path := CostAsset(folder, stem, ValueMapper.GetLevelOf(value, lo, hi).value);
      var c := Cell(CostIcon(doc, files, folder, id, varId, value, lo, hi, stem, unit, boolIsInt).value, id);
      path in files && c.Ok? && |c.value.children| == |Cell(doc, id).value.children|
      && XlinkHref in c.value.children[i].attrs && "width" in c.value.children[i].attrs
      && c.value.children[i].attrs[XlinkHref] == DataUrl(ImageMime(path), files[path])
      && c.value.children[i].attrs["width"] == Num(CostIconSize)
  {
    CostIconCell(doc, files, folder, id, varId, value, lo, hi, stem, unit, boolIsInt);
    var path := CostAsset(folder, stem, ValueMapper.GetLevelOf(value, lo, hi).value);
    var u := UpdateImage(Cell(doc, id).value, ImageMime(path), files[path]);
    var ic := IconCell(u, varId, CostIconSize, Value(value), unit, None, boolIsInt);
    var r := AdjustIcon(u, varId, CostIconSize, Value(value), unit, None, boolIsInt).value;
    assert ic == Ok(r.cell);
    UpdatedImageChild(Cell(doc, id).value, ImageMime(path), files[path], i);
    IconImageFacts(u, DataUrl(ImageMime(path), files[path]), varId, CostIconSize, Value(value), unit, boolIsInt, r, i);
  }

  // ---------------------------------------------------------------------------
  // What the image and icon steps leave alone

  /** `update_image` keeps the document's shape and every cell apart from
      the one it edits. */
  lemma ImageStepKeeps(doc: Node, files: Files, path: string, id: string, other: string)
    requires UpdateImageDoc(doc, files, path, id).Ok?
    ensures SameShape(doc, UpdateImageDoc(doc, files, path, id).value)
    ensures Apart(doc, id, other) ==> Cell(UpdateImageDoc(doc, files, path, id).value, other) == Cell(doc, other)
  {
    UpdateImageKeepsShape(Cell(doc, id).value, ImageMime(path), files[path]);
    EditKeepsShape(doc, id, ImageEdit(path, files[path]));
    if Apart(doc, id, other) {
      EditElsewhere(doc, id, ImageEdit(path, files[path]), other);
    }
  }

  /** So does an icon step without a boundary circle. */
  lemma IconStepKeeps(doc: Node, id: string, varId: string, size: real, value: IconValue, unit: string,
                      boolIsInt: bool, other: string)
    requires IconStep(doc, id, varId, size, value, unit, None, boolIsInt).Ok?
    ensures SameShape(doc, IconStep(doc, id, varId, size, value, unit, None, boolIsInt).value)
    ensures Apart(doc, id, other) ==>
              Cell(IconStep(doc, id, varId, size, value, unit, None, boolIsInt).value, other) == Cell(doc, other)
  {
    var edit := (c: Node) => IconCell(c, varId, size, value, unit, None, boolIsInt);
    assert IconStep(doc, id, varId, size, value, unit, None, boolIsInt) == EditCell(doc, id, edit);
    AdjustIconKeepsShape(Cell(doc, id).value, varId, size, value, unit, boolIsInt);
    EditKeepsShape(doc, id, edit);
    if Apart(doc, id, other) {
      EditElsewhere(doc, id, edit, other);
    }
  }

  /** A cost icon keeps the document's shape and every cell apart from its own. */
  lemma CostIconKeeps(doc: Node, files: Files, folder: string, id: string, varId: string,
                      value: Json.Value, lo: Json.Value, hi: Json.Value, stem: string, unit: string,
                      boolIsInt: bool, other: string)
    requires CostIcon(doc, files, folder, id, varId, value, lo, hi, stem, unit, boolIsInt).Ok?
    ensures var r := CostIcon(doc, files, folder, id, varId, value, lo, hi, stem, unit, boolIsInt).value;
      HasCell(doc, id) && SameShape(doc, r) && (Apart(doc, id, other) ==> Cell(r, other) == Cell(doc, other))
  {
    CostIconParts(doc, files, folder, id, varId, value, lo, hi, stem, unit, boolIsInt);
    var path := CostAsset(folder, stem, ValueMapper.GetLevelOf(value, lo, hi).value);
    var d := UpdateImageDoc(doc, files, path, id).value;
    ImageStepKeeps(doc, files, path, id, other);
    IconStepKeeps(d, id, varId, CostIconSize, Value(value), unit, boolIsInt, other);
    SameShapeTrans(doc, d, CostIcon(doc, files, folder, id, varId, value, lo, hi, stem, unit, boolIsInt).value);
    if Apart(doc, id, other) {
      ApartShape(doc, d, id, other);
    }
  }

  /** A cost icon depends on nothing in the document but its own cell: on a
      document where that cell is the same, it succeeds and leaves the same cell. */
  lemma CostIconOwnCell(doc: Node, doc': Node, files: Files, folder: string, id: string, varId: string,
                        value: Json.Value, lo: Json.Value, hi: Json.Value, stem: string, unit: string,
                        boolIsInt: bool)
    requires CostIcon(doc, files, folder, id, varId, value, lo, hi, stem, unit, boolIsInt).Ok?
    requires Cell(doc', id) == Cell(doc, id)
    ensures CostIcon(doc', files, folder, id, varId, value, lo, hi, stem, unit, boolIsInt).Ok?
    ensures Cell(CostIcon(doc', files, folder, id, varId, value, lo, hi, stem, unit, boolIsInt).value, id)
            == Cell(CostIcon(doc, files, folder, id, varId, value, lo, hi, stem, unit, boolIsInt).value, id)
  {
    CostIconCell(doc, files, folder, id, varId, value, lo, hi, stem, unit, boolIsInt);
    var path := CostAsset(folder, stem, ValueMapper.GetLevelOf(value, lo, hi).value);
    var d' := UpdateImageDoc(doc', files, path, id).value;
    ImageStepCell(doc', files, path, id);
    IconStepCell(d', id, varId, CostIconSize, Value(value), unit, None, boolIsInt);
    CostIconParts(doc', files, folder, id, varId, value, lo, hi, stem, unit, boolIsInt);
    CostIconCell(doc', files, folder, id, varId, value, lo, hi, stem, unit, boolIsInt);
  }

  /** `change_color_text` keeps the document's shape and every cell apart
      from the one it recolours, which it recolours in place. */
  lemma ColorStepKeeps(doc: Node, color: string, id: string, other: string)
    requires ChangeColorDoc(doc, color, id).Ok?
    ensures SameShape(doc, ChangeColorDoc(doc, color, id).value)
    ensures Cell(ChangeColorDoc(doc, color, id).value, id) == Ok(ChangeColorText(Cell(doc, id).value, color))
    ensures Apart(doc, id, other) ==> Cell(ChangeColorDoc(doc, color, id).value, other) == Cell(doc, other)
  {
    var c := Cell(doc, id).value;
    ChangeColorKeepsShape(c, color);
    EditKeepsShape(doc, id, ColorEdit(color));
    SameShapeFind(c, ChangeColorText(c, color), id);
    EditedCell(doc, id, ColorEdit(color));
    if Apart(doc, id, other) {
      EditElsewhere(doc, id, ColorEdit(color), other);
    }
  }

  /** Filling a text box changes only texts. */
  lemma TextCellKeepsShape(c: Node, text: Result<Text, Error>)
    requires TextCell(c, text).Ok?
    ensures SameShape(c, TextCell(c, text).value)
  {
    SetTextsKeepShape(c.children, text);
    ChildrenKeepShape(c, TextCell(c, text).value, SetTexts(c.children, text).value);
  }

  lemma TextBoxShape(doc: Node, id: string, text: Result<Text, Error>)
    requires TextBox(doc, id, text).Ok?
    ensures SameShape(doc, TextBox(doc, id, text).value)
  {
    TextCellKeepsShape(Cell(doc, id).value, text);
    EditKeepsShape(doc, id, TextEdit(text));
  }

  /** A text box keeps the document's shape and every cell apart from its
      own, which it fills in place. */
  lemma TextBoxKeeps(doc: Node, id: string, text: Result<Text, Error>, other: string)
    requires TextBox(doc, id, text).Ok?
    ensures SameShape(doc, TextBox(doc, id, text).value)
    ensures Cell(TextBox(doc, id, text).value, id) == TextCell(Cell(doc, id).value, text)
    ensures Apart(doc, id, other) ==> Cell(TextBox(doc, id, text).value, other) == Cell(doc, other)
  {
    var c := Cell(doc, id).value;
    TextCellKeepsShape(c, text);
    EditKeepsShape(doc, id, TextEdit(text));
    EditedCell(doc, id, TextEdit(text));
    if Apart(doc, id, other) {
      EditElsewhere(doc, id, TextEdit(text), other);
    }
  }

  /** `change_text` keeps the document's shape and every cell apart from
      its own, which it rewrites in place. */
  lemma ChangeTextKeeps(doc: Node, id: string, t: Text, other: string)
    requires ChangeTextDoc(doc, id, t).Ok?
    ensures SameShape(doc, ChangeTextDoc(doc, id, t).value)
    ensures Cell(ChangeTextDoc(doc, id, t).value, id) == Ok(ChangeText(Cell(doc, id).value, t))
    ensures Apart(doc, id, other) ==> Cell(ChangeTextDoc(doc, id, t).value, other) == Cell(doc, other)
  {
    var c := Cell(doc, id).value;
    ChangeTextKeepsShape(c, t);
    EditKeepsShape(doc, id, ChangeTextEdit(t));
    EditedCell(doc, id, ChangeTextEdit(t));
    if Apart(doc, id, other) {
      EditElsewhere(doc, id, ChangeTextEdit(t), other);
    }
  }
}

=== FILE: strings.dfy ===
/** String searching and rewriting with the semantics of the Python operations
    the source uses: `re.search` first occurrences, `in`, `startswith`,
    `endswith`, `str.replace`, `str.split(...)[-1]` and `str(int)`. */
module Strings {
  import opened Wrappers

  /** `pat` occurs in `s` starting at index `i`. */
  predicate OccursAt(s: string, pat: string, i: nat) {
    i + |pat| <= |s| && s[i..i + |pat|] == pat
  }

  /** Python's `pat in s`. */
  predicate Contains(s: string, pat: string) {
    exists i: nat | i <= |s| :: OccursAt(s, pat, i)
  }

  predicate StartsWith(s: string, pre: string) {
    |pre| <= |s| && s[..|pre|] == pre
  }

  predicate EndsWith(s: string, suf: string) {
    |suf| <= |s| && s[|s| - |suf|..] == suf
  }

  /** The first index `k >= from` at which `pat` occurs in `s`. */
  function FindFrom(s: string, pat: string, from: nat): (r: Option<nat>)
    decreases |s| - from
  {
    if from + |pat| > |s| then None
    else if OccursAt(s, pat, from) then Some(from)
    else FindFrom(s, pat, from + 1)
  }

  /** FindFrom returns exactly the first occurrence at or after `from`. */
  lemma {:induction false} FindFromSpec(s: string, pat: string, from: nat)
    ensures FindFrom(s, pat, from).Some? ==>
      var k := FindFrom(s, pat, from).value;
      from <= k && OccursAt(s, pat, k) &&
      forall j: nat :: from <= j < k ==> !OccursAt(s, pat, j)
    ensures FindFrom(s, pat, from).None? ==>
      forall j: nat :: from <= j ==> !OccursAt(s, pat, j)
    decreases |s| - from
  {
    if from + |pat| > |s| {
    } else if OccursAt(s, pat, from) {
    } else {
      FindFromSpec(s, pat, from + 1);
    }
  }

  /** Conversely, an occurrence at `k` with none in `[from, k)` is what FindFrom finds. */
  lemma FindFromIs(s: string, pat: string, from: nat, k: nat)
    requires from <= k && OccursAt(s, pat, k)
    requires forall j: nat :: from <= j < k ==> !OccursAt(s, pat, j)
    ensures FindFrom(s, pat, from) == Some(k)
  {
    FindFromSpec(s, pat, from);
  }

  /** Python's `s.replace(pat, rep)`: left-to-right, non-overlapping. */
  function ReplaceAll(s: string, pat: string, rep: string): (r: string)
    requires |pat| > 0
    decreases |s|
  {
    if |s| < |pat| then s
    else if s[..|pat|] == pat then rep + ReplaceAll(s[|pat|..], pat, rep)
    else [s[0]] + ReplaceAll(s[1..], pat, rep)
  }

  /** An occurrence in the tail of a string is an occurrence one place later in the string. */
  lemma OccursInTail(s: string, pat: string, i: nat)
    requires |s| > 0
    ensures OccursAt(s[1..], pat, i) <==> OccursAt(s, pat, i + 1)
  {
    if i + 1 + |pat| <= |s| {
      assert s[1..][i..i + |pat|] == s[i + 1..i + 1 + |pat|];
    }
  }

  /** Replacement distributes over a concatenation when no occurrence of the
      pattern starts inside the left part. */
  lemma {:induction false} ReplaceAllAppend(s: string, t: string, pat: string, rep: string)
    requires |pat| > 0
    requires forall i: nat :: i < |s| ==> !OccursAt(s + t, pat, i)
    ensures ReplaceAll(s + t, pat, rep) == s + ReplaceAll(t, pat, rep)
    decreases |s|
  {
    var st := s + t;
    if |s| == 0 {
      assert st == t;
    } else if |st| < |pat| {
      assert ReplaceAll(t, pat, rep) == t;
    } else {
      assert !OccursAt(st, pat, 0);
      assert st[..|pat|] != pat;
      assert ReplaceAll(st, pat, rep) == [st[0]] + ReplaceAll(st[1..], pat, rep);
      assert st[1..] == s[1..] + t;
      forall i: nat | i < |s[1..]|
        ensures !OccursAt(s[1..] + t, pat, i)
      {
        OccursInTail(st, pat, i);
      }
      ReplaceAllAppend(s[1..], t, pat, rep);
      assert [s[0]] + s[1..] == s;
    }
  }

  /** The text after the last `sep`, or all of `s` when `sep` does not occur:
      Python's `s.split(sep)[-1]` for a one-character separator. */
  function LastSegment(s: string, sep: char): (r: string)
    decreases |s|
  {
    if |s| == 0 then s
    else if s[|s| - 1] == sep then []
    else LastSegment(s[..|s| - 1], sep) + [s[|s| - 1]]
  }

  lemma {:induction false} LastSegmentSpec(s: string, sep: char)
    ensures EndsWith(s, LastSegment(s, sep))
    ensures sep !in LastSegment(s, sep)
    ensures |LastSegment(s, sep)| < |s| ==> s[|s| - |LastSegment(s, sep)| - 1] == sep
    decreases |s|
  {
    if |s| == 0 || s[|s| - 1] == sep {
      assert LastSegment(s, sep) == [];
    } else {
      var p := s[..|s| - 1];
      LastSegmentSpec(p, sep);
      assert s == p + [s[|s| - 1]];
      SegmentGrows(p, LastSegment(p, sep), s[|s| - 1], sep);
    }
  }

  /** A separator-free suffix that follows a separator stays one when a
      character other than the separator is appended to both. */
  lemma SegmentGrows(p: string, q: string, c: char, sep: char)
    requires EndsWith(p, q) && sep !in q && c != sep
    requires |q| < |p| ==> p[|p| - |q| - 1] == sep
    ensures EndsWith(p + [c], q + [c]) && sep !in q + [c]
    ensures |q| + 1 < |p| + 1 ==> (p + [c])[|p| - |q| - 1] == sep
  {
    var s := p + [c];
    assert s[|s| - |q| - 1..] == p[|p| - |q|..] + [c];
  }

  /** The last `sep`-segment of `stem + [sep] + ext` is `ext` when `ext` holds no `sep`. */
  lemma {:induction false} LastSegmentOfExtension(stem: string, sep: char, ext: string)
    requires sep !in ext
    ensures LastSegment(stem + [sep] + ext, sep) == ext
    decreases |ext|
  {
    var s := stem + [sep] + ext;
    if |ext| == 0 {
      assert s[|s| - 1] == sep;
    } else {
      var e := ext[..|ext| - 1];
      assert s[..|s| - 1] == stem + [sep] + e;
      LastSegmentOfExtension(stem, sep, e);
      assert e + [ext[|ext| - 1]] == ext;
    }
  }

  function DigitChar(d: nat): char
    requires d < 10
  {
    "0123456789"[d]
  }

  /** Decimal rendering of a natural number, as `str(n)`. */
  function NatStr(n: nat): (r: string)
    decreases n
  {
    if n < 10 then [DigitChar(n)] else NatStr(n / 10) + [DigitChar(n % 10)]
  }

  /** Decimal rendering of an integer, as `str(i)`. */
  function IntStr(i: int): (r: string)
  {
    if i < 0 then "-" + NatStr(-i) else NatStr(i)
  }

  predicate IsDigit(c: char) { '0' <= c <= '9' }

  lemma {:induction false} NatStrDigits(n: nat)
    ensures |NatStr(n)| > 0
    ensures forall i :: 0 <= i < |NatStr(n)| ==> IsDigit(NatStr(n)[i])
    decreases n
  {
    if n >= 10 {
      NatStrDigits(n / 10);
    }
  }

  lemma DigitCharInjective(d: nat, e: nat)
    requires d < 10 && e < 10 && DigitChar(d) == DigitChar(e)
    ensures d == e
  {
  }

  /** Different numbers have different decimal renderings. */
  lemma {:induction false} NatStrInjective(a: nat, b: nat)
    requires NatStr(a) == NatStr(b)
    ensures a == b
    decreases a
  {
    if a < 10 && b < 10 {
      DigitCharInjective(a, b);
    } else if a < 10 {
      NatStrDigits(b / 10);
    } else if b < 10 {
      NatStrDigits(a / 10);
    } else {
      var s := NatStr(a);
      assert s == NatStr(a / 10) + [DigitChar(a % 10)];
      assert s == NatStr(b / 10) + [DigitChar(b % 10)];
      assert s[|s| - 1] == DigitChar(a % 10) == DigitChar(b % 10);
      DigitCharInjective(a % 10, b % 10);
      assert NatStr(a / 10) == s[..|s| - 1] == NatStr(b / 10);
      NatStrInjective(a / 10, b / 10);
    }
  }
}

=== FILE: svg.dfy ===
/** The SVG document as a tree: element tags in lxml's `{namespace}local`
    spelling, attribute maps, element text, and children in document order.
    Cells are found as the XPath `//svg:g[@id="cell-<id>"]` finds them, and
    replaced in place as lxml's in-place edits replace them. */
module Svg {
  import opened Wrappers
  import opened Failures
  import opened Strings

  const SvgNs: string := "{http://www.w3.org/2000/svg}"
  const XlinkHref: string := "{http://www.w3.org/1999/xlink}href"
  const GroupTag: string := SvgNs + "g"

  /** An attribute value. Numbers are kept as numbers (the source writes
      `str(x)` and reads back `float(...)`); an image reference is kept as
      its media type and the bytes whose base64 text the data URL carries. */
  datatype Attr =
    | Num(x: real)
    | Str(s: string)
    | DataUrl(mime: string, bytes: seq<bv8>)

  /** A piece of element text. Numbers stay symbolic: `Dec` is Python's
      `str()` of a float, `Fixed(x, p)` is the format `{x:.pf}`. */
  datatype Piece =
    | Lit(s: string)
    | IntText(i: int)
    | Dec(x: real)
    | Fixed(x: real, places: nat)

  type Text = seq<Piece>

  datatype Node = Node(tag: string, attrs: map<string, Attr>, text: Option<Text>, children: seq<Node>)

  function Set(n: Node, key: string, v: Attr): (r: Node)
    ensures r.tag == n.tag && r.children == n.children && r.text == n.text
    ensures r.attrs.Keys == n.attrs.Keys + {key} && r.attrs[key] == v
  {
    n.(attrs := n.attrs[key := v])
  }

  /** `n` is the element `//svg:g[@id="cell-<id>"]` selects. */
  predicate IsCell(n: Node, id: string) {
    n.tag == GroupTag && "id" in n.attrs && n.attrs["id"] == Str("cell-" + id)
  }

  /** Some element of the tree rooted at `n` is the cell `id`. */
  predicate HasCell(n: Node, id: string)
    decreases n
  {
    IsCell(n, id) || exists i :: 0 <= i < |n.children| && HasCell(n.children[i], id)
  }

  /** A path of child indices from the root. */
  type Path = seq<nat>

  predicate ValidPath(n: Node, p: Path)
    decreases |p|
  {
    |p| == 0 || (p[0] < |n.children| && ValidPath(n.children[p[0]], p[1..]))
  }

  function NodeAt(n: Node, p: Path): Node
    requires ValidPath(n, p)
    decreases |p|
  {
    if |p| == 0 then n else NodeAt(n.children[p[0]], p[1..])
  }

  /** The tree with the element at `p` replaced by `m`. */
  function ReplaceAt(n: Node, p: Path, m: Node): (r: Node)
    requires ValidPath(n, p)
    ensures ValidPath(r, p) && NodeAt(r, p) == m
    ensures |p| > 0 ==> r.tag == n.tag && r.attrs == n.attrs && |r.children| == |n.children|
    decreases |p|
  {
    if |p| == 0 then m
    else n.(children := n.children[p[0] := ReplaceAt(n.children[p[0]], p[1..], m)])
  }

  /** `p` leads to the first cell `id` in document order: every element
      visited before it (an ancestor, or anything in an earlier sibling's
      subtree) is not that cell. */
  predicate FirstInOrder(n: Node, p: Path, id: string)
    decreases |p|
  {
    if |p| == 0 then IsCell(n, id)
    else !IsCell(n, id) && p[0] < |n.children|
         && (forall j :: 0 <= j < p[0] ==> !HasCell(n.children[j], id))
         && FirstInOrder(n.children[p[0]], p[1..], id)
  }

  lemma {:induction false} FirstInOrderHasCell(n: Node, p: Path, id: string)
    requires FirstInOrder(n, p, id)
    ensures HasCell(n, id)
    decreases |p|
  {
    if |p| > 0 {
      FirstInOrderHasCell(n.children[p[0]], p[1..], id);
    }
  }

  /** There is only one first cell: two paths that both lead to the first
      cell `id` in document order are the same path. */
  lemma {:induction false} FirstInOrderUnique(n: Node, p: Path, q: Path, id: string)
    requires FirstInOrder(n, p, id) && FirstInOrder(n, q, id)
    ensures p == q
    decreases |p|
  {
    if |p| > 0 && |q| > 0 {
      if p[0] < q[0] {
        FirstInOrderHasCell(n.children[p[0]], p[1..], id);
      } else if q[0] < p[0] {
        FirstInOrderHasCell(n.children[q[0]], q[1..], id);
      } else {
        FirstInOrderUnique(n.children[p[0]], p[1..], q[1..], id);
        assert p == [p[0]] + p[1..] && q == [q[0]] + q[1..];
      }
    }
  }

  /** The path of the first element in document order that is the cell `id`:
      the element itself before its descendants, children left to right. */
  function Find(n: Node, id: string): (r: Option<Path>)
    ensures r.Some? ==> ValidPath(n, r.value) && IsCell(NodeAt(n, r.value), id)
    ensures r.Some? ==> FirstInOrder(n, r.value, id)
    ensures r.None? <==> !HasCell(n, id)
    decreases n
  {
    if IsCell(n, id) then Some([]) else FindIn(n, n.children, id, 0)
  }

  /** The first cell `id` under the children `from..` of `parent`. */
  function FindIn(parent: Node, children: seq<Node>, id: string, from: nat): (r: Option<Path>)
    requires children == parent.children
    ensures r.Some? ==> |r.value| > 0 && ValidPath(parent, r.value)
                        && IsCell(NodeAt(parent, r.value), id)
    ensures r.Some? ==> from <= r.value[0] < |children|
                        && (forall j :: from <= j < r.value[0] ==> !HasCell(children[j], id))
                        && FirstInOrder(children[r.value[0]], r.value[1..], id)
    ensures r.None? <==> forall i :: from <= i < |children| ==> !HasCell(children[i], id)
    decreases children, |children| - from
  {
    if from >= |children| then None
    else
      match Find(children[from], id)
      case Some(p) => Some([from] + p)
      case None => FindIn(parent, children, id, from + 1)
  }

  /** Editing the element at `p` leaves every element off that path as it was:
      for any other path `q` that neither extends nor is extended by `p`. */
  lemma {:induction false} ReplaceAtLeavesOthers(n: Node, p: Path, m: Node, q: Path)
    requires ValidPath(n, p) && ValidPath(n, q)
    requires !(|p| <= |q| && q[..|p|] == p) && !(|q| <= |p| && p[..|q|] == q)
    ensures ValidPath(ReplaceAt(n, p, m), q) && NodeAt(ReplaceAt(n, p, m), q) == NodeAt(n, q)
    decreases |p|
  {
    assert |p| > 0 && |q| > 0;
    var r := ReplaceAt(n, p, m);
    if p[0] != q[0] {
      assert r.children[q[0]] == n.children[q[0]];
    } else {
      if |p| <= |q| { assert q[1..][..|p| - 1] == q[..|p|][1..]; }
      if |q| <= |p| { assert p[1..][..|q| - 1] == p[..|q|][1..]; }
      ReplaceAtLeavesOthers(n.children[p[0]], p[1..], m, q[1..]);
    }
  }

  /** FindIn succeeds at child `k` exactly when no earlier child holds the
      cell and child `k` does. */
  lemma {:induction false} FindInAt(parent: Node, id: string, from: nat, k: nat, q: Path)
    requires from <= k < |parent.children|
    requires forall i :: from <= i < k ==> Find(parent.children[i], id).None?
    requires Find(parent.children[k], id) == Some(q)
    ensures FindIn(parent, parent.children, id, from) == Some([k] + q)
    decreases k - from
  {
    if from < k {
      FindInAt(parent, id, from + 1, k, q);
    }
  }

  /** FindIn's result names the first child holding the cell. */
  lemma {:induction false} FindInShape(parent: Node, id: string, from: nat)
    requires FindIn(parent, parent.children, id, from).Some?
    ensures var p := FindIn(parent, parent.children, id, from).value;
      from <= p[0] < |parent.children|
      && (forall i :: from <= i < p[0] ==> Find(parent.children[i], id).None?)
      && Find(parent.children[p[0]], id) == Some(p[1..])
    decreases |parent.children| - from
  {
    if Find(parent.children[from], id).None? {
      FindInShape(parent, id, from + 1);
    } else {
      var q := Find(parent.children[from], id).value;
      assert ([from] + q)[1..] == q;
    }
  }

  /** Replacing the cell `id` that Find located by another element that is
      also the cell `id` leaves Find pointing at the same place: nothing
      before it in document order has changed. */
  lemma {:induction false} FindAfterReplace(n: Node, id: string, m: Node)
    requires HasCell(n, id) && IsCell(m, id)
    ensures Find(ReplaceAt(n, Find(n, id).value, m), id) == Find(n, id)
    decreases n
  {
    var p := Find(n, id).value;
    if |p| > 0 {
      assert !IsCell(n, id);
      FindInShape(n, id, 0);
      var k := p[0];
      var child := n.children[k];
      assert Find(child, id) == Some(p[1..]);
      var r := ReplaceAt(n, p, m);
      assert r.children == n.children[k := ReplaceAt(child, p[1..], m)];
      FindAfterReplace(child, id, m);
      assert !IsCell(r, id);
      FindInAt(r, id, 0, k, p[1..]);
      assert [k] + p[1..] == p;
    }
  }

  /** Two different ids never name the same element. */
  lemma CellIdsDiffer(n: Node, a: string, b: string)
    requires IsCell(n, a) && IsCell(n, b)
    ensures a == b
  {
    assert ("cell-" + a)[5..] == a && ("cell-" + b)[5..] == b;
  }

  // ---------------------------------------------------------------------------
  // Edits that keep every cell in place

  /** The `id` attribute, the only one cell lookup reads besides the tag. */
  predicate SameId(a: map<string, Attr>, b: map<string, Attr>) {
    ("id" in a <==> "id" in b) && ("id" in a ==> a["id"] == b["id"])
  }

  /** `b` has the elements of `a` in the same places, with the same tags and
      ids; other attributes and texts may differ. Every in-place edit of the
      diagram generators keeps the shape of the document, which is why the
      elements `generate_diagram` looks up once at the start are still the
      ones a fresh lookup would find. */
  predicate SameShape(a: Node, b: Node)
    decreases a
  {
    a.tag == b.tag && SameId(a.attrs, b.attrs) && |a.children| == |b.children|
    && forall i :: 0 <= i < |a.children| ==> SameShape(a.children[i], b.children[i])
  }

  lemma {:induction false} SameShapeRefl(a: Node)
    ensures SameShape(a, a)
    decreases a
  {
    forall i | 0 <= i < |a.children| ensures SameShape(a.children[i], a.children[i]) {
      SameShapeRefl(a.children[i]);
    }
  }

  lemma {:induction false} SameShapeTrans(a: Node, b: Node, c: Node)
    requires SameShape(a, b) && SameShape(b, c)
    ensures SameShape(a, c)
    decreases a
  {
    forall i | 0 <= i < |a.children| ensures SameShape(a.children[i], c.children[i]) {
      SameShapeTrans(a.children[i], b.children[i], c.children[i]);
    }
  }

  /** Setting an attribute other than `id` keeps the shape. */
  lemma SetKeepsShape(n: Node, key: string, v: Attr)
    requires key != "id"
    ensures SameShape(n, Set(n, key, v))
  {
    SameShapeRefl(n);
  }

  /** Replacing the text keeps the shape. */
  lemma TextKeepsShape(n: Node, t: Option<Text>)
    ensures SameShape(n, n.(text := t))
  {
    SameShapeRefl(n);
  }

  /** Documents of the same shape have their cells at the same paths. */
  lemma {:induction false} SameShapeFind(a: Node, b: Node, id: string)
    requires SameShape(a, b)
    ensures Find(a, id) == Find(b, id)
    ensures HasCell(a, id) <==> HasCell(b, id)
    decreases a, 1, 0
  {
    if !IsCell(a, id) {
      SameShapeFindIn(a, b, id, 0);
    }
  }

  lemma {:induction false} SameShapeFindIn(a: Node, b: Node, id: string, from: nat)
    requires SameShape(a, b)
    ensures FindIn(a, a.children, id, from) == FindIn(b, b.children, id, from)
    decreases a, 0, |a.children| - from
  {
    if from < |a.children| {
      SameShapeFind(a.children[from], b.children[from], id);
      SameShapeFindIn(a, b, id, from + 1);
    }
  }

  /** Putting an element of the same shape in place of another keeps the
      shape of the whole document. */
  lemma {:induction false} ReplaceKeepsShape(n: Node, p: Path, m: Node)
    requires ValidPath(n, p) && SameShape(NodeAt(n, p), m)
    ensures SameShape(n, ReplaceAt(n, p, m))
    decreases |p|
  {
    if |p| > 0 {
      var r := ReplaceAt(n, p, m);
      ReplaceKeepsShape(n.children[p[0]], p[1..], m);
      forall i | 0 <= i < |n.children| ensures SameShape(n.children[i], r.children[i]) {
        if i != p[0] {
          SameShapeRefl(n.children[i]);
        }
      }
    }
  }

  /** Neither of the two cells contains the other. */
  predicate Apart(doc: Node, a: string, b: string) {
    HasCell(doc, a) && HasCell(doc, b) && Disjoint(Find(doc, a).value, Find(doc, b).value)
  }

  /** Neither path leads through the other. */
  predicate Disjoint(p: Path, q: Path) {
    !(|p| <= |q| && q[..|p|] == p) && !(|q| <= |p| && p[..|q|] == q)
  }

  /** Any two different ids of the list whose cells exist name cells apart. */
  predicate AllApart(doc: Node, ids: seq<string>) {
    forall i, j ::
      0 <= i < |ids| && 0 <= j < |ids| && ids[i] != ids[j] && HasCell(doc, ids[i]) && HasCell(doc, ids[j])
      ==> Apart(doc, ids[i], ids[j])
  }

  /** Documents of the same shape have the same cells apart. */
  lemma ApartShape(a: Node, b: Node, x: string, y: string)
    requires SameShape(a, b)
    ensures Apart(a, x, y) <==> Apart(b, x, y)
  {
    SameShapeFind(a, b, x);
    SameShapeFind(a, b, y);
  }

  lemma AllApartShape(a: Node, b: Node, ids: seq<string>)
    requires SameShape(a, b) && AllApart(a, ids)
    ensures AllApart(b, ids)
  {
    forall i, j | 0 <= i < |ids| && 0 <= j < |ids| && ids[i] != ids[j] && HasCell(b, ids[i]) && HasCell(b, ids[j])
      ensures Apart(b, ids[i], ids[j])
    {
      SameShapeFind(a, b, ids[i]);
      SameShapeFind(a, b, ids[j]);
      ApartShape(a, b, ids[i], ids[j]);
    }
  }

  /** Three cells edited one after the other by shape-keeping edits, each
      found where it is edited: when the three are apart in the original
      document they are apart before each edit. */
  lemma ThreeApart(doc: Node, d1: Node, d2: Node, a: string, b: string, c: string)
    requires SameShape(doc, d1) && SameShape(d1, d2)
    requires HasCell(doc, a) && HasCell(d1, b) && HasCell(d2, c)
    requires a != b && a != c && b != c && AllApart(doc, [a, b, c])
    ensures Apart(doc, a, b) && Apart(doc, a, c)
    ensures Apart(d1, b, a) && Apart(d1, b, c)
    ensures Apart(d2, c, a) && Apart(d2, c, b)
  {
    SameShapeTrans(doc, d1, d2);
    SameShapeFind(doc, d1, b);
    SameShapeFind(doc, d2, c);
    var ids := [a, b, c];
    assert Apart(doc, ids[0], ids[1]) && Apart(doc, ids[0], ids[2]) && Apart(doc, ids[1], ids[2]);
    assert Apart(doc, ids[1], ids[0]) && Apart(doc, ids[2], ids[0]) && Apart(doc, ids[2], ids[1]);
    ApartShape(doc, d1, b, a);
    ApartShape(doc, d1, b, c);
    ApartShape(doc, d2, c, a);
    ApartShape(doc, d2, c, b);
  }

  /** An edit that keeps the cell's shape keeps the shape of the document. */
  lemma EditKeepsShape(doc: Node, id: string, edit: Node -> Result<Node, Error>)
    requires EditCell(doc, id, edit).Ok?
    requires SameShape(Cell(doc, id).value, edit(Cell(doc, id).value).value)
    ensures SameShape(doc, EditCell(doc, id, edit).value)
  {
    ReplaceKeepsShape(doc, Find(doc, id).value, edit(Cell(doc, id).value).value);
  }

  /** Such an edit leaves every cell apart from the edited one as it was. */
  lemma EditElsewhere(doc: Node, id: string, edit: Node -> Result<Node, Error>, other: string)
    requires EditCell(doc, id, edit).Ok?
    requires SameShape(Cell(doc, id).value, edit(Cell(doc, id).value).value)
    requires Apart(doc, id, other)
    ensures Cell(EditCell(doc, id, edit).value, other) == Cell(doc, other)
  {
    var d := EditCell(doc, id, edit).value;
    var p := Find(doc, id).value;
    EditKeepsShape(doc, id, edit);
    SameShapeFind(doc, d, other);
    ReplaceAtLeavesOthers(doc, p, edit(NodeAt(doc, p)).value, Find(doc, other).value);
  }

  /** The attributes of an element's children, in order. */
  function ChildAttrs(n: Node): (r: seq<map<string, Attr>>)
    ensures |r| == |n.children|
    ensures forall i :: 0 <= i < |r| ==> r[i] == n.children[i].attrs
  {
    seq(|n.children|, i requires 0 <= i < |n.children| => n.children[i].attrs)
  }

  /** `m` differs from `c` at most in the attributes of `c`'s children. */
  predicate ChildAttrsOnly(c: Node, m: Node) {
    m.attrs == c.attrs && |m.children| == |c.children|
    && forall i :: 0 <= i < |c.children| ==> m.children[i].children == c.children[i].children
  }

  /** An edit of the children's attributes of the element at `p` leaves the
      children's attributes of every other element as they were, whether
      that element is above, below or beside `p`. */
  lemma {:induction false} OtherChildAttrs(n: Node, p: Path, m: Node, q: Path)
    requires ValidPath(n, p) && ValidPath(n, q) && p != q
    requires ChildAttrsOnly(NodeAt(n, p), m)
    ensures ValidPath(ReplaceAt(n, p, m), q)
    ensures ChildAttrs(NodeAt(ReplaceAt(n, p, m), q)) == ChildAttrs(NodeAt(n, q))
    decreases |p|
  {
    var r := ReplaceAt(n, p, m);
    if |p| == 0 {
      var c := n.children[q[0]];
      var mc := m.children[q[0]];
      assert mc.children == c.children;
      if |q| == 1 {
        assert NodeAt(r, q) == NodeAt(mc, q[1..]) == mc;
        assert NodeAt(n, q) == NodeAt(c, q[1..]) == c;
      } else {
        var q2 := q[1..][1..];
        assert ValidPath(c, q[1..]);
        assert ValidPath(c.children[q[1]], q2);
        assert NodeAt(n, q) == NodeAt(c, q[1..]) == NodeAt(c.children[q[1]], q2);
        assert NodeAt(r, q) == NodeAt(mc, q[1..]) == NodeAt(mc.children[q[1]], q2);
      }
    } else if |q| == 0 {
      var k := p[0];
      var c := n.children[k];
      if |p| == 1 {
        assert NodeAt(n, p) == NodeAt(c, p[1..]) == c;
      }
      assert r.children[k].attrs == c.attrs;
      assert ChildAttrs(r) == ChildAttrs(n);
    } else if p[0] != q[0] {
      assert r.children[q[0]] == n.children[q[0]];
    } else {
      assert p == [p[0]] + p[1..] && q == [q[0]] + q[1..];
      OtherChildAttrs(n.children[p[0]], p[1..], m, q[1..]);
    }
  }

  /** `obj = doc.xpath(...)` followed by `obj[0]`: the cell, or IndexError. */
  function Cell(doc: Node, id: string): (r: Result<Node, Error>)
    ensures r.Ok? <==> HasCell(doc, id)
    ensures r.Ok? ==> IsCell(r.value, id)
    ensures r.Ok? ==> exists p :: FirstInOrder(doc, p, id) && ValidPath(doc, p) && r.value == NodeAt(doc, p)
    ensures r.Err? ==> r.error == IndexError(id)
  {
    match Find(doc, id)
    case Some(p) => Ok(NodeAt(doc, p))
    case None => Err(IndexError(id))
  }

  /** An in-place edit of `obj[0]`: `edit` is applied to the first cell `id`
      and the edited element takes its place; IndexError when there is none. */
  function EditCell(doc: Node, id: string, edit: Node -> Result<Node, Error>): (r: Result<Node, Error>)
    ensures !HasCell(doc, id) ==> r == Err(IndexError(id))
    ensures HasCell(doc, id) && edit(Cell(doc, id).value).Err? ==> r == Err(edit(Cell(doc, id).value).error)
    ensures r.Ok? ==> var p := Find(doc, id).value;
      ValidPath(r.value, p) && NodeAt(r.value, p) == edit(NodeAt(doc, p)).value
  {
    match Find(doc, id)
    case None => Err(IndexError(id))
    case Some(p) =>
      var cell :- edit(NodeAt(doc, p));
      Ok(ReplaceAt(doc, p, cell))
  }

  /** An edit that keeps the element a cell `id` is found again where it
      was: looking the cell up after the edit gives the edited element. */
  lemma EditedCell(doc: Node, id: string, edit: Node -> Result<Node, Error>)
    requires EditCell(doc, id, edit).Ok?
    requires IsCell(edit(Cell(doc, id).value).value, id)
    ensures Cell(EditCell(doc, id, edit).value, id) == edit(Cell(doc, id).value)
  {
    var p := Find(doc, id).value;
    FindAfterReplace(doc, id, edit(NodeAt(doc, p)).value);
  }

  /** The required cells, looked up one after the other before anything is
      edited: the first one missing is reported, otherwise nothing happens. */
  function Resolve(doc: Node, ids: seq<string>): (r: Result<(), Error>)
    ensures r.Ok? <==> forall i :: 0 <= i < |ids| ==> HasCell(doc, ids[i])
    ensures r.Err? ==> exists k :: 0 <= k < |ids| && r.error == MissingCell(ids[k])
                        && !HasCell(doc, ids[k])
                        && forall i :: 0 <= i < k ==> HasCell(doc, ids[i])
  {
    if |ids| == 0 then Ok(())
    else if !HasCell(doc, ids[0]) then Err(MissingCell(ids[0]))
    else
      var rest := Resolve(doc, ids[1..]);
      if rest.Err? then
        var k :| 0 <= k < |ids[1..]| && rest.error == MissingCell(ids[1..][k])
                 && !HasCell(doc, ids[1..][k])
                 && forall i :: 0 <= i < k ==> HasCell(doc, ids[1..][i]);
        assert ids[k + 1] == ids[1..][k];
        rest
      else Ok(())
  }

  // ---------------------------------------------------------------------------
  // Child-level loops

  /** `for child in cell: if P(child.tag): edit(child)` for an attribute edit. */
  function MapChildren(children: seq<Node>, sel: string -> bool, edit: Node -> Node): (r: seq<Node>)
    ensures |r| == |children|
    ensures forall i :: 0 <= i < |r| ==> r[i] == (if sel(children[i].tag) then edit(children[i]) else children[i])
  {
    seq(|children|, i requires 0 <= i < |children| => if sel(children[i].tag) then edit(children[i]) else children[i])
  }

  /** Tag tests the source uses: substring and suffix of the tag. The
      substring test scans the tag from the left, as `part in tag` does. */
  predicate TagHas(tag: string, part: string) { TagHasFrom(tag, part, 0) }
  predicate TagEnds(tag: string, suffix: string) { EndsWith(tag, suffix) }

  predicate TagHasFrom(tag: string, part: string, i: nat)
    decreases |tag| - i
  {
    i + |part| <= |tag| && (OccursAt(tag, part, i) || TagHasFrom(tag, part, i + 1))
  }

  /** The scan finds exactly the occurrences at or after its start. */
  lemma {:induction false} TagHasFromIsOccurrence(tag: string, part: string, i: nat)
    ensures TagHasFrom(tag, part, i) <==> exists k: nat | i <= k <= |tag| :: OccursAt(tag, part, k)
    decreases |tag| - i
  {
    if i + |part| <= |tag| {
      TagHasFromIsOccurrence(tag, part, i + 1);
      if !OccursAt(tag, part, i) && !TagHasFrom(tag, part, i + 1) {
        forall k: nat | i <= k <= |tag| ensures !OccursAt(tag, part, k) {
          if k > i {
          }
        }
      }
    } else {
      forall k: nat | i <= k <= |tag| ensures !OccursAt(tag, part, k) {
      }
    }
  }

  /** The scan is Python's `in`. */
  lemma TagHasIsContains(tag: string, part: string)
    ensures TagHas(tag, part) <==> Contains(tag, part)
  {
    TagHasFromIsOccurrence(tag, part, 0);
  }

  lemma SvgGroupEndsWithG()
    ensures TagEnds(GroupTag, "g")
    ensures TagHas(GroupTag, "g")
  {
    assert GroupTag[|GroupTag| - 1..] == "g";
    assert OccursAt(GroupTag, "g", |GroupTag| - 1);
    TagHasIsContains(GroupTag, "g");
  }

  /** Every namespaced SVG tag contains the letter `g` (in `.../svg}`), so the
      test `'g' in child.tag` holds for images, rectangles and texts alike. */
  lemma EverySvgTagContainsG(local: string)
    ensures TagHas(SvgNs + local, "g")
  {
    var t := SvgNs + local;
    assert t[26..27] == "g";
    assert OccursAt(t, "g", 26);
    TagHasIsContains(t, "g");
  }
}

=== FILE: theme.dfy ===
/** The dark variant of the diagram (generate_results.py:419-460 and
    solhycool_visualizations/diagrams.py:353-393): dark background and
    logos, a recoloured symbols legend, light title and subtitle. */
module Theme {
  import opened Wrappers
  import opened Failures
  import opened Strings
  import opened Svg
  import opened Render
  import opened Steps

  const LightText: string := "#ECECEC"
  const LegendFill: string := "#333333"

  /** The legend cells are `juWprjBz31KtaNW54uK3-28` to `-56`. */
  const LegendFirst: nat := 28
  const LegendLast: nat := 56

  const LegendPrefix: string := "juWprjBz31KtaNW54uK3-"

  function LegendId(i: nat): string {
    LegendPrefix + NatStr(i)
  }

  /** The legend cells, in the loop's order. */
  const LegendIds: seq<string> := seq(LegendLast - LegendFirst + 1, i requires 0 <= i => LegendId(LegendFirst + i))

  /** Different legend indices name different cells. */
  lemma LegendIdInjective(a: nat, b: nat)
    requires LegendId(a) == LegendId(b)
    ensures a == b
  {
    assert NatStr(a) == LegendId(a)[|LegendPrefix|..] == LegendId(b)[|LegendPrefix|..] == NatStr(b);
    NatStrInjective(a, b);
  }

  /** One child of a legend cell. A rectangle that is the cell's only child
      becomes the dark box; every child whose tag contains `g` and not `rect`
      has its text elements lightened. */
  function LegendChild(child: Node, only: bool): (r: Node)
    ensures r.tag == child.tag && |r.children| == |child.children|
    ensures TagHas(child.tag, "rect") && only ==>
              r.attrs == child.attrs["fill" := Str(LegendFill)]["stroke" := Str(LightText)]
    ensures !(TagHas(child.tag, "rect") && only) ==> r.attrs == child.attrs
    ensures forall j :: 0 <= j < |child.children| ==>
              r.children[j] == (if TagHas(child.tag, "g") && !TagHas(child.tag, "rect") && IsTextTag(child.children[j].tag)
                                then Set(child.children[j], "fill", Str(LightText)) else child.children[j])
  {
    var c1 := if TagHas(child.tag, "rect") && only
              then Set(Set(child, "fill", Str(LegendFill)), "stroke", Str(LightText)) else child;
    if TagHas(c1.tag, "g") && !TagHas(c1.tag, "rect")
    then c1.(children := MapChildren(c1.children, IsTextTag, (n: Node) => Set(n, "fill", Str(LightText))))
    else c1
  }

  function LegendCell(c: Node): (r: Node)
    ensures r.tag == c.tag && r.attrs == c.attrs && |r.children| == |c.children|
    ensures forall j :: 0 <= j < |c.children| ==> r.children[j] == LegendChild(c.children[j], |c.children| == 1)
  {
    c.(children := seq(|c.children|, j requires 0 <= j < |c.children| => LegendChild(c.children[j], |c.children| == 1)))
  }

  /** Each namespaced SVG child of a legend cell other than a rectangle has
      its text elements lightened, whatever its kind: its tag contains the
      `g` of the namespace. */
  lemma LegendLightensEverySvgChild(child: Node, only: bool, local: string, j: nat)
    requires child.tag == SvgNs + local && !TagHas(child.tag, "rect")
    requires j < |child.children| && IsTextTag(child.children[j].tag)
    ensures LegendChild(child, only).children[j] == Set(child.children[j], "fill", Str(LightText))
  {
    EverySvgTagContainsG(local);
  }

  /** One legend cell recoloured in place. */
  function LegendEdit(doc: Node, id: string): (r: Node)
    requires HasCell(doc, id)
    ensures Cell(r, id) == Ok(LegendCell(Cell(doc, id).value))
  {
    EditedCell(doc, id, LegendCellEdit());
    EditCell(doc, id, LegendCellEdit()).value
  }

  function LegendCellEdit(): Node -> Result<Node, Error> {
    (n: Node) => Ok(LegendCell(n))
  }

  /** The legend loop from `from` to 56; a missing cell is skipped, so the
      loop cannot fail, and it keeps the document's shape. */
  function LegendPass(doc: Node, from: nat): (r: Node)
    ensures from > LegendLast ==> r == doc
    ensures SameShape(doc, r)
    decreases LegendLast + 1 - from
  {
    if from > LegendLast then
      SameShapeRefl(doc);
      doc
    else
      var id := LegendId(from);
      var d := if HasCell(doc, id) then LegendEdit(doc, id) else doc;
      LegendPassStep(doc, id);
      var r := LegendPass(d, from + 1);
      SameShapeTrans(doc, d, r);
      r
  }

  lemma LegendPassStep(doc: Node, id: string)
    ensures SameShape(doc, if HasCell(doc, id) then LegendEdit(doc, id) else doc)
  {
    if HasCell(doc, id) {
      LegendEditKeeps(doc, id, id);
    } else {
      SameShapeRefl(doc);
    }
  }

  /** The asset files of the dark variant. */
  const DarkBackground: string := "background_dark.jpg"
  const DarkLogoGobierno: string := "micin-uefeder-aei_letras_blancas.svg"
  const DarkLogoPsa: string := "logo_psa_letras_blancas_sin_fondo.svg"

  /** The dark pass: three image swaps (each reading its file before looking
      for its cell), the legend, then the title and subtitle colours. */
  function DarkPass(doc: Node, files: Files, folder: string): (r: Result<Node, Error>)
    ensures JoinPath(folder, DarkBackground) !in files ==> r == Err(FileNotFound(JoinPath(folder, DarkBackground)))
    ensures JoinPath(folder, DarkBackground) in files && !HasCell(doc, "background-image") ==>
              r == Err(IndexError("background-image"))
    ensures r.Ok? ==> JoinPath(folder, DarkBackground) in files && JoinPath(folder, DarkLogoGobierno) in files
                      && JoinPath(folder, DarkLogoPsa) in files && HasCell(doc, "background-image")
  {
    var d3 :- DarkImages(doc, files, folder);
    DarkColours(d3)
  }

  /** The first half of the dark pass: the background and the two logos. */
  function DarkImages(doc: Node, files: Files, folder: string): (r: Result<Node, Error>)
    ensures JoinPath(folder, DarkBackground) !in files ==> r == Err(FileNotFound(JoinPath(folder, DarkBackground)))
    ensures JoinPath(folder, DarkBackground) in files && !HasCell(doc, "background-image") ==>
              r == Err(IndexError("background-image"))
    ensures r.Ok? ==> JoinPath(folder, DarkBackground) in files && JoinPath(folder, DarkLogoGobierno) in files
                      && JoinPath(folder, DarkLogoPsa) in files && HasCell(doc, "background-image")
  {
    var d1 :- UpdateImageDoc(doc, files, JoinPath(folder, DarkBackground), "background-image");
    var d2 :- UpdateImageDoc(d1, files, JoinPath(folder, DarkLogoGobierno), "logo-gobierno");
    UpdateImageDoc(d2, files, JoinPath(folder, DarkLogoPsa), "logo-psa")
  }

  /** The second half of the dark pass: the legend, then the two titles. */
  function DarkColours(d3: Node): Result<Node, Error> {
    DarkTitles(LegendPass(d3, LegendFirst))
  }

  /** The title, then the subtitle, in the light colour. */
  function DarkTitles(d4: Node): Result<Node, Error> {
    var d5 :- ChangeColorDoc(d4, LightText, "titulo");
    ChangeColorDoc(d5, LightText, "subtitulo")
  }

  // ---------------------------------------------------------------------------
  // What the dark pass changes

  /** Recolouring a legend cell keeps its shape. */
  lemma LegendChildKeepsShape(child: Node, only: bool)
    ensures SameShape(child, LegendChild(child, only))
  {
    var r := LegendChild(child, only);
    assert "fill" != "id" && "stroke" != "id";
    forall j | 0 <= j < |child.children| ensures SameShape(child.children[j], r.children[j]) {
      if TagHas(child.tag, "g") && !TagHas(child.tag, "rect") && IsTextTag(child.children[j].tag) {
        SetKeepsShape(child.children[j], "fill", Str(LightText));
      } else {
        SameShapeRefl(child.children[j]);
      }
    }
  }

  lemma LegendEditKeeps(doc: Node, id: string, other: string)
    requires HasCell(doc, id)
    ensures SameShape(doc, LegendEdit(doc, id))
    ensures Apart(doc, id, other) ==> Cell(LegendEdit(doc, id), other) == Cell(doc, other)
  {
    var c := Cell(doc, id).value;
    forall j | 0 <= j < |c.children| ensures SameShape(c.children[j], LegendCell(c).children[j]) {
      LegendChildKeepsShape(c.children[j], |c.children| == 1);
    }
    EditKeepsShape(doc, id, LegendCellEdit());
    if Apart(doc, id, other) {
      EditElsewhere(doc, id, LegendCellEdit(), other);
    }
  }

  /** The legend cells from `from` on are all listed in `ids`. */
  predicate LegendListed(ids: seq<string>, from: nat)
    decreases LegendLast + 1 - from
  {
    from > LegendLast || (LegendId(from) in ids && LegendListed(ids, from + 1))
  }

  /** `x` is none of the legend cells from `from` on. */
  predicate NotLegend(x: string, from: nat)
    decreases LegendLast + 1 - from
  {
    from > LegendLast || (LegendId(from) != x && NotLegend(x, from + 1))
  }

  lemma {:induction false} LegendListedOf(ids: seq<string>, from: nat)
    requires forall k :: from <= k <= LegendLast ==> LegendId(k) in ids
    ensures LegendListed(ids, from)
    decreases LegendLast + 1 - from
  {
    if from <= LegendLast {
      LegendListedOf(ids, from + 1);
    }
  }

  /** Conversely, a listed legend cell is in `ids`. */
  lemma {:induction false} LegendListedAt(ids: seq<string>, from: nat, k: nat)
    requires LegendListed(ids, from) && from <= k <= LegendLast
    ensures LegendId(k) in ids
    decreases k - from
  {
    if from < k {
      LegendListedAt(ids, from + 1, k);
    }
  }

  lemma {:induction false} NotLegendOf(x: string, from: nat)
    requires forall k :: from <= k <= LegendLast ==> LegendId(k) != x
    ensures NotLegend(x, from)
    decreases LegendLast + 1 - from
  {
    if from <= LegendLast {
      NotLegendOf(x, from + 1);
    }
  }

  /** A legend cell is none of the legend cells after it. */
  lemma NotLegendAfter(k: nat, from: nat)
    requires from > k
    ensures NotLegend(LegendId(k), from)
  {
    forall m | from <= m <= LegendLast ensures LegendId(m) != LegendId(k) {
      if LegendId(m) == LegendId(k) {
        LegendIdInjective(m, k);
      }
    }
    NotLegendOf(LegendId(k), from);
  }

  /** Among cells apart from one another, the legend loop leaves every cell
      that is not one of its legend cells as it was. */
  lemma {:induction false} LegendPassElsewhere(doc: Node, from: nat, ids: seq<string>, i: nat)
    requires AllApart(doc, ids) && i < |ids|
    requires LegendListed(ids, from) && NotLegend(ids[i], from)
    ensures Cell(LegendPass(doc, from), ids[i]) == Cell(doc, ids[i])
    decreases LegendLast + 1 - from
  {
    if from <= LegendLast {
      var id := LegendId(from);
      var d := if HasCell(doc, id) then LegendEdit(doc, id) else doc;
      if HasCell(doc, id) {
        LegendEditKeeps(doc, id, ids[i]);
        SameShapeFind(doc, d, ids[i]);
        if HasCell(doc, ids[i]) {
          var j :| 0 <= j < |ids| && ids[j] == id;
          assert Apart(doc, ids[j], ids[i]);
        }
        AllApartShape(doc, d, ids);
      }
      LegendPassElsewhere(d, from + 1, ids, i);
    }
  }

  /** Among cells apart from one another, the legend loop recolours each
      legend cell it finds, once. */
  lemma {:induction false} LegendPassCell(doc: Node, from: nat, ids: seq<string>, k: nat)
    requires AllApart(doc, ids) && LegendListed(ids, from)
    requires from <= k <= LegendLast && HasCell(doc, LegendId(k))
    ensures Cell(LegendPass(doc, from), LegendId(k)) == Ok(LegendCell(Cell(doc, LegendId(k)).value))
    decreases k - from
  {
    if from == k {
      LegendPassCellHere(doc, ids, k);
    } else {
      LegendPassCellSkip(doc, from, ids, k);
      LegendPassCell(if HasCell(doc, LegendId(from)) then LegendEdit(doc, LegendId(from)) else doc, from + 1, ids, k);
    }
  }

  /** The legend cell the loop is at is recoloured, and the rest of the loop
      leaves it alone. */
  lemma LegendPassCellHere(doc: Node, ids: seq<string>, k: nat)
    requires AllApart(doc, ids) && LegendListed(ids, k)
    requires k <= LegendLast && HasCell(doc, LegendId(k))
    ensures Cell(LegendPass(doc, k), LegendId(k)) == Ok(LegendCell(Cell(doc, LegendId(k)).value))
  {
    var id := LegendId(k);
    var d := LegendEdit(doc, id);
    var i :| 0 <= i < |ids| && ids[i] == id;
    NotLegendAfter(k, k + 1);
    LegendEditKeeps(doc, id, id);
    AllApartShape(doc, d, ids);
    LegendPassElsewhere(d, k + 1, ids, i);
  }

  /** A step of the loop at another legend cell leaves the legend cell `k`
      as it was. */
  lemma LegendPassCellSkip(doc: Node, from: nat, ids: seq<string>, k: nat)
    requires AllApart(doc, ids) && LegendListed(ids, from)
    requires from < k <= LegendLast && HasCell(doc, LegendId(k))
    ensures var d := if HasCell(doc, LegendId(from)) then LegendEdit(doc, LegendId(from)) else doc;
      AllApart(d, ids) && LegendListed(ids, from + 1) && HasCell(d, LegendId(k))
      && Cell(d, LegendId(k)) == Cell(doc, LegendId(k))
  {
    var id := LegendId(from);
    if id == LegendId(k) {
      LegendIdInjective(from, k);
    }
    if HasCell(doc, id) {
      var d := LegendEdit(doc, id);
      var i :| 0 <= i < |ids| && ids[i] == id;
      LegendListedAt(ids, from, k);
      var j :| 0 <= j < |ids| && ids[j] == LegendId(k);
      assert Apart(doc, ids[i], ids[j]);
      LegendEditKeeps(doc, id, LegendId(k));
      AllApartShape(doc, d, ids);
      SameShapeFind(doc, d, LegendId(k));
    }
  }

  /** The cells the dark pass edits: the three images, the two titles and
      the legend. */
  const DarkFixedCells: seq<string> := ["background-image", "logo-gobierno", "logo-psa", "titulo", "subtitulo"]
  const DarkCells: seq<string> := DarkFixedCells + LegendIds

  /** Every cell the dark pass edits is listed in `ids`. */
  predicate ListsDarkCells(ids: seq<string>) {
    (forall i :: 0 <= i < |DarkFixedCells| ==> DarkFixedCells[i] in ids) && LegendListed(ids, LegendFirst)
  }

  lemma DarkCellsListed(ids: seq<string>)
    requires DarkCells <= ids
    ensures ListsDarkCells(ids)
  {
    forall i | 0 <= i < |DarkFixedCells| ensures DarkFixedCells[i] in ids {
      assert ids[i] == DarkCells[i] == DarkFixedCells[i];
    }
    forall k | LegendFirst <= k <= LegendLast ensures LegendId(k) in ids {
      assert ids[|DarkFixedCells| + k - LegendFirst] == LegendIds[k - LegendFirst];
    }
    LegendListedOf(ids, LegendFirst);
  }

  lemma FixedCellsListed(ids: seq<string>)
    requires ListsDarkCells(ids)
    ensures "background-image" in ids && "logo-gobierno" in ids && "logo-psa" in ids
    ensures "titulo" in ids && "subtitulo" in ids
  {
    assert DarkFixedCells[0] in ids && DarkFixedCells[1] in ids && DarkFixedCells[2] in ids;
    assert DarkFixedCells[3] in ids && DarkFixedCells[4] in ids;
  }

  /** A legend cell is none of the fixed cells: its id is longer. */
  lemma LegendIdNotFixed(k: nat)
    ensures LegendId(k) !in DarkFixedCells
  {
    NatStrDigits(k);
  }

  /** One image swap, on a document `d` of the same shape as a document
      `d0` whose cells `ids` are apart from one another. */
  lemma ImageStepOn(d0: Node, d: Node, files: Files, path: string, id: string, ids: seq<string>, x: string)
    requires UpdateImageDoc(d, files, path, id).Ok?
    requires AllApart(d0, ids) && SameShape(d0, d) && id in ids && x in ids && HasCell(d, x)
    ensures var d' := UpdateImageDoc(d, files, path, id).value;
      SameShape(d0, d') && HasCell(d', x)
      && Cell(d', x) == if x == id then Ok(UpdateImage(Cell(d, x).value, ImageMime(path), files[path])) else Cell(d, x)
  {
    var d' := UpdateImageDoc(d, files, path, id).value;
    AllApartShape(d0, d, ids);
    ImageStepKeeps(d, files, path, id, x);
    SameShapeFind(d, d', x);
    SameShapeTrans(d0, d, d');
    if x == id {
      ImageStepCell(d, files, path, id);
    }
  }

  /** One title recoloured, likewise. */
  lemma ColorStepOn(d0: Node, d: Node, id: string, ids: seq<string>, x: string)
    requires ChangeColorDoc(d, LightText, id).Ok?
    requires AllApart(d0, ids) && SameShape(d0, d) && id in ids && x in ids && HasCell(d, x)
    ensures var d' := ChangeColorDoc(d, LightText, id).value;
      SameShape(d0, d') && HasCell(d', x)
      && Cell(d', x) == if x == id then Ok(ChangeColorText(Cell(d, x).value, LightText)) else Cell(d, x)
  {
    var d' := ChangeColorDoc(d, LightText, id).value;
    AllApartShape(d0, d, ids);
    ColorStepKeeps(d, LightText, id, x);
    SameShapeFind(d, d', x);
    SameShapeTrans(d0, d, d');
  }

  /** The legend loop, likewise, for a cell that is not a legend cell. */
  lemma LegendStepOn(d0: Node, d: Node, ids: seq<string>, x: string)
    requires AllApart(d0, ids) && SameShape(d0, d) && LegendListed(ids, LegendFirst) && x in ids && HasCell(d, x)
    requires NotLegend(x, LegendFirst)
    ensures var d' := LegendPass(d, LegendFirst);
      SameShape(d0, d') && HasCell(d', x) && Cell(d', x) == Cell(d, x)
  {
    var i :| 0 <= i < |ids| && ids[i] == x;
    AllApartShape(d0, d, ids);
    LegendPassElsewhere(d, LegendFirst, ids, i);
    SameShapeTrans(d0, d, LegendPass(d, LegendFirst));
  }

  /** The dark pass succeeds exactly as its two halves one after the other. */
  lemma DarkPassSteps(doc: Node, files: Files, folder: string)
    requires DarkPass(doc, files, folder).Ok?
    ensures DarkImages(doc, files, folder).Ok?
    ensures DarkColours(DarkImages(doc, files, folder).value) == DarkPass(doc, files, folder)
  {
  }

  /** What the dark pass leaves in a cell that is not a legend cell, among
      cells apart from one another: the new image in the three image cells,
      the light colour in the two titles, anything else as it was. */
  lemma DarkChain(doc: Node, files: Files, folder: string, ids: seq<string>, x: string)
    requires DarkPass(doc, files, folder).Ok?
    requires AllApart(doc, ids) && ListsDarkCells(ids) && x in ids && HasCell(doc, x)
    requires NotLegend(x, LegendFirst)
    ensures Cell(DarkPass(doc, files, folder).value, x) ==
      var c := Cell(doc, x).value;
      if x == "background-image" then Ok(UpdateImage(c, ImageMime(JoinPath(folder, DarkBackground)), files[JoinPath(folder, DarkBackground)]))
      else if x == "logo-gobierno" then Ok(UpdateImage(c, ImageMime(JoinPath(folder, DarkLogoGobierno)), files[JoinPath(folder, DarkLogoGobierno)]))
      else if x == "logo-psa" then Ok(UpdateImage(c, ImageMime(JoinPath(folder, DarkLogoPsa)), files[JoinPath(folder, DarkLogoPsa)]))
      else if x == "titulo" || x == "subtitulo" then Ok(ChangeColorText(c, LightText))
      else Cell(doc, x)
  {
    DarkPassSteps(doc, files, folder);
    FixedCellsListed(ids);
    DarkImagesOn(doc, files, folder, ids, x);
    DarkTailOn(doc, DarkImages(doc, files, folder).value, ids, x);
  }

  /** The three image swaps, among cells apart from one another. */
  lemma DarkImagesOn(doc: Node, files: Files, folder: string, ids: seq<string>, x: string)
    requires DarkImages(doc, files, folder).Ok?
    requires AllApart(doc, ids) && x in ids && HasCell(doc, x)
    requires "background-image" in ids && "logo-gobierno" in ids && "logo-psa" in ids
    ensures var d3 := DarkImages(doc, files, folder).value;
      var c := Cell(doc, x).value;
      HasCell(d3, x) && SameShape(doc, d3)
      && Cell(d3, x) ==
           if x == "background-image" then Ok(UpdateImage(c, ImageMime(JoinPath(folder, DarkBackground)), files[JoinPath(folder, DarkBackground)]))
           else if x == "logo-gobierno" then Ok(UpdateImage(c, ImageMime(JoinPath(folder, DarkLogoGobierno)), files[JoinPath(folder, DarkLogoGobierno)]))
           else if x == "logo-psa" then Ok(UpdateImage(c, ImageMime(JoinPath(folder, DarkLogoPsa)), files[JoinPath(folder, DarkLogoPsa)]))
           else Cell(doc, x)
  {
    var d1 := UpdateImageDoc(doc, files, JoinPath(folder, DarkBackground), "background-image").value;
    var d2 := UpdateImageDoc(d1, files, JoinPath(folder, DarkLogoGobierno), "logo-gobierno").value;
    SameShapeRefl(doc);
    ImageStepOn(doc, doc, files, JoinPath(folder, DarkBackground), "background-image", ids, x);
    ImageStepOn(doc, d1, files, JoinPath(folder, DarkLogoGobierno), "logo-gobierno", ids, x);
    ImageStepOn(doc, d2, files, JoinPath(folder, DarkLogoPsa), "logo-psa", ids, x);
  }

  /** The legend and the two titles, among cells apart from one another. */
  lemma DarkTailOn(doc: Node, d3: Node, ids: seq<string>, x: string)
    requires DarkColours(d3).Ok?
    requires AllApart(doc, ids) && SameShape(doc, d3) && LegendListed(ids, LegendFirst) && x in ids && HasCell(d3, x)
    requires "titulo" in ids && "subtitulo" in ids && NotLegend(x, LegendFirst)
    ensures var r := DarkColours(d3).value;
      SameShape(doc, r)
      && Cell(r, x) == if x == "titulo" || x == "subtitulo" then Ok(ChangeColorText(Cell(d3, x).value, LightText)) else Cell(d3, x)
  {
    LegendStepOn(doc, d3, ids, x);
    DarkTitlesOn(doc, d3, LegendPass(d3, LegendFirst), ids, x);
  }

  /** The two titles, among cells apart from one another, after a step that
      left the cell `x` of `d3` as it was in `d4`. */
  lemma DarkTitlesOn(doc: Node, d3: Node, d4: Node, ids: seq<string>, x: string)
    requires DarkTitles(d4).Ok?
    requires AllApart(doc, ids) && SameShape(doc, d4) && x in ids && HasCell(d4, x) && Cell(d4, x) == Cell(d3, x)
    requires "titulo" in ids && "subtitulo" in ids
    ensures var r := DarkTitles(d4).value;
      SameShape(doc, r)
      && Cell(r, x) == if x == "titulo" || x == "subtitulo" then Ok(ChangeColorText(Cell(d3, x).value, LightText)) else Cell(d3, x)
  {
    var d5 := ChangeColorDoc(d4, LightText, "titulo").value;
    ColorStepOn(doc, d4, "titulo", ids, x);
    ColorStepOn(doc, d5, "subtitulo", ids, x);
  }

  // ---------------------------------------------------------------------------
  // The dark pass as a whole

  /** The image half succeeds exactly when its three files and its three
      cells exist, and keeps the document's shape. */
  lemma DarkImagesKeeps(doc: Node, files: Files, folder: string)
    ensures DarkImages(doc, files, folder).Ok? <==>
      JoinPath(folder, DarkBackground) in files && JoinPath(folder, DarkLogoGobierno) in files
      && JoinPath(folder, DarkLogoPsa) in files
      && HasCell(doc, "background-image") && HasCell(doc, "logo-gobierno") && HasCell(doc, "logo-psa")
    ensures DarkImages(doc, files, folder).Ok? ==> SameShape(doc, DarkImages(doc, files, folder).value)
  {
    var d1 := UpdateImageDoc(doc, files, JoinPath(folder, DarkBackground), "background-image");
    if d1.Ok? {
      ImageStepKeeps(doc, files, JoinPath(folder, DarkBackground), "background-image", "background-image");
      SameShapeFind(doc, d1.value, "logo-gobierno");
      SameShapeFind(doc, d1.value, "logo-psa");
      var d2 := UpdateImageDoc(d1.value, files, JoinPath(folder, DarkLogoGobierno), "logo-gobierno");
      if d2.Ok? {
        ImageStepKeeps(d1.value, files, JoinPath(folder, DarkLogoGobierno), "logo-gobierno", "logo-gobierno");
        SameShapeFind(d1.value, d2.value, "logo-psa");
        SameShapeTrans(doc, d1.value, d2.value);
        var d3 := UpdateImageDoc(d2.value, files, JoinPath(folder, DarkLogoPsa), "logo-psa");
        if d3.Ok? {
          ImageStepKeeps(d2.value, files, JoinPath(folder, DarkLogoPsa), "logo-psa", "logo-psa");
          SameShapeTrans(doc, d2.value, d3.value);
        }
      }
    }
  }

  /** The title half succeeds exactly when both titles exist, and keeps the
      document's shape. */
  lemma DarkTitlesKeeps(d4: Node)
    ensures DarkTitles(d4).Ok? <==> HasCell(d4, "titulo") && HasCell(d4, "subtitulo")
    ensures DarkTitles(d4).Ok? ==> SameShape(d4, DarkTitles(d4).value)
  {
    var d5 := ChangeColorDoc(d4, LightText, "titulo");
    if d5.Ok? {
      ColorStepKeeps(d4, LightText, "titulo", "titulo");
      SameShapeFind(d4, d5.value, "subtitulo");
      var r := ChangeColorDoc(d5.value, LightText, "subtitulo");
      if r.Ok? {
        ColorStepKeeps(d5.value, LightText, "subtitulo", "subtitulo");
        SameShapeTrans(d4, d5.value, r.value);
      }
    }
  }

  /** The colour half likewise: the legend loop cannot fail. */
  lemma DarkColoursKeeps(d3: Node)
    ensures DarkColours(d3).Ok? <==> HasCell(d3, "titulo") && HasCell(d3, "subtitulo")
    ensures DarkColours(d3).Ok? ==> SameShape(d3, DarkColours(d3).value)
  {
    var d4 := LegendPass(d3, LegendFirst);
    SameShapeFind(d3, d4, "titulo");
    SameShapeFind(d3, d4, "subtitulo");
    DarkTitlesKeeps(d4);
    if DarkTitles(d4).Ok? {
      SameShapeTrans(d3, d4, DarkTitles(d4).value);
    }
  }

  /** The dark pass succeeds exactly when its three files and its five fixed
      cells exist (the legend cells may be missing), and it keeps the
      document's shape. */
  lemma DarkPassKeeps(doc: Node, files: Files, folder: string)
    ensures DarkPass(doc, files, folder).Ok? <==>
      JoinPath(folder, DarkBackground) in files && JoinPath(folder, DarkLogoGobierno) in files
      && JoinPath(folder, DarkLogoPsa) in files
      && forall i :: 0 <= i < |DarkFixedCells| ==> HasCell(doc, DarkFixedCells[i])
    ensures DarkPass(doc, files, folder).Ok? ==> SameShape(doc, DarkPass(doc, files, folder).value)
  {
    FixedCellsPresent(doc);
    DarkImagesKeeps(doc, files, folder);
    var d3 := DarkImages(doc, files, folder);
    if d3.Ok? {
      SameShapeFind(doc, d3.value, "titulo");
      SameShapeFind(doc, d3.value, "subtitulo");
      DarkColoursKeeps(d3.value);
      if DarkColours(d3.value).Ok? {
        SameShapeTrans(doc, d3.value, DarkColours(d3.value).value);
      }
    }
  }

  lemma FixedCellsPresent(doc: Node)
    ensures (forall i :: 0 <= i < |DarkFixedCells| ==> HasCell(doc, DarkFixedCells[i])) <==>
      HasCell(doc, "background-image") && HasCell(doc, "logo-gobierno") && HasCell(doc, "logo-psa")
      && HasCell(doc, "titulo") && HasCell(doc, "subtitulo")
  {
    assert DarkFixedCells[0] == "background-image" && DarkFixedCells[1] == "logo-gobierno";
    assert DarkFixedCells[2] == "logo-psa" && DarkFixedCells[3] == "titulo" && DarkFixedCells[4] == "subtitulo";
  }

  lemma LegendIdInDarkCells(k: nat)
    requires LegendFirst <= k <= LegendLast
    ensures LegendId(k) in DarkCells
  {
    assert DarkCells[|DarkFixedCells| + k - LegendFirst] == LegendIds[k - LegendFirst] == LegendId(k);
  }

  /** A fixed cell is no legend cell. */
  lemma FixedNotLegend(x: string)
    requires x in DarkFixedCells
    ensures NotLegend(x, LegendFirst)
  {
    forall k | LegendFirst <= k <= LegendLast ensures LegendId(k) != x {
      LegendIdNotFixed(k);
    }
    NotLegendOf(x, LegendFirst);
  }

  /** What the dark pass leaves in one fixed cell, when the cells it edits
      are apart from one another. */
  lemma DarkPassFixed(doc: Node, files: Files, folder: string, x: string)
    requires DarkPass(doc, files, folder).Ok? && AllApart(doc, DarkCells) && x in DarkFixedCells
    ensures HasCell(doc, x)
    ensures Cell(DarkPass(doc, files, folder).value, x) ==
      var c := Cell(doc, x).value;
      if x == "background-image" then Ok(UpdateImage(c, ImageMime(JoinPath(folder, DarkBackground)), files[JoinPath(folder, DarkBackground)]))
      else if x == "logo-gobierno" then Ok(UpdateImage(c, ImageMime(JoinPath(folder, DarkLogoGobierno)), files[JoinPath(folder, DarkLogoGobierno)]))
      else if x == "logo-psa" then Ok(UpdateImage(c, ImageMime(JoinPath(folder, DarkLogoPsa)), files[JoinPath(folder, DarkLogoPsa)]))
      else if x == "titulo" || x == "subtitulo" then Ok(ChangeColorText(c, LightText))
      else Cell(doc, x)
  {
    DarkPassKeeps(doc, files, folder);
    DarkCellsListed(DarkCells);
    FixedNotLegend(x);
    assert x in DarkCells;
    DarkChain(doc, files, folder, DarkCells, x);
  }

  /** What the dark pass does to the cells it edits, when they are apart from
      one another: the three images are swapped and the two titles lightened. */
  lemma DarkPassCells(doc: Node, files: Files, folder: string)
    requires DarkPass(doc, files, folder).Ok? && AllApart(doc, DarkCells)
    ensures var r := DarkPass(doc, files, folder).value;
      var bg := JoinPath(folder, DarkBackground);
      var gob := JoinPath(folder, DarkLogoGobierno);
      var psa := JoinPath(folder, DarkLogoPsa);
      && HasCell(doc, "background-image") && HasCell(doc, "logo-gobierno") && HasCell(doc, "logo-psa")
      && HasCell(doc, "titulo") && HasCell(doc, "subtitulo")
      && Cell(r, "background-image") == Ok(UpdateImage(Cell(doc, "background-image").value, ImageMime(bg), files[bg]))
      && Cell(r, "logo-gobierno") == Ok(UpdateImage(Cell(doc, "logo-gobierno").value, ImageMime(gob), files[gob]))
      && Cell(r, "logo-psa") == Ok(UpdateImage(Cell(doc, "logo-psa").value, ImageMime(psa), files[psa]))
      && Cell(r, "titulo") == Ok(ChangeColorText(Cell(doc, "titulo").value, LightText))
      && Cell(r, "subtitulo") == Ok(ChangeColorText(Cell(doc, "subtitulo").value, LightText))
  {
    DarkPassFixed(doc, files, folder, "background-image");
    DarkPassFixed(doc, files, folder, "logo-gobierno");
    DarkPassFixed(doc, files, folder, "logo-psa");
    DarkPassFixed(doc, files, folder, "titulo");
    DarkPassFixed(doc, files, folder, "subtitulo");
  }

  /** The dark pass lightens every legend cell the document has, when the
      cells it edits are apart from one another. */
  lemma DarkPassLegend(doc: Node, files: Files, folder: string, k: nat)
    requires DarkPass(doc, files, folder).Ok? && AllApart(doc, DarkCells)
    requires LegendFirst <= k <= LegendLast && HasCell(doc, LegendId(k))
    ensures Cell(DarkPass(doc, files, folder).value, LegendId(k)) == Ok(LegendCell(Cell(doc, LegendId(k)).value))
  {
    DarkPassSteps(doc, files, folder);
    DarkCellsListed(DarkCells);
    FixedCellsListed(DarkCells);
    LegendIdInDarkCells(k);
    LegendIdNotFixed(k);
    FixedCellsPresent(doc);
    DarkImagesOn(doc, files, folder, DarkCells, LegendId(k));
    DarkLegendOn(doc, DarkImages(doc, files, folder).value, k);
  }

  /** The colour half on a legend cell. */
  lemma DarkLegendOn(doc: Node, d3: Node, k: nat)
    requires DarkColours(d3).Ok? && AllApart(doc, DarkCells) && SameShape(doc, d3)
    requires LegendFirst <= k <= LegendLast && HasCell(d3, LegendId(k))
    ensures Cell(DarkColours(d3).value, LegendId(k)) == Ok(LegendCell(Cell(d3, LegendId(k)).value))
  {
    var d4 := LegendPass(d3, LegendFirst);
    DarkCellsListed(DarkCells);
    FixedCellsListed(DarkCells);
    LegendIdInDarkCells(k);
    LegendIdNotFixed(k);
    AllApartShape(doc, d3, DarkCells);
    LegendPassCell(d3, LegendFirst, DarkCells, k);
    SameShapeTrans(doc, d3, d4);
    DarkTitlesOn(doc, d4, d4, DarkCells, LegendId(k));
  }

  /** The dark pass leaves every other cell as it was, when the cells it
      edits and that cell are apart from one another. */
  lemma DarkPassElsewhere(doc: Node, files: Files, folder: string, other: string)
    requires DarkPass(doc, files, folder).Ok?
    requires other !in DarkCells && AllApart(doc, DarkCells + [other])
    ensures Cell(DarkPass(doc, files, folder).value, other) == Cell(doc, other)
  {
    var ids := DarkCells + [other];
    DarkPassKeeps(doc, files, folder);
    if HasCell(doc, other) {
      DarkCellsListed(ids);
      forall k | LegendFirst <= k <= LegendLast ensures LegendId(k) != other {
        LegendIdInDarkCells(k);
      }
      NotLegendOf(other, LegendFirst);
      assert ids[|DarkCells|] == other;
      assert forall i :: 0 <= i < |DarkFixedCells| ==> DarkCells[i] == DarkFixedCells[i];
      DarkChain(doc, files, folder, ids, other);
    } else {
      SameShapeFind(doc, DarkPass(doc, files, folder).value, other);
    }
  }
}

=== FILE: value_mapper.dfy ===
/** The pure numeric mappers of the diagram generator: `get_y`, `get_level`
    and `round_to_nonzero_decimal` (solhycool_visualizations/diagrams.py:23-31,
    55-56, 111-119; generate_results.py:131-139, 149-150, 203-211), over reals. */
module ValueMapper {
  import opened Wrappers
  import opened Failures
  import Json

  /** `get_y`: the affine map sending `xmin` to `ymin` and `xmax` to `ymax`.
      Python raises ZeroDivisionError when `xmax == xmin`. */
  function GetY(x: real, xmin: real, xmax: real, ymin: real, ymax: real): (r: Result<real, Error>)
    ensures r.Err? <==> xmax == xmin
    ensures r.Err? ==> r.error == ZeroDivision
  {
    if xmax == xmin then Err(ZeroDivision)
    else Ok(((ymax - ymin) / (xmax - xmin)) * (x - xmin) + ymin)
  }

  /** `get_y` on looked-up JSON values, in Python's evaluation order:
      `xmax - xmin` comes first, so a bound that is not a number raises
      TypeError and equal bounds raise ZeroDivisionError before `x` is used
      at all; only then does `x - xmin` reject an `x` that is not a number. */
  function GetYOf(x: Json.Value, xmin: Json.Value, xmax: Json.Value, ymin: real, ymax: real): (r: Result<real, Error>)
    ensures Json.Number(xmax).Err? || Json.Number(xmin).Err? ==> r.Err? && r.error.TypeError?
    ensures Json.Number(xmax).Ok? && Json.Number(xmin).Ok? && Json.Number(xmax).value == Json.Number(xmin).value
            ==> r == Err(ZeroDivision)
    ensures r.Ok? <==> Json.Number(x).Ok? && Json.Number(xmin).Ok? && Json.Number(xmax).Ok?
                       && Json.Number(xmin).value != Json.Number(xmax).value
    ensures r.Ok? ==> r == GetY(Json.Number(x).value, Json.Number(xmin).value, Json.Number(xmax).value, ymin, ymax)
  {
    var hi :- Json.Number(xmax);
    var lo :- Json.Number(xmin);
    if hi == lo then Err(ZeroDivision)
    else
      var v :- Json.Number(x);
      GetY(v, lo, hi, ymin, ymax)
  }

  /** The defining equation of the line through `(xmin, ymin)` and `(xmax, ymax)`. */
  lemma GetYOnLine(x: real, xmin: real, xmax: real, ymin: real, ymax: real)
    requires xmax != xmin
    ensures (xmax - xmin) * (GetY(x, xmin, xmax, ymin, ymax).value - ymin) == (ymax - ymin) * (x - xmin)
  {
    var s := (ymax - ymin) / (xmax - xmin);
    assert s * (xmax - xmin) == ymax - ymin;
    calc {
      (xmax - xmin) * (GetY(x, xmin, xmax, ymin, ymax).value - ymin);
      (xmax - xmin) * (s * (x - xmin));
      (s * (xmax - xmin)) * (x - xmin);
      (ymax - ymin) * (x - xmin);
    }
  }

  /** The end points of the domain map to the end points of the range. */
  lemma GetYEndpoints(xmin: real, xmax: real, ymin: real, ymax: real)
    requires xmax != xmin
    ensures GetY(xmin, xmin, xmax, ymin, ymax) == Ok(ymin)
    ensures GetY(xmax, xmin, xmax, ymin, ymax) == Ok(ymax)
  {
    GetYOnLine(xmax, xmin, xmax, ymin, ymax);
    var r := GetY(xmax, xmin, xmax, ymin, ymax).value;
    assert (xmax - xmin) * (r - ymin) == (xmax - xmin) * (ymax - ymin);
  }

  /** Differences are proportional: the map is exactly linear. */
  lemma GetYLinear(x1: real, x2: real, xmin: real, xmax: real, ymin: real, ymax: real)
    requires xmax != xmin
    ensures (xmax - xmin) * (GetY(x2, xmin, xmax, ymin, ymax).value - GetY(x1, xmin, xmax, ymin, ymax).value)
         == (ymax - ymin) * (x2 - x1)
  {
    GetYOnLine(x1, xmin, xmax, ymin, ymax);
    GetYOnLine(x2, xmin, xmax, ymin, ymax);
  }

  /** With an increasing domain and a non-decreasing range the map is monotone. */
  lemma GetYMonotone(x1: real, x2: real, xmin: real, xmax: real, ymin: real, ymax: real)
    requires xmax > xmin && ymax >= ymin && x1 <= x2
    ensures GetY(x1, xmin, xmax, ymin, ymax).value <= GetY(x2, xmin, xmax, ymin, ymax).value
  {
    var s := (ymax - ymin) / (xmax - xmin);
    assert s >= 0.0;
    assert s * (x1 - xmin) <= s * (x2 - xmin);
  }

  /** A value inside the domain lands inside the range. */
  lemma GetYInRange(x: real, xmin: real, xmax: real, ymin: real, ymax: real)
    requires xmin < xmax && xmin <= x <= xmax && ymin <= ymax
    ensures ymin <= GetY(x, xmin, xmax, ymin, ymax).value <= ymax
  {
    GetYEndpoints(xmin, xmax, ymin, ymax);
    GetYMonotone(xmin, x, xmin, xmax, ymin, ymax);
    GetYMonotone(x, xmax, xmin, xmax, ymin, ymax);
  }

  /** `get_level`: 1, 2 or 3 by strict comparison against the two third-points. */
  function GetLevel(value: real, lo: real, hi: real): (level: int)
    ensures 1 <= level <= 3
  {
    var span := hi - lo;
    if value < lo + span / 3.0 then 1
    else if value < lo + 2.0 * span / 3.0 then 2
    else 3
  }

  /** `get_level` on looked-up JSON values: `max_value - min_value` rejects
      a bound that is not a number, then the comparison rejects a value that
      is not one. */
  function GetLevelOf(value: Json.Value, lo: Json.Value, hi: Json.Value): (r: Result<int, Error>)
    ensures r.Ok? <==> Json.Number(value).Ok? && Json.Number(lo).Ok? && Json.Number(hi).Ok?
    ensures r.Err? ==> r.error.TypeError?
    ensures r.Ok? ==> 1 <= r.value <= 3
                      && r.value == GetLevel(Json.Number(value).value, Json.Number(lo).value, Json.Number(hi).value)
  {
    var h :- Json.Number(hi);
    var l :- Json.Number(lo);
    var v :- Json.Number(value);
    Ok(GetLevel(v, l, h))
  }

  /** The level never decreases as the value grows, whatever the bounds
      (with `hi < lo` level 2 is simply never reached). */
  lemma GetLevelMonotone(v1: real, v2: real, lo: real, hi: real)
    requires v1 <= v2
    ensures GetLevel(v1, lo, hi) <= GetLevel(v2, lo, hi)
  {
  }

  /** The three levels partition `[lo, hi]` into thirds; a value exactly on
      a third-point already belongs to the higher level. */
  lemma GetLevelThirds(lo: real, hi: real)
    requires lo < hi
    ensures GetLevel(lo, lo, hi) == 1
    ensures GetLevel(lo + (hi - lo) / 3.0, lo, hi) == 2
    ensures GetLevel(lo + 2.0 * (hi - lo) / 3.0, lo, hi) == 3
    ensures GetLevel(hi, lo, hi) == 3
    ensures forall v :: lo <= v < lo + (hi - lo) / 3.0 ==> GetLevel(v, lo, hi) == 1
  {
  }

  /** On a degenerate range both third-points coincide with the bound:
      values below it are level 1, the bound itself and everything above
      are level 3, and level 2 is never reached. */
  lemma GetLevelDegenerate(x: real, v: real)
    ensures x < v ==> GetLevel(x, v, v) == 1
    ensures x >= v ==> GetLevel(x, v, v) == 3
  {
  }

  function Abs(x: real): real {
    if x < 0.0 then -x else x
  }

  function Pow10(k: nat): (r: real)
    ensures r >= 1.0
  {
    if k == 0 then 1.0 else 10.0 * Pow10(k - 1)
  }

  lemma {:induction false} Pow10Exceeds(k: nat)
    ensures Pow10(k) > k as real
  {
    if k > 0 {
      Pow10Exceeds(k - 1);
    }
  }

  lemma MulLe(a: real, x: real, y: real)
    requires a >= 0.0 && x <= y
    ensures a * x <= a * y
  {
    assert a * y - a * x == a * (y - x);
  }

  /** `a * 10^k`, computed by repeated multiplication by ten. */
  function Scaled(a: real, k: nat): real {
    if k == 0 then a else 10.0 * Scaled(a, k - 1)
  }

  lemma {:induction false} ScaledIsProduct(a: real, k: nat)
    ensures Scaled(a, k) == a * Pow10(k)
  {
    if k > 0 {
      ScaledIsProduct(a, k - 1);
      var p := Pow10(k - 1);
      assert Scaled(a, k) == 10.0 * (a * p);
      assert Pow10(k) == 10.0 * p;
      assert a * (10.0 * p) == 10.0 * (a * p);
    }
  }

  lemma {:induction false} ScaledGrows(a: real, k: nat)
    requires a > 0.0
    ensures a * (k as real + 1.0) <= Scaled(a, k)
  {
    if k > 0 {
      ScaledGrows(a, k - 1);
      var prev := Scaled(a, k - 1);
      var lin := a * (k as real);
      assert lin <= prev;
      var cur := a * (k as real + 1.0);
      assert cur == lin + a;
      assert a <= lin;
      assert Scaled(a, k) == 10.0 * prev;
    }
  }

  lemma BelowReciprocal(a: real, p: real)
    requires a > 0.0 && a * p < 1.0
    ensures p < 1.0 / a
  {
    var r := 1.0 / a;
    var ar := a * r;
    var ap := a * p;
    assert ar == 1.0;
    assert ap < 1.0;
    if p >= r {
      MulLe(a, r, p);
    }
  }

  lemma BelowFloor(k: nat, x: real)
    requires k as real < x
    ensures k <= x.Floor
  {
  }

  /** The smallest `s >= k` with `a * 10^s >= 1`. */
  function ScaleFrom(a: real, k: nat): (s: nat)
    requires a > 0.0 && k >= 1
    ensures s >= k && Scaled(a, s) >= 1.0
    ensures forall j: nat :: k <= j < s ==> Scaled(a, j) < 1.0
    decreases (1.0 / a).Floor + 1 - k
  {
    if Scaled(a, k) >= 1.0 then k
    else
      ScaledGrows(a, k);
      var q := k as real + 1.0;
      var aq := a * q;
      assert aq < 1.0;
      BelowReciprocal(a, q);
      BelowFloor(k, 1.0 / a);
      ScaleFrom(a, k + 1)
  }

  /** The decimal scale `round_to_nonzero_decimal` works at: the smallest
      `k >= 1` with `|n| * 10^k >= 1`. This is `max(1, -floor(log10 |n|))`. */
  function Scale(n: real): (k: nat)
    requires n != 0.0
    ensures k >= 1
  {
    ScaleFrom(Abs(n), 1)
  }

  /** `floor(a * 10^k) / 10^k`. */
  function Truncate(a: real, k: nat): real {
    Scaled(a, k).Floor as real / Pow10(k)
  }

  /** `round_to_nonzero_decimal`: truncate toward zero at the scale where the
      first non-zero digit sits, but never to fewer than one decimal. */
  function RoundToNonzeroDecimal(n: real): (r: real)
  {
    if n == 0.0 then 0.0
    else
      var sgn := if n < 0.0 then -1.0 else 1.0;
      sgn * Truncate(Abs(n), Scale(n))
  }

  lemma RoundZero()
    ensures RoundToNonzeroDecimal(0.0) == 0.0
  {
  }

  /** Rounding is odd: `f(-n) == -f(n)`. */
  lemma RoundOdd(n: real)
    ensures RoundToNonzeroDecimal(-n) == -RoundToNonzeroDecimal(n)
  {
    if n != 0.0 {
      assert Abs(-n) == Abs(n);
      assert Scale(-n) == Scale(n);
    }
  }

  lemma DivMonotone(x: real, y: real, f: real)
    requires x <= y && f > 0.0
    ensures x / f <= y / f
  {
  }

  lemma TruncateBounds(a: real, k: nat)
    requires a >= 0.0
    ensures 0.0 <= Truncate(a, k) <= a
  {
    var f := Pow10(k);
    ScaledIsProduct(a, k);
    var fl := (a * f).Floor as real;
    assert 0.0 <= a * f;
    assert 0.0 <= fl <= a * f;
    DivMonotone(fl, a * f, f);
    assert (a * f) / f == a;
    DivMonotone(0.0, fl, f);
  }

  /** Truncation toward zero: the result keeps the sign and never grows in magnitude. */
  lemma RoundShrinks(n: real)
    ensures Abs(RoundToNonzeroDecimal(n)) <= Abs(n)
    ensures n >= 0.0 ==> RoundToNonzeroDecimal(n) >= 0.0
    ensures n <= 0.0 ==> RoundToNonzeroDecimal(n) <= 0.0
  {
    if n != 0.0 {
      TruncateBounds(Abs(n), Scale(n));
    }
  }

  /** For `|n| >= 1` the code truncates to ONE decimal place: 123 gives 123.0, not 100. */
  lemma RoundLarge(n: real)
    requires Abs(n) >= 1.0
    ensures Scale(n) == 1
    ensures RoundToNonzeroDecimal(n) == (if n < 0.0 then -1.0 else 1.0) * ((Abs(n) * 10.0).Floor as real / 10.0)
  {
    assert Scaled(Abs(n), 1) >= 1.0;
    assert Pow10(1) == 10.0;
  }

  /** The digit `round_to_nonzero_decimal` keeps for a non-zero `n`. */
  function LeadingDigit(n: real): int
    requires n != 0.0
  {
    Scaled(Abs(n), Scale(n)).Floor
  }

  /** At the scale, `|n| * 10^k` lies in `[1, 10)`, and one position less
      stays below 1: the scale is the position of the first non-zero digit. */
  lemma ScaleWindow(n: real)
    requires 0.0 < Abs(n) < 1.0
    ensures 1.0 <= Scaled(Abs(n), Scale(n)) < 10.0
    ensures Scaled(Abs(n), Scale(n) - 1) < 1.0
  {
    var k := Scale(n);
    var a := Abs(n);
    assert Scaled(a, k - 1) < 1.0 by {
      if k > 1 {
        assert 1 <= k - 1 < k;
      }
    }
  }

  /** For `0 < |n| < 1` the result is one digit `d` in 1..9 placed at the first
      non-zero decimal `k`, the smallest position with `|n| * 10^k >= 1`. */
  lemma RoundSmall(n: real)
    requires 0.0 < Abs(n) < 1.0
    ensures Scaled(Abs(n), Scale(n)) >= 1.0 && Scaled(Abs(n), Scale(n) - 1) < 1.0
    ensures 1 <= LeadingDigit(n) <= 9
    ensures RoundToNonzeroDecimal(n) == (if n < 0.0 then -1.0 else 1.0) * (LeadingDigit(n) as real / Pow10(Scale(n)))
  {
    ScaleWindow(n);
  }

  /** A worked value: 0.0734 becomes 0.07. */
  lemma RoundExample()
    ensures RoundToNonzeroDecimal(0.0734) == 0.07
  {
    assert Scaled(0.0734, 1) < 1.0;
    assert Scaled(0.0734, 2) >= 1.0;
    assert ScaleFrom(0.0734, 2) == 2;
    assert Scale(0.0734) == 2;
    assert Pow10(2) == 100.0;
    assert Scaled(0.0734, 2).Floor == 7;
  }
}

=== FILE: widths.dfy ===
/** The stroke widths of the flow lines (generate_results.py:281-319 and
    solhycool_visualizations/diagrams.py:199-241). The cooling water flow
    `main` splits at two valves; the two variants of the diagram split in
    opposite orders. */
module Widths {
  import opened Wrappers
  import opened Failures
  import ValueMapper
  import Json

  /** The main line width spans 10 to 15 over the flow range. */
  const MinLineWidth: real := 10.0
  const MaxLineWidth: real := 15.0

  /** `line_width = get_y(qc, qc_min, qc_max, 10, 15)` on the looked-up values. */
  function MainWidth(qc: Json.Value, qcMin: Json.Value, qcMax: Json.Value): (r: Result<real, Error>)
    ensures Json.Number(qcMin).Ok? && Json.Number(qcMax).Ok? && Json.Number(qcMin).value == Json.Number(qcMax).value
            ==> r == Err(ZeroDivision)
    ensures r.Ok? ==> Json.Number(qc).Ok? && Json.Number(qcMin).Ok? && Json.Number(qcMax).Ok?
    ensures r.Ok? && Json.Number(qcMin).value <= Json.Number(qc).value <= Json.Number(qcMax).value
            ==> MinLineWidth <= r.value <= MaxLineWidth
  {
    var r := ValueMapper.GetYOf(qc, qcMin, qcMax, MinLineWidth, MaxLineWidth);
    if r.Ok? then
      var x, lo, hi := Json.Number(qc).value, Json.Number(qcMin).value, Json.Number(qcMax).value;
      if lo < hi && lo <= x <= hi then
        ValueMapper.GetYInRange(x, lo, hi, MinLineWidth, MaxLineWidth);
        r
      else r
    else r
  }

  /** The widths of one diagram. `bypass` is the branch that leaves the first
      valve straight for the wet cooling tower (`line_r2` in the first variant,
      `line_r1` in the second); `dc` feeds the dry cooler; `out1` and `out2`
      are the second valve's outlets; `wct` feeds the wet cooling tower. */
  datatype Split = Split(main: real, bypass: real, dc: real, out1: real, out2: real, wct: real)

  /** generate_results.py: the first split is by R2, the second by R1. */
  function SplitV1(main: real, r1: real, r2: real): (s: Split)
    ensures s.main == main
  {
    var bypass := main * (1.0 - r2);
    var dc := main * r2;
    var out1 := dc * (1.0 - r1);
    var out2 := dc * r1;
    Split(main, bypass, dc, out1, out2, bypass + out2)
  }

  /** diagrams.py: the first split is by R1, the second by R2. */
  function SplitV2(main: real, r1: real, r2: real): (s: Split)
    ensures s.main == main
  {
    var bypass := main * r1;
    var dc := main * (1.0 - r1);
    var out1 := dc * (1.0 - r2);
    var out2 := dc * r2;
    Split(main, bypass, dc, out1, out2, bypass + out2)
  }

  /** What both splits keep: each valve's outlets add up to its inlet, and
      the flow that reaches the tower plus the flow that leaves the dry cooler
      alone is the whole flow. */
  predicate Conserves(s: Split) {
    s.bypass + s.dc == s.main
    && s.out1 + s.out2 == s.dc
    && s.wct == s.bypass + s.out2
    && s.wct + s.out1 == s.main
  }

  /** Every width lies between 0 and the main width. */
  predicate Bounded(s: Split) {
    0.0 <= s.bypass <= s.main && 0.0 <= s.dc <= s.main && 0.0 <= s.out1 <= s.main
    && 0.0 <= s.out2 <= s.main && 0.0 <= s.wct <= s.main
  }

  predicate Fraction(x: real) { 0.0 <= x <= 1.0 }

  lemma SplitV1Conserves(main: real, r1: real, r2: real)
    ensures Conserves(SplitV1(main, r1, r2))
  {
    var s := SplitV1(main, r1, r2);
    var dc := main * r2;
    assert s.out1 + s.out2 == dc * (1.0 - r1) + dc * r1 == dc;
    assert s.bypass + s.dc == main * (1.0 - r2) + main * r2 == main;
  }

  lemma SplitV2Conserves(main: real, r1: real, r2: real)
    ensures Conserves(SplitV2(main, r1, r2))
  {
    var s := SplitV2(main, r1, r2);
    var dc := main * (1.0 - r1);
    assert s.out1 + s.out2 == dc * (1.0 - r2) + dc * r2 == dc;
    assert s.bypass + s.dc == main * r1 + main * (1.0 - r1) == main;
  }

  /** A part `x * f` of a non-negative width, with `f` a fraction, lies within it. */
  lemma FractionOf(x: real, f: real)
    requires 0.0 <= x && Fraction(f)
    ensures 0.0 <= x * f <= x
    ensures 0.0 <= x * (1.0 - f) <= x
  {
    assert x * f <= x * 1.0;
    assert x * (1.0 - f) <= x * 1.0;
  }

  /** Conservation and non-negative parts bound every width by the main one. */
  lemma ConservedIsBounded(s: Split)
    requires Conserves(s)
    requires 0.0 <= s.bypass && 0.0 <= s.dc && 0.0 <= s.out1 && 0.0 <= s.out2
    ensures Bounded(s)
  {
  }

  lemma SplitV1Bounded(main: real, r1: real, r2: real)
    requires 0.0 <= main && Fraction(r1) && Fraction(r2)
    ensures Bounded(SplitV1(main, r1, r2))
  {
    var s := SplitV1(main, r1, r2);
    SplitV1Conserves(main, r1, r2);
    FractionOf(main, r2);
    FractionOf(s.dc, r1);
    ConservedIsBounded(s);
  }

  lemma SplitV2Bounded(main: real, r1: real, r2: real)
    requires 0.0 <= main && Fraction(r1) && Fraction(r2)
    ensures Bounded(SplitV2(main, r1, r2))
  {
    var s := SplitV2(main, r1, r2);
    SplitV2Conserves(main, r1, r2);
    FractionOf(main, r1);
    FractionOf(s.dc, r2);
    ConservedIsBounded(s);
  }

  /** The two variants draw the same network: the second one's R1 is one
      minus the first one's R2 (R1 now sends flow to the bypass instead of the
      dry cooler), and its R2 is the first one's R1. */
  lemma SplitsAgreeUnderRelabelling(main: real, r1: real, r2: real)
    ensures SplitV2(main, 1.0 - r2, r1) == SplitV1(main, r1, r2)
  {
    var a := SplitV1(main, r1, r2);
    var b := SplitV2(main, 1.0 - r2, r1);
    assert b.bypass == a.bypass;
    assert b.dc == main * (1.0 - (1.0 - r2)) == main * r2 == a.dc;
  }

  /** With the valves at 0 the first variant sends everything through the
      bypass to the tower; with R2 = 1 and R1 = 0 everything goes through the
      dry cooler and out of its first outlet. */
  lemma SplitV1Extremes(main: real)
    ensures SplitV1(main, 0.0, 0.0) == Split(main, main, 0.0, 0.0, 0.0, main)
    ensures SplitV1(main, 0.0, 1.0) == Split(main, 0.0, main, main, 0.0, 0.0)
  {
  }

  /** The dashboard calls a point with R1 == R2 == 0 "just DC" and one with
      R1 == 1 "just WCT". The second variant draws exactly that: the first
      sends all the flow through the dry cooler, the second all of it to the
      tower. The first variant draws the "just DC" point the other way round,
      with the dry cooler dry. */
  lemma ModeLabelsMatchSecondVariant(main: real, r2: real)
    requires main > 0.0
    ensures SplitV2(main, 0.0, 0.0).dc == main && SplitV2(main, 0.0, 0.0).wct == 0.0
    ensures SplitV2(main, 1.0, r2).dc == 0.0 && SplitV2(main, 1.0, r2).wct == main
    ensures SplitV1(main, 0.0, 0.0).dc == 0.0 && SplitV1(main, 0.0, 0.0).wct == main
  {
  }
}

=== FILE: wrappers.dfy ===
/** Failure-compatible wrappers used across the model: an optional value and a
    result that is either a value or the error the source would raise. */
module Wrappers {

  datatype Option<+T> = None | Some(value: T) {
    predicate IsFailure() { None? }

    function PropagateFailure<U>(): Option<U>
      requires None?
    {
      None
    }

    function Extract(): T
      requires Some?
    {
      value
    }
  }

  datatype Result<+T, +E> = Ok(value: T) | Err(error: E) {
    predicate IsFailure() { Err? }

    function PropagateFailure<U>(): Result<U, E>
      requires Err?
    {
      Err(error)
    }

    function Extract(): T
      requires Ok?
    {
      value
    }
  }
}
